=== FILE: README.md ===
# Rippling OS core rules in Dafny

Rippling OS is an internal analytics workspace. It has three parts:

- **Projects** hold SQL queries, dashboards and reports.
- A **Next.js web app** shows dashboards behind a passcode login.
- **Command-line scripts** run queries against Snowflake, manage passcodes, and migrate query relationships.

This project models the rules that decide what the system shows, allows and writes. Each rule is a pure function or a small method over immutable values.

- **Dashboard data.** How stored result data is normalised into rows (`Projects`). How a dashboard renders: title and key defaults, the metric/other split and display indices (`DashboardRenderer`). How a data table picks its columns and headers and pages its rows (`DataTable`).
- **Layout editing.** Drag-reordering, visibility toggles, cancel and save (`DashboardEditor`).
- **Sharing.** The share dialog's permission set and its share-list transitions (`ShareDialog`).
- **Access decisions.** The edge middleware's redirects (`Middleware`). The login endpoint (`LoginRoute`). The passcode API (`PasscodesRoute`). The sign-in and session callbacks and the one-time code (`Auth`). The `@rippling.com` rule (`Accounts`).
- **The passcode CLI.** Code layout, hint, normalisation before hashing, derived user names, and the owner and admin checks of every command (`PasscodeCli`, over the tables in `PasscodeStore`).
- **Connection settings.** Where the query scripts get them: environment first, then TOML profiles, then per-field defaults (`Connections`). The query runner's arguments and default output path (`RunQuery`, with Node's POSIX `dirname`/`basename`/`join` in `Paths`).
- **The sidebar and user switcher.** The owner filter and the switcher's labels (`DashboardShell`, `UserSwitcher`).
- **The query-relationship migration** (`Migration`). It computes the dashboard and report links written for a project snapshot, in order, together with its three counters.

Shared helpers:

- `Json`: JavaScript values, truthiness, `||` and property reads.
- `Text`: strings.
- `Wrappers`: `Option` and `Result`.
- `Widgets`: the stored widget record.

The database, Snowflake, the file system, the clock, randomness and React are replaced by plain values:

- **Stores:** `Store` has maps for users and passcodes. The migration's `Project` is a snapshot.
- **Files:** a file read becomes `FileRead` or `TomlFile` (missing, unreadable or parsed). The environment is a map.
- **Calls that may throw** become `Attempt` values (`Done` or `Threw`). This covers `request.json()`, the session lookup, `git config` and the DB calls whose failure the code catches.
- **Randomness:** random draws are inputs. Each passcode letter is an alphabet index, and the OTP is one number below 900000.
- **Hashing and number formatting:** bcrypt and `toLocaleString` are function parameters.

## Model

| member | source | states |
|---|---|---|
| Projects.GetProjects | web/lib/projects.ts:38-47 | the manifest's project list when the manifest reads and has one, else the empty list |
| Projects.FindBySlug | web/lib/projects.ts:49-52 | none exactly when no project has the slug; otherwise a listed project with that slug |
| Projects.GetProject | web/lib/projects.ts:49-52 | the first project of the manifest with the requested slug, as `find` returns it, and null exactly when none has it |
| Projects.LoadWidgetData | web/lib/projects.ts:77-105 | missing or unreadable file gives no rows; an array is returned as is; an object whose `data` is an array gives that array; a parsed `null` gives no rows (the thrown read is caught); any other value gives the one-element list of it |
| Projects.StoredShapesAgree | web/lib/projects.ts:93-99 | the three stored shapes (bare rows, `{data: rows}`, a single row object) load to the same rows |
| Projects.AttachData | web/lib/projects.ts:115-127 | a widget keeps every field but `data`, which becomes the rows loaded from the file it names |
| Projects.GetDashboardWithData | web/lib/projects.ts:107-129 | null exactly when the config is null; an uncaught throw exactly when `widgets` is not an array or holds a null entry; otherwise title, description and layout kept, same widget count and order, each widget with its rows attached |
| DashboardRenderer.DisplayTitle | web/components/dashboard/DashboardRenderer.tsx:36 | the widget's title when it has text, else its query name, else "Widget n" for position n counting from 1 |
| DashboardRenderer.DefaultTitleNumber | web/components/dashboard/DashboardRenderer.tsx:36 | the default title reads back as the widget's position counted from 1 |
| DashboardRenderer.DefaultTitlesDistinct | web/components/dashboard/DashboardRenderer.tsx:36 | different positions never get the same default title |
| DashboardRenderer.ValueKey | web/components/dashboard/DashboardRenderer.tsx:41 | a metric reads `valueKey` when it has text, else "value" |
| DashboardRenderer.MetricValue | web/components/dashboard/DashboardRenderer.tsx:42 | the first row's field under the value key, or 0 when there are no rows or the field is null or missing |
| DashboardRenderer.RenderWidget | web/components/dashboard/DashboardRenderer.tsx:34-80 | a metric, chart or table widget gives exactly a metric, chart or table card respectively, keyed by the index and titled by DisplayTitle; charts default to "line", "x", "y"; any other type renders nothing |
| DashboardRenderer.Metrics | web/components/dashboard/DashboardRenderer.tsx:87 | only metric widgets are kept |
| DashboardRenderer.Others | web/components/dashboard/DashboardRenderer.tsx:88 | no metric widget is kept |
| DashboardRenderer.PartitionComplete | web/components/dashboard/DashboardRenderer.tsx:87-88 | the two groups together hold every widget exactly as often as the list does |
| DashboardRenderer.PartitionKeepsOrder | web/components/dashboard/DashboardRenderer.tsx:87-88 | splitting a concatenation splits each part and keeps them in order, so relative order is kept within each group |
| DashboardRenderer.Render | web/components/dashboard/DashboardRenderer.tsx:31-125 | grid layout exactly when the layout is "grid" or unset; empty state exactly when there are no widgets; a heading only with a title, showing that title, and a description only with both, showing that description |
| DashboardRenderer.DisplayIndices | web/components/dashboard/DashboardRenderer.tsx:101-113 | the k-th card in display order is rendered with index k; display order is a permutation of the widgets |
| DashboardEditor.RemoveInsert | web/components/dashboard/DashboardEditor.tsx:48-50 | removing what was just inserted gives the list back |
| DashboardEditor.InsertRemove | web/components/dashboard/DashboardEditor.tsx:48-50 | re-inserting a removed element where it was gives the list back |
| DashboardEditor.MultisetRemoveInsert | web/components/dashboard/DashboardEditor.tsx:48-50 | a remove followed by an insert of the removed element is a permutation |
| DashboardEditor.Move | web/components/dashboard/DashboardEditor.tsx:48-50 | the move is a permutation of the same length that puts the dragged widget at the target, and the others keep their order |
| DashboardEditor.MovePositions | web/components/dashboard/DashboardEditor.tsx:48-50 | widgets outside the range between the two indices stay put; those inside shift one place towards the origin |
| DashboardEditor.MoveBack | web/components/dashboard/DashboardEditor.tsx:44-54 | dragging the widget straight back restores the order |
| DashboardEditor.DragStart | web/components/dashboard/DashboardEditor.tsx:40-42 | remembers the dragged index and keeps the config |
| DashboardEditor.DragOver | web/components/dashboard/DashboardEditor.tsx:44-54 | no-op with nothing dragged or over the dragged widget itself; otherwise moves the dragged widget to the target, which becomes the dragged index, and keeps the rest of the config |
| DashboardEditor.DragEnd | web/components/dashboard/DashboardEditor.tsx:56-58 | clears the dragged index and keeps the config |
| DashboardEditor.Toggle | web/components/dashboard/DashboardEditor.tsx:60-67 | sets `hidden` at the index to the opposite of its hidden-ness (unset counts as shown) and changes nothing else |
| DashboardEditor.ToggleOnlyHidden | web/components/dashboard/DashboardEditor.tsx:60-67 | the toggled widget differs from the original only in `hidden`, and its hidden-ness flips |
| DashboardEditor.ToggleTwice | web/components/dashboard/DashboardEditor.tsx:60-67 | toggling twice restores hidden-ness, and the whole state when `hidden` was set |
| DashboardEditor.Cancel | web/components/dashboard/DashboardEditor.tsx:90-93 | back to exactly the initial config, out of editing mode |
| DashboardEditor.StartEditing | web/components/dashboard/DashboardEditor.tsx:97-107 | enters editing mode; the config, the dragged index and the saving flag are unchanged |
| DashboardEditor.SaveBegin | web/components/dashboard/DashboardEditor.tsx:69-70 | a save in progress, with the same config, mode and dragged index |
| DashboardEditor.SaveFinished | web/components/dashboard/DashboardEditor.tsx:69-88 | saving ends; editing mode is left exactly when the save succeeded |
| DashboardEditor.ItemLabel | web/components/dashboard/DashboardEditor.tsx:153 | the title when it is a non-empty string, else the query name when it is, else the type followed by " widget" |
| DashboardEditor.View | web/components/dashboard/DashboardEditor.tsx:38-175 | nothing without edit rights; the edit button exactly outside editing mode; in editing mode one item per widget with its caption, faded and titled "Show widget" exactly when hidden, marked dragging exactly at the dragged index, and the save label and disabled buttons following the save in progress |
| DashboardEditor.ViewFollowsTransitions | web/components/dashboard/DashboardEditor.tsx:69-135 | the edit button opens the list, cancel and a successful save close it, a save in progress shows "Saving..." with the buttons disabled, a failed one returns to "Save Changes" |
| DashboardEditor.ToggleInView | web/components/dashboard/DashboardEditor.tsx:137-171 | toggling a widget flips its item's fading and eye-button title and leaves every other item and the caption as they were |
| DashboardEditor.DragOverInView | web/components/dashboard/DashboardEditor.tsx:137-153 | after a drag-over the hovered position shows the dragged widget's caption and is the only item marked as dragged |
| DataTable.Columns | web/components/dashboard/DataTable.tsx:35-40 | no columns for empty data even with names given; else the given names; else the first row's keys in order, and a thrown `Object.keys` exactly when that first row is `null` |
| DataTable.SpaceUnderscores | web/components/dashboard/DataTable.tsx:42 | same length, no underscore left |
| DataTable.UpperWordStarts | web/components/dashboard/DataTable.tsx:42 | same length; word-start letters upper-cased, everything else kept |
| DataTable.HeaderTextChars | web/components/dashboard/DataTable.tsx:42 | the header has the key's length and no underscore, and each position is the key's character, a space for an underscore, or its upper case at a word start |
| DataTable.HeaderTextExample | web/components/dashboard/DataTable.tsx:42 | "first_name" becomes "First Name" |
| DataTable.HeaderTextIdempotent | web/components/dashboard/DataTable.tsx:42 | making a header of a header changes nothing |
| DataTable.CellText | web/components/dashboard/DataTable.tsx:43-49 | null or missing gives ""; a number goes through the formatter; other values give their `String(...)` text |
| DataTable.PageCount | web/components/dashboard/DataTable.tsx:131-135 | the fewest pages of ten that hold every row |
| DataTable.Page | web/components/dashboard/DataTable.tsx:53-68 | at most ten rows, entry j of page k being data row 10k+j |
| DataTable.PageSizes | web/components/dashboard/DataTable.tsx:53-68 | every page before the last holds ten rows, the last the remainder, and none past it |
| DataTable.EveryRowOnAPage | web/components/dashboard/DataTable.tsx:53-68 | row i appears as entry i mod 10 of page i div 10, which exists |
| DataTable.Table | web/components/dashboard/DataTable.tsx:35-156 | a render error when the column keys throw; otherwise one header per column with its header text; one line for each row of the current page and no other, holding the cell text of that data row for every column; the empty-state cell exactly when the page has no rows, spanning every column; page controls exactly when there are more than ten rows, with Previous enabled after the first page and Next before the last |
| DataTable.FirstPage | web/components/dashboard/DataTable.tsx:64-68 | the table first shows the first ten rows, or all of them when there are fewer, and the empty state only without data |
| DataTable.NextPage | web/components/dashboard/DataTable.tsx:146-153 | moves one page on exactly when a later page exists, and never leaves the pages |
| DataTable.PreviousPage | web/components/dashboard/DataTable.tsx:138-145 | moves one page back unless on the first, and never leaves the pages |
| DataTable.ReachablePageShowsRows | web/components/dashboard/DataTable.tsx:104-124 | any page the controls reach shows rows exactly when there is data, and Previous undoes a Next that moved |
| DataTable.EmptyTableHasNoColumns | web/components/dashboard/DataTable.tsx:36 | empty data shows no headers, a zero-width empty cell and no page controls, whatever names are given |
| ShareDialog.PermissionText | web/components/project/ShareDialog.tsx:8 | a permission is one of "VIEW", "EDIT", "ADMIN" |
| ShareDialog.ParsePermission | web/components/project/ShareDialog.tsx:8 | exactly those three strings are permissions |
| ShareDialog.PermissionRoundTrip | web/components/project/ShareDialog.tsx:8 | parsing a permission's text gives it back, and printing a parsed one gives the text back |
| ShareDialog.PermissionLabel | web/components/project/ShareDialog.tsx:288 | a read-only row shows the permission in lower case |
| ShareDialog.Initial | web/components/project/ShareDialog.tsx:36-46 | no shares, loading, no error, empty email, VIEW, not adding |
| ShareDialog.Without | web/components/project/ShareDialog.tsx:123 | keeps exactly the shares with another id |
| ShareDialog.WithoutAppend | web/components/project/ShareDialog.tsx:123 | removal works part by part and keeps the order of the rest |
| ShareDialog.WithoutAbsent | web/components/project/ShareDialog.tsx:123 | removing an id no share has changes nothing |
| ShareDialog.WithPermission | web/components/project/ShareDialog.tsx:144-146 | only the permission of shares with the id changes; length, order, ids and users stay |
| ShareDialog.WithPermissionTwice | web/components/project/ShareDialog.tsx:144-146 | the last update wins |
| ShareDialog.FetchBegin | web/components/project/ShareDialog.tsx:65-68 | loading starts and the error clears |
| ShareDialog.FetchEnd | web/components/project/ShareDialog.tsx:69-81 | loading ends; a success installs owner and shares; a failure keeps the shares and sets the error |
| ShareDialog.AddBegin | web/components/project/ShareDialog.tsx:83-95 | a blank or whitespace-only email sends nothing and changes nothing; otherwise the trimmed email and permission are sent and adding starts |
| ShareDialog.AddEnd | web/components/project/ShareDialog.tsx:96-111 | a success appends the new share and resets the form to "" and VIEW; a refusal or a throw keeps the shares and sets the error |
| ShareDialog.RemoveEnd | web/components/project/ShareDialog.tsx:114-127 | a success drops the shares with the id; a failure only sets the error |
| ShareDialog.UpdateEnd | web/components/project/ShareDialog.tsx:129-150 | a success changes that share's permission; a failure only sets the error |
| ShareDialog.FailuresKeepShares | web/components/project/ShareDialog.tsx:98-148 | no failed request changes the share list |
| ShareDialog.Row | web/components/project/ShareDialog.tsx:247-293 | management controls exactly when the viewer may manage; otherwise the permission's label; the user's name falls back to the email's local part |
| ShareDialog.View | web/components/project/ShareDialog.tsx:152-341 | nothing while closed; the loading state exactly while loading; once loaded, one row per share and the add form only for managers |
| ShareDialog.ReadOnlyViewer | web/components/project/ShareDialog.tsx:262-299 | a viewer who may not manage sees no controls and no add form |
| PasscodeStore.Summarize | web/app/api/passcodes/route.ts:41-48 | a listing entry carries id, hint, name and dates of the row, and never its hash |
| PasscodeStore.OwnedIds | scripts/passcode.ts:305-312 | exactly the ids of the passcodes the address owns |
| PasscodeStore.SummariesOf | web/app/api/passcodes/route.ts:38-52 | exactly the summaries of the passcodes the address owns |
| PasscodeStore.DeletePasscode | scripts/passcode.ts:357 | removes exactly that passcode and keeps every other row and all users |
| PasscodesRoute.ListTarget | web/app/api/passcodes/route.ts:21-26 | the caller's own address unless a different target address with text is given |
| PasscodesRoute.Get | web/app/api/passcodes/route.ts:9-72 | 401 without a session, 500 when the lookup throws, 403 for someone else's list unless admin, 404 for an unknown user, else that user's summaries and the admin flag |
| PasscodesRoute.ListingIsScoped | web/app/api/passcodes/route.ts:21-64 | a listing needs a session, and a non-admin only ever sees passcodes they own |
| PasscodesRoute.Delete | web/app/api/passcodes/route.ts:79-141 | 401, 500, 400 without an id, 404 for an unknown one, 403 unless owner or admin; only a success changes the store, removing that passcode |
| PasscodesRoute.DeleteRemovesOnlyThat | web/app/api/passcodes/route.ts:118-133 | users stay, at most one passcode goes, the rest are unchanged, and the one that goes was the caller's or the caller is admin |
| LoginRoute.Post | web/app/api/auth/login/route.ts:5-43 | success only with a truthy passcode that validates to a user and a session created for that user's id; failures are 400, 401 or 500; no session without validation |
| LoginRoute.PostCases | web/app/api/auth/login/route.ts:9-42 | unreadable or null body is 500; missing passcode is 400 with no validation; invalid is 401 with no session; a valid one creates one session for the user's id and returns email and name, or 500 when creation throws |
| Middleware.Decide | web/middleware.ts:10-46 | "/api/auth" paths and the development bypass pass; otherwise a redirect exactly when being logged in and being on "/login" coincide, to "/login" with the path as callback or to "/" |
| Middleware.NoRedirectLoop | web/middleware.ts:26-45 | "/login" is never sent to itself, no redirect points back at the requested path, and following a redirect passes |
| Auth.GenerateOtp | web/lib/auth.ts:8-10 | six decimal digits, no leading zero, value 100000 plus the draw |
| Auth.OtpCoversRange | web/lib/auth.ts:8-10 | every six-digit code without a leading zero is generated by exactly one draw |
| Auth.DecimalBounds | web/lib/auth.ts:9 | an n-digit string's value is below 10^n, and at least 10^(n-1) without a leading zero |
| Auth.DecimalPrint | web/lib/auth.ts:9 | printing the value of a digit string without a leading zero gives the string back |
| Auth.SignIn | web/lib/auth.ts:47-53 | sign-in allowed exactly for a present address ending in "@rippling.com" |
| Auth.SessionCallback | web/lib/auth.ts:54-60 | sets the session user's id when there is a user, and keeps every other field |
| Auth.SessionCallbackIdempotent | web/lib/auth.ts:54-60 | running the callback twice is running it once |
| Accounts.LocalPart | scripts/passcode.ts:266 | the address up to its first "@", all of it without one |
| Accounts.DisplayName | web/components/auth/UserSwitcher.tsx:93 | the name when it has text, else the local part |
| Accounts.RipplingLocalPart | scripts/passcode.ts:63-69 | a Rippling address has an "@" and its local part ends before the domain |
| PasscodeCli.AlphabetChars | scripts/passcode.ts:76 | 32 characters, each at its own alphabet index |
| PasscodeCli.AlphabetFacts | scripts/passcode.ts:76 | 32 distinct upper-case characters, none of '0', 'O', '1', 'I' or '-' |
| PasscodeCli.Group | scripts/passcode.ts:77-82 | a group is four alphabet letters and no dash |
| PasscodeCli.LayoutShape | scripts/passcode.ts:75-83 | length 19, dashes exactly at 4, 9 and 14, alphabet letters elsewhere |
| PasscodeCli.LayoutIsGroups | scripts/passcode.ts:75-83 | the code is its four groups joined by dashes |
| PasscodeCli.GeneratePasscode | scripts/passcode.ts:75-83 | the loop builds exactly that layout |
| PasscodeCli.Hint | scripts/passcode.ts:88-91 | the last four characters of the dash-stripped code, or all of them when fewer |
| PasscodeCli.Letters | scripts/passcode.ts:75-83 | sixteen letters, one per draw |
| PasscodeCli.LayoutLetters | scripts/passcode.ts:75-83 | stripping the dashes leaves the sixteen letters |
| PasscodeCli.GroupsAreLetters | scripts/passcode.ts:75-83 | the four groups together are the sixteen letters |
| PasscodeCli.HintIsLastGroup | scripts/passcode.ts:88-91 | for a generated code the hint is the final group |
| PasscodeCli.HashInput | scripts/passcode.ts:258 | the normalised input has no dash and is no longer than the code |
| PasscodeCli.HashInputIdempotent | scripts/passcode.ts:258 | normalising twice is normalising once |
| PasscodeCli.HashInputIgnoresDashes | scripts/passcode.ts:258 | a dash typed anywhere makes no difference |
| PasscodeCli.HashInputIgnoresCase | scripts/passcode.ts:258 | inputs equal up to case hash the same |
| PasscodeCli.HashOfGenerated | scripts/passcode.ts:258 | a generated code is hashed as its sixteen letters |
| PasscodeCli.Capitalize | scripts/passcode.ts:266 | upper-cases the first character and keeps the rest |
| PasscodeCli.NameCharsAgree | scripts/passcode.ts:266 | split on ".", capitalise, join with spaces is the same as: each dot becomes a space and the character after it is upper-cased |
| PasscodeCli.DerivedNameChars | scripts/passcode.ts:266 | a new user's name has the local part's length, dots turned into spaces and word starts upper-cased |
| PasscodeCli.DerivedNameOfFirstLast | scripts/passcode.ts:266 | "first.last@domain" is named "First Last" |
| PasscodeCli.Identity | scripts/passcode.ts:46-69 | the trimmed git address when it is set and ends in "@rippling.com"; a failing or empty `git config` is the no-email error; any other address is the not-Rippling error naming it |
| PasscodeCli.Generate | scripts/passcode.ts:243-296 | with a valid identity and Snowflake access, a new row holds the hash of the normalised code and its hint, and a user row is created only for an unknown address, named from it; an identity failure is reported as that error and a failed Snowflake test as the access error |
| PasscodeCli.GeneratedRow | scripts/passcode.ts:273-279 | the new row exists, belongs to a user that exists, and its hint is the code's last group |
| PasscodeCli.List | scripts/passcode.ts:301-332 | the caller's passcodes when the caller has a user row, none when they have not; an identity failure is reported as that error |
| PasscodeCli.Delete | scripts/passcode.ts:337-359 | deletes exactly that passcode when it exists and the caller owns it; otherwise the identity error, not-found or not-yours, and nothing changes |
| PasscodeCli.PasscodeCounts | scripts/passcode.ts:404-425 | exactly the users with at least one passcode, each with their count |
| PasscodeCli.AdminList | scripts/passcode.ts:364-430 | only the admin address; with a target its passcodes or user-not-found, without one the per-user counts; an identity failure is reported as that error |
| PasscodeCli.AdminDelete | scripts/passcode.ts:435-458 | only the admin address, and then any existing passcode is deleted; otherwise the identity error, admin-only or not-found |
| PasscodeCli.ParseCommand | scripts/passcode.ts:477-526 | each command name gives its command: no argument or a help flag is help; generate and list; admin:list with its optional email; delete and admin:delete with a non-empty id, else the missing-id error; any other name the unknown-command error naming it |
| PasscodeCli.UsageLinesDispatch | scripts/passcode.ts:462-526 | each command line printed in the usage text is dispatched to the command it documents, with trailing arguments ignored |
| PasscodeCli.DispatchIsDocumented | scripts/passcode.ts:462-526 | whatever the dispatch accepts starts with a documented command line |
| Connections.EnvVar | scripts/run-query.ts:57 | an environment variable is present exactly when it is set |
| Connections.ToSnowflake | scripts/local-query.ts:80-91 | each unset field takes its fixed default; username is `user`, else `username`, else ""; the authenticator becomes "EXTERNALBROWSER" exactly when it is that case-insensitively and passes through otherwise; credentials are cached |
| Connections.ProfileIn | scripts/local-query.ts:51-62 | `connections.<name>` when truthy, else a top-level table only when it has an account or a user |
| Connections.FirstConnection | scripts/local-query.ts:65-70 | the first entry of `connections` exactly when it is a table whose first key is not empty |
| Connections.SelectProfile | scripts/local-query.ts:48-70 | "rippling", then "default", then the first connection; none only when all three are absent |
| Connections.FromFile | scripts/local-query.ts:44-74 | the selected profile converted, and nothing when the conversion throws on a null profile |
| Connections.FromToml | scripts/local-query.ts:35-78 | the first file in order that yields a connection decides; missing and unparsable files are passed over |
| Connections.FromEnv | scripts/local-query.ts:96-107 | the given user with the browser authenticator; each `SNOWFLAKE_*` variable with text wins over its default |
| Connections.LocalQueryConfig | scripts/local-query.ts:93-121 | the environment first; a TOML profile without a user is an error; no configuration at all is an error |
| Connections.PasscodeConfig | scripts/passcode.ts:161-193 | the environment first, then a TOML profile with a user, else the git address with every default |
| Connections.RunQueryConfig | scripts/run-query.ts:56-75 | an error without `RIPPLING_ACCOUNT_EMAIL`; otherwise the environment's settings with defaults and no caching option |
| Connections.ConfigAlwaysNamesUser | scripts/local-query.ts:110-115 | every configuration the scripts accept names a user |
| Connections.EnvironmentFirst | scripts/local-query.ts:94-107 | with the account address set, the TOML files are never consulted and the scripts agree up to the caching option |
| Connections.PasscodeAgreesWithLocal | scripts/passcode.ts:161-180 | when the local runner finds a configuration, the passcode script uses the same one |
| Connections.FirstFileWins | scripts/local-query.ts:41-75 | connections.toml, when it yields a connection, hides config.toml |
| Connections.RipplingConnectionWins | scripts/local-query.ts:52-56 | a truthy `connections.rippling` is used whatever else the file holds |
| RunQuery.LastPositional | scripts/run-query.ts:42-44 | the last argument that is neither a flag value nor dash-led |
| RunQuery.LastFlag | scripts/run-query.ts:39-41 | the last output flag that is not itself a flag's value |
| RunQuery.ParseArgs | scripts/run-query.ts:27-53 | no arguments is the usage error; the SQL file is the last positional argument and must be non-empty; the output is the argument after the last active flag, if any |
| RunQuery.WithoutFlags | scripts/run-query.ts:38-45 | without output flags every non-dash argument is positional and there is no output file |
| RunQuery.DocumentedUsage | scripts/run-query.ts:10-15 | `<sql-file> --output <json-file>` parses as documented |
| RunQuery.FlagValueIsNotSql | scripts/run-query.ts:39-41 | the value after an output flag is never the SQL file |
| RunQuery.OutputPath | scripts/run-query.ts:133-140 | the given output file when it has text, else the default path |
| RunQuery.DefaultOutputOfQuery | scripts/run-query.ts:133-140 | `dir/queries/<stem>.sql` writes to `dir/data/<stem>.json` |
| RunQuery.QueryPathParts | scripts/run-query.ts:136-137 | the directory and the stem of a query file |
| RunQuery.DataFile | scripts/run-query.ts:138-139 | joining the data directory and the result file name |
| RunQuery.DefaultOutputExample | scripts/run-query.ts:14-15 | `projects/my-analysis/queries/count.sql` writes to `projects/my-analysis/data/count.json` |
| DashboardShell.OwnedBy | web/components/layout/DashboardShell.tsx:51 | exactly the projects owned by the address |
| DashboardShell.FilteredProjects | web/components/layout/DashboardShell.tsx:50-52 | every project without a selection, the owner filter with one |
| DashboardShell.OwnedByAppend | web/components/layout/DashboardShell.tsx:51 | the filter keeps input order |
| DashboardShell.OwnedByCounts | web/components/layout/DashboardShell.tsx:51 | an owned project is kept as often as it occurs, any other not at all |
| DashboardShell.OwnedByIdempotent | web/components/layout/DashboardShell.tsx:51 | filtering twice is filtering once |
| DashboardShell.UnownedHidden | web/components/layout/DashboardShell.tsx:51 | a project without an owner is hidden under any selection |
| DashboardShell.AllOwnedKept | web/components/layout/DashboardShell.tsx:51 | nothing is hidden when the address owns every project |
| DashboardShell.ChoiceFiltersSidebar | web/components/layout/DashboardShell.tsx:50-69 | choosing "All Users" shows every project; choosing a user shows exactly that user's |
| UserSwitcher.FindByEmail | web/components/auth/UserSwitcher.tsx:29 | a listed user with the address, and none exactly when nobody has it |
| UserSwitcher.FirstIndex | web/components/auth/UserSwitcher.tsx:29 | the first position with the address |
| UserSwitcher.FindIsFirst | web/components/auth/UserSwitcher.tsx:29 | the lookup returns the first user with the address |
| UserSwitcher.SelectedUser | web/components/auth/UserSwitcher.tsx:28-30 | nobody for an empty selection, else the lookup |
| UserSwitcher.UserName | web/components/auth/UserSwitcher.tsx:93 | the name when it has text, else the local part of the address |
| UserSwitcher.Label | web/components/auth/UserSwitcher.tsx:32-34 | "All Users" when nobody matches, else the selected user's name |
| UserSwitcher.CountText | web/components/auth/UserSwitcher.tsx:119-120 | the count and " project", with an "s" exactly when the count is not 1 |
| UserSwitcher.CountReadsBack | web/components/auth/UserSwitcher.tsx:119 | the digits before the first space are the count's decimal form and read back as the count |
| UserSwitcher.EntryOf | web/components/auth/UserSwitcher.tsx:91-122 | "(you)" exactly for the signed-in address; marked exactly for the selected one |
| UserSwitcher.Entries | web/components/auth/UserSwitcher.tsx:90-126 | one entry per user, in order |
| UserSwitcher.Choose | web/components/auth/UserSwitcher.tsx:69-100 | "All Users" selects null; a user selects their address |
| UserSwitcher.LabelAgreesWithMarks | web/components/auth/UserSwitcher.tsx:28-122 | with a selection, no entry is marked exactly when the label is "All Users"; otherwise the label is the name on the first marked entry |
| UserSwitcher.ChoosingAUser | web/components/auth/UserSwitcher.tsx:98-122 | after choosing a user, the label is the first such user's name and exactly the entries with that address are marked |
| UserSwitcher.ChoosingAll | web/components/auth/UserSwitcher.tsx:69-81 | after "All Users", that option is marked, the label says so and no entry is marked |
| Migration.WidgetArray | scripts/migrate-query-relationships.ts:64 | `config.widgets` when it is a truthy array |
| Migration.WidgetNames | scripts/migrate-query-relationships.ts:60-70 | fails exactly when the config or a widget is null; otherwise lists each truthy `queryName` once |
| Migration.FindQuery | scripts/migrate-query-relationships.ts:74 | a query of the project with that name, none exactly when no query has it |
| Migration.FindDashboard | scripts/migrate-query-relationships.ts:120 | a dashboard with that name, none exactly when none has it |
| Migration.Step1Origin | scripts/migrate-query-relationships.ts:73-90 | a step-1 link is a dashboard link to one of the project's dashboards, for a query step 1 marks |
| Migration.Step1Member | scripts/migrate-query-relationships.ts:59-92 | a link is made in step 1 exactly when one dashboard makes it |
| Migration.Step1LinkedMember | scripts/migrate-query-relationships.ts:73-91 | a query is marked in step 1 exactly when one dashboard marks it |
| Migration.Step1Sound | scripts/migrate-query-relationships.ts:59-92 | step 1 links a dashboard and a query only when a widget of that dashboard names the query and the pair was not linked already |
| Migration.UnmatchedNameIgnored | scripts/migrate-query-relationships.ts:74-75 | a name no query carries adds no link and marks nothing |
| Migration.LinkNames | scripts/migrate-query-relationships.ts:73-92 | appends to what was written exactly the dashboard's links for its names, each once, and marks the queries found |
| Migration.NewNameNewLink | scripts/migrate-query-relationships.ts:73-86 | with unique query ids, a name not seen before gives a link not written before |
| Migration.FindQueryDistinct | scripts/migrate-query-relationships.ts:74 | with unique ids, different names find different queries |
| Migration.NotYetLinked | scripts/migrate-query-relationships.ts:76-86 | with unique dashboard ids, nothing earlier dashboards wrote links to the next one |
| Migration.LinkDashboards | scripts/migrate-query-relationships.ts:59-93 | step 1 writes exactly its links, each once, and counts them; a null config or widget stops it with the earlier dashboards' links written |
| Migration.LinkReports | scripts/migrate-query-relationships.ts:95-117 | step 2 writes exactly the links of report queries to the first report that are not there yet, each once, and counts them |
| Migration.ReportLinksOnlyForReportQueries | scripts/migrate-query-relationships.ts:96-111 | a report link goes to the first report, for a `report_`/`report-` query not linked to it already |
| Migration.Step2Origin | scripts/migrate-query-relationships.ts:96-111 | a step-2 link comes from a report query and the first report |
| Migration.AttachOrphans | scripts/migrate-query-relationships.ts:119-142 | step 3 writes exactly its links, each once, and counts them |
| Migration.OrphansExactly | scripts/migrate-query-relationships.ts:119-142 | "main" gets exactly the queries steps 1 and 2 left unmarked and not attached already; no "main" dashboard, no links |
| Migration.Step3Member | scripts/migrate-query-relationships.ts:119-138 | the same for any set of marked queries |
| Migration.MigrateProject | scripts/migrate-query-relationships.ts:52-145 | the writes are steps 1, 2 and 3 in order, each the counter's length; a thrown read stops after step 1's earlier writes; with unique ids nothing is written twice and each counter is the size of its step's link set |
| Migration.StepsDisjoint | scripts/migrate-query-relationships.ts:52-145 | the three steps never write the same link |
| Migration.StepCounts | scripts/migrate-query-relationships.ts:81-135 | each counter equals the number of distinct links its step creates |
| Migration.AddLinks | scripts/migrate-query-relationships.ts:76-80 | a query after the writes has its old links plus those written for it |
| Migration.FindQueryAfter | scripts/migrate-query-relationships.ts:74 | lookup by name after the writes finds the same query |
| Migration.DashLinksAfter | scripts/migrate-query-relationships.ts:76-80 | after the writes a dashboard's step-1 links are the old ones minus those written |
| Migration.Step1After | scripts/migrate-query-relationships.ts:76-80 | after the writes step 1 makes the old links minus those written, and marks the same queries |
| Migration.Step2After | scripts/migrate-query-relationships.ts:100-104 | after the writes step 2 makes the old links minus those written |
| Migration.Step3After | scripts/migrate-query-relationships.ts:124-128 | after the writes step 3 makes the old links minus those written |
| Migration.LinksAfter | scripts/migrate-query-relationships.ts:76-128 | a re-run over a snapshot with links added makes the old links minus those |
| Migration.RerunCreatesNothing | scripts/migrate-query-relationships.ts:76-128 | running again over the migration's own result creates nothing |
| Migration.LinksStayInProject | scripts/migrate-query-relationships.ts:52-145 | every link joins a query of the project to one of its dashboards or to its first report |
| Migration.Migrate | scripts/migrate-query-relationships.ts:31-154 | fails exactly when some project's config read throws; otherwise writes exactly the union of every project's links; the writes are counted by the three counters |

Predicates and helpers with no contract of their own have no row. These are `DashboardEditor.Valid`, `PasscodeCli.Layout`, `PasscodeCli.LayoutChar`, `PasscodeCli.DerivedName`, `PasscodeCli.CapitalizeAll` and `PasscodeCli.UsageLine`. The rows of the members that use them state what they mean. `Valid` is the invariant that `DragStart`, `DragOver` and `DragEnd` keep. `LayoutShape` and `LayoutLetters` describe the code `Layout` builds. `DerivedNameChars` describes `DerivedName`.

## Left out

- Prisma, Snowflake, the file system and `process.exit`: replaced by plain values. Console output and exit codes are not modelled.
- Randomness: `Math.random()` in the passcode and OTP generators is replaced by draws given as input.
- bcrypt and `toLocaleString`: function parameters. The model does not say how a hash or a formatted number looks.
- React rendering: styling, the open/closed dropdown state and the `confirm()` dialogs are left out. Only the values the components compute are modelled.
- The share dialog's HTTP requests: modelled as the answers they return (`FetchAnswer`, `AddAnswer`, a success flag). Their URLs and bodies are left out.
- `validatePasscode`, `createSession` and `auth()`: their results are inputs. The session cookie's contents are not modelled.
- Store orderings (`orderBy: createdAt desc`, email order): a listing is a set of summaries.
- `PasscodesRoute.Get`: a database error after the session is known is not modelled as a 500. The user and passcode lookups are total over the `Store` maps.
- `PasscodesRoute.Delete`: a database error after the session is known is not modelled as a 500, for the same reason.
- `PasscodeCli.Generate`: `testSnowflakeConnection` is a boolean input, and the database writes cannot fail.
- `PasscodeCli.AdminList`: the per-user counts are a map. The printed table's order and layout are not modelled.
- Numbers are integers. Floating-point values, `NaN` and the exact `String(number)` text are not modelled.
- JavaScript lists integer-like object keys before the others. `Object.keys` here returns insertion order.
- Upper and lower case are ASCII only. The header regex `\b\w` treats letters, digits and `_` as word characters.
- `Migration.Migrate`: a project is a snapshot loaded once. A failed run stops at the first null config or widget, and the links already written stay. The model says which links were written but not the exception.
- `Migration.WidgetNames`: names are JSON values compared structurally. A JavaScript `Set` of objects compares them by identity.
- `Migration.MigrateProject`: the distinctness and counter facts assume unique primary keys (`WellFormed`), which the database guarantees.
- `Connections.FromFile`: a TOML value that is not a string (a number or a boolean) counts as an absent setting.
- `Connections.FirstConnection`: a `connections` value that is not a table has no keys.
- `Projects.GetDashboardWithData`: a configuration holds only the declared fields, so the keys the spreads `{...config}` and `{...widget}` would carry along are not modelled. A widget entry that is not an object is not modelled either.
- `DataTable.Columns`: a first row that is a string or an array has index keys ("0", "1", …) in JavaScript. The model gives it no keys. A first row that is a number or a boolean has no keys in both.
- `DataTable.Table`: a row on the shown page that is not an object shows as a row of empty cells. That includes a `null` first row when column names are given. The table library's accessor reads `row[key]` and throws on `null`; that render error is not modelled. A key containing "." gets a library column id with `_` in place of the dot, so its cells read no value; the model reads the key as written. A string row reads no `length` or index keys here.
- `DataTable.Table`: sorting by clicking a header is not modelled. Rows keep data order, as in the initial, unsorted state. Resetting the page when the data changes is not modelled either.
- `Json.Get`: a property read finds the first member with the key. Objects are assumed to have distinct keys, so the last duplicate that `JSON.parse` keeps is never different from it.
- The Python clients under the setup documentation, the `.cursor` skill scripts and the other API routes are not part of this model.

## Where the model follows the code

- `loadWidgetData`: a file that parses to `null` gives no rows. The read of `null.data` throws, and the `catch` returns `[]`, so `null` is not wrapped as `[null]`.
- The renderer draws every widget, hidden ones included. The `hidden` flag only affects the editor's list.
- `dirname`, `basename` and `join` follow Node's POSIX implementation. For example, a path with no slash has dirname ".".

=== FILE: Accounts.dfy ===
/** Facts about people that several parts of the system agree on: only
    `@rippling.com` addresses may sign in or hold passcodes, and a person
    without a name is shown by the part of the address before the "@". */
module Accounts {
  import opened Wrappers
  import opened Json
  import Text

  const RipplingDomain: string := "@rippling.com"

  /** `email.endsWith("@rippling.com")`. */
  predicate IsRipplingEmail(email: string) {
    Text.EndsWith(email, RipplingDomain)
  }

  /** `email.split("@")[0]`: the address up to its first "@". */
  function LocalPart(email: string): (r: string)
    ensures '@' !in r && Text.StartsWith(email, r)
    ensures '@' !in email ==> r == email
    ensures '@' in email ==> |r| < |email| && email[|r|] == '@'
  {
    Text.BeforeIsPrefix(email, '@');
    Text.Before(email, '@')
  }

  /** `name || email.split("@")[0]`. */
  function DisplayName(name: Option<string>, email: string): (r: string)
    ensures HasText(name) ==> r == name.value
    ensures !HasText(name) ==> r == LocalPart(email)
  {
    OrText(name, LocalPart(email))
  }

  /** A Rippling address contains an "@", and its local part (everything
      before the first "@", possibly empty) ends no later than where the
      domain starts. */
  lemma RipplingLocalPart(email: string)
    requires IsRipplingEmail(email)
    ensures '@' in email
    ensures |LocalPart(email)| <= |email| - |RipplingDomain|
  {
    var k := |email| - |RipplingDomain|;
    assert email[k] == RipplingDomain[0] == '@';
  }
}

=== FILE: Auth.dfy ===
/** The NextAuth configuration's own rules: the one-time code it generates,
    the sign-in gate on the e-mail domain, and the session callback that
    copies the user's id into the session. The random draw behind the code
    is an input. */
module Auth {
  import opened Wrappers
  import Text
  import Accounts

  /** `generateOTP()`, with `draw` standing for
      `Math.floor(Math.random() * 900000)`, a whole number below 900000. */
  function GenerateOtp(draw: nat): (code: string)
    requires draw < 900000
    ensures |code| == 6
    ensures forall i :: 0 <= i < |code| ==> Text.IsDigit(code[i])
    ensures code[0] != '0'
    ensures 100000 <= Text.DecimalValue(code) <= 999999
    ensures Text.DecimalValue(code) == 100000 + draw
  {
    SixDigitBounds();
    Text.DecimalLength(100000 + draw, 6);
    Text.DecimalRoundTrip(100000 + draw);
    Text.NatToDecimal(100000 + draw)
  }

  /** Every six-digit code that does not start with 0 is generated by
      exactly one draw, so the codes are exactly those strings. */
  lemma OtpCoversRange(code: string)
    requires |code| == 6 && code[0] != '0'
    requires forall i :: 0 <= i < |code| ==> Text.IsDigit(code[i])
    ensures 100000 <= Text.DecimalValue(code) <= 999999
    ensures GenerateOtp(Text.DecimalValue(code) - 100000) == code
  {
    DecimalBounds(code);
    SixDigitBounds();
    DecimalPrint(code);
  }

  lemma {:induction false} DecimalBounds(s: string)
    requires forall i :: 0 <= i < |s| ==> Text.IsDigit(s[i])
    ensures Text.DecimalValue(s) < Text.Pow10(|s|)
    ensures |s| >= 1 && s[0] != '0' ==> Text.Pow10(|s| - 1) <= Text.DecimalValue(s)
  {
    if s != [] {
      var init := s[..|s| - 1];
      DecimalBounds(init);
      if |s| >= 2 && s[0] != '0' {
        assert init[0] == s[0];
      } else if |s| == 1 {
        assert Text.DigitValue(s[0]) >= 1 || s[0] == '0';
      }
    }
  }

  /** A digit string without a leading zero is the decimal text of its value. */
  lemma {:induction false} DecimalPrint(s: string)
    requires |s| >= 1 && (|s| == 1 || s[0] != '0')
    requires forall i :: 0 <= i < |s| ==> Text.IsDigit(s[i])
    ensures Text.NatToDecimal(Text.DecimalValue(s)) == s
  {
    var n := Text.DecimalValue(s);
    var d := Text.DigitValue(s[|s| - 1]);
    if |s| == 1 {
      assert s[..0] == [];
      assert Text.DecimalValue(s[..0]) == 0;
      assert n == 10 * Text.DecimalValue(s[..0]) + d;
      assert Text.DigitChar(d) == s[0];
    } else {
      var init := s[..|s| - 1];
      assert init[0] == s[0];
      DecimalPrint(init);
      DecimalBounds(init);
      assert Text.Pow10(|init| - 1) >= 1 by { PowPositive(|init| - 1); }
      assert n / 10 == Text.DecimalValue(init) && n % 10 == d;
      assert n >= 10;
      assert Text.DigitChar(d) == s[|s| - 1];
      assert s == init + [s[|s| - 1]];
    }
  }

  lemma SixDigitBounds()
    ensures Text.Pow10(5) == 100000 && Text.Pow10(6) == 1000000
  {
    assert Text.Pow10(1) == 10;
    assert Text.Pow10(2) == 100;
    assert Text.Pow10(3) == 1000;
    assert Text.Pow10(4) == 10000;
  }

  lemma {:induction false} PowPositive(k: nat)
    ensures Text.Pow10(k) >= 1
  {
    if k > 0 {
      PowPositive(k - 1);
    }
  }

  /** The `signIn` callback: `user.email?.endsWith("@rippling.com")`, with a
      missing address refused. */
  function SignIn(email: Option<string>): (allowed: bool)
    ensures allowed <==> email.Some? && Accounts.IsRipplingEmail(email.value)
  {
    match email
    case None => false
    case Some(e) => Accounts.IsRipplingEmail(e)
  }

  datatype SessionUser = SessionUser(id: Option<string>, email: string, name: Option<string>, image: Option<string>)

  datatype Session = Session(user: Option<SessionUser>, expires: string)

  /** The `session` callback: the stored user's id is written into
      `session.user` when there is one; nothing else changes. */
  function SessionCallback(session: Session, userId: string): (r: Session)
    ensures r.expires == session.expires
    ensures r.user.Some? <==> session.user.Some?
    ensures r.user.Some? ==>
              && r.user.value.id == Some(userId)
              && r.user.value.email == session.user.value.email
              && r.user.value.name == session.user.value.name
              && r.user.value.image == session.user.value.image
  {
    match session.user
    case None => session
    case Some(u) => session.(user := Some(u.(id := Some(userId))))
  }

  /** Running the callback again for the same user changes nothing more. */
  lemma SessionCallbackIdempotent(session: Session, userId: string)
    ensures SessionCallback(SessionCallback(session, userId), userId) == SessionCallback(session, userId)
  {
  }
}

=== FILE: Connections.dfy ===
/** Where the scripts get their Snowflake connection settings from. The
    environment (`RIPPLING_ACCOUNT_EMAIL` and the `SNOWFLAKE_*` variables)
    comes first; otherwise a profile is taken from `~/.snowflake/
    connections.toml` or, failing that, `config.toml`; every setting left
    unset takes a fixed default. The three scripts differ in what they do
    when neither source gives a user. The environment is a map and the TOML
    files are given already parsed. */
module Connections {
  import opened Wrappers
  import opened Json
  import Text

  const DefaultAccount: string := "RIPPLINGORG-RIPPLING"
  const DefaultDatabase: string := "PROD_RIPPLING_DWH"
  const DefaultSchema: string := "MARKETING_OPS"
  const DefaultWarehouse: string := "PROD_RIPPLING_INTEGRATION_DWH"
  const DefaultRole: string := "PROD_RIPPLING_MARKETING"
  const ExternalBrowser: string := "EXTERNALBROWSER"

  /** The Snowflake connection options the scripts build. */
  datatype Options = Options(
    account: string,
    username: string,
    authenticator: Option<string>,
    clientStoreTemporaryCredential: Option<bool>,
    database: string,
    schema: string,
    warehouse: string,
    role: string)

  /** `process.env`. */
  type Env = map<string, string>

  function EnvVar(env: Env, name: string): (r: Option<string>)
    ensures r.Some? <==> name in env
    ensures r.Some? ==> r.value == env[name]
  {
    if name in env then Some(env[name]) else None
  }

  /** A setting: `given || default`. */
  ghost predicate Defaulted(v: string, given: Option<string>, default: string) {
    (HasText(given) ==> v == given.value) && (!HasText(given) ==> v == default)
  }

  // -------------------------------------------------------- TOML profiles

  /** A string setting of a TOML connection table. */
  function StrField(conn: Value, key: string): Option<string> {
    match Field(conn, key)
    case Some(Str(s)) => Some(s)
    case _ => None
  }

  /** `tomlConnectionToSnowflake(conn)`. */
  function ToSnowflake(conn: Value): (o: Options)
    ensures Defaulted(o.account, StrField(conn, "account"), DefaultAccount)
    ensures Defaulted(o.database, StrField(conn, "database"), DefaultDatabase)
    ensures Defaulted(o.schema, StrField(conn, "schema"), DefaultSchema)
    ensures Defaulted(o.warehouse, StrField(conn, "warehouse"), DefaultWarehouse)
    ensures Defaulted(o.role, StrField(conn, "role"), DefaultRole)
    ensures HasText(StrField(conn, "user")) ==> o.username == StrField(conn, "user").value
    ensures !HasText(StrField(conn, "user")) ==> Defaulted(o.username, StrField(conn, "username"), "")
    ensures o.username != "" <==> HasText(StrField(conn, "user")) || HasText(StrField(conn, "username"))
    ensures var a := StrField(conn, "authenticator");
      && (o.authenticator == Some(ExternalBrowser) <==> a.Some? && Text.Upper(a.value) == ExternalBrowser)
      && (o.authenticator != Some(ExternalBrowser) ==> o.authenticator == a)
    ensures o.clientStoreTemporaryCredential == Some(true)
  {
    ExternalBrowserIsUpper();
    var a := StrField(conn, "authenticator");
    Options(
      OrText(StrField(conn, "account"), DefaultAccount),
      OrText(StrField(conn, "user"), OrText(StrField(conn, "username"), "")),
      if a.Some? && Text.Upper(a.value) == ExternalBrowser then Some(ExternalBrowser) else a,
      Some(true),
      OrText(StrField(conn, "database"), DefaultDatabase),
      OrText(StrField(conn, "schema"), DefaultSchema),
      OrText(StrField(conn, "warehouse"), DefaultWarehouse),
      OrText(StrField(conn, "role"), DefaultRole))
  }

  /** The canonical authenticator name is already upper case. */
  lemma ExternalBrowserIsUpper()
    ensures Text.Upper(ExternalBrowser) == ExternalBrowser
  {
    assert forall i :: 0 <= i < |ExternalBrowser| ==> !Text.IsLowerAscii(ExternalBrowser[i]);
  }

  /** The `connections` table's entry `name`, when there is such a table. */
  function ConnEntry(config: Value, name: string): Option<Value> {
    var conns := Field(config, "connections");
    if conns.Some? then Field(conns.value, name) else None
  }

  /** The profile called `name`: `connections.<name>` when it is truthy,
      else a top-level `<name>` table that has an account or a user. */
  function ProfileIn(config: Value, name: string): (r: Option<Value>)
    ensures r.Some? ==> Truthy(r.value)
    ensures r.Some? ==> r == ConnEntry(config, name) || r == Field(config, name)
    ensures IsTruthy(ConnEntry(config, name)) ==> r == ConnEntry(config, name)
  {
    var direct := Field(config, name);
    if IsTruthy(ConnEntry(config, name)) then ConnEntry(config, name)
    else if IsTruthy(direct) && (IsTruthy(Field(direct.value, "account")) || IsTruthy(Field(direct.value, "user")))
    then direct
    else None
  }

  /** The first entry of the `connections` table, when its key is not
      empty. */
  function FirstConnection(config: Value): (r: Option<Value>)
    ensures r.Some? ==> Field(config, "connections").Some?
    ensures r.Some? ==> var conns := Field(config, "connections").value;
      conns.Obj? && |conns.members| > 0 && conns.members[0].0 != "" && r.value == conns.members[0].1
    ensures var conns := Field(config, "connections");
      conns.Some? && conns.value.Obj? && |conns.value.members| > 0 && conns.value.members[0].0 != "" ==>
        r == Some(conns.value.members[0].1)
  {
    var conns := Field(config, "connections");
    if conns.Some? && Truthy(conns.value) then
      var keys := Keys(conns.value);
      if |keys| > 0 && keys[0] != "" then
        assert conns.value.Obj?;
        Some(conns.value.members[0].1)
      else None
    else None
  }

  /** The profile a parsed file yields: "rippling", then "default", then
      the first connection. */
  function SelectProfile(config: Value): (r: Option<Value>)
    ensures ProfileIn(config, "rippling").Some? ==> r == ProfileIn(config, "rippling")
    ensures ProfileIn(config, "rippling").None? && ProfileIn(config, "default").Some? ==>
              r == ProfileIn(config, "default")
    ensures r.Some? ==> r == ProfileIn(config, "rippling") || r == ProfileIn(config, "default")
                        || r == FirstConnection(config)
    ensures r.None? <==> ProfileIn(config, "rippling").None? && ProfileIn(config, "default").None?
                         && FirstConnection(config).None?
  {
    if ProfileIn(config, "rippling").Some? then ProfileIn(config, "rippling")
    else if ProfileIn(config, "default").Some? then ProfileIn(config, "default")
    else FirstConnection(config)
  }

  /** The connection a parsed file gives. A first connection that is null
      makes the conversion throw, and the file is passed over like one that
      does not parse. */
  function FromFile(config: Value): (r: Option<Options>)
    ensures r.Some? <==> SelectProfile(config).Some? && !SelectProfile(config).value.Null?
    ensures r.Some? ==> r.value == ToSnowflake(SelectProfile(config).value)
  {
    match SelectProfile(config)
    case None => None
    case Some(v) => if v.Null? then None else Some(ToSnowflake(v))
  }

  /** A TOML file: not there, there but not parseable, or parsed. */
  datatype TomlFile = Missing | Unparsable | Parsed(config: Value)

  /** What one file gives: nothing when it is missing or does not parse. */
  function FileResult(f: TomlFile): Option<Options> {
    if f.Parsed? then FromFile(f.config) else None
  }

  function FileResults(files: seq<TomlFile>): (rs: seq<Option<Options>>)
    ensures |rs| == |files|
    ensures forall i :: 0 <= i < |files| ==> rs[i] == FileResult(files[i])
  {
    seq(|files|, i requires 0 <= i < |files| => FileResult(files[i]))
  }

  /** The first present entry. */
  function FirstSome<T>(xs: seq<Option<T>>): (r: Option<T>)
    ensures r.Some? <==> exists i :: 0 <= i < |xs| && xs[i].Some?
    ensures forall i :: 0 <= i < |xs| && xs[i].Some? && (forall j :: 0 <= j < i ==> xs[j].None?) ==> r == xs[i]
    decreases |xs|
  {
    if xs == [] then None
    else if xs[0].Some? then xs[0]
    else
      assert forall i :: 1 <= i < |xs| ==> xs[i] == xs[1..][i - 1];
      FirstSome(xs[1..])
  }

  /** `getConnectionFromToml()` over the files in the order they are tried
      (connections.toml, then config.toml): the first file that yields a
      connection decides. */
  function FromToml(files: seq<TomlFile>): (r: Option<Options>)
    ensures r.Some? <==> exists i :: 0 <= i < |files| && FileResult(files[i]).Some?
    ensures forall i :: 0 <= i < |files| && FileResult(files[i]).Some?
                        && (forall j :: 0 <= j < i ==> FileResult(files[j]).None?) ==>
              r == FileResult(files[i])
  {
    var results := FileResults(files);
    FirstSome(results)
  }

  // ------------------------------------------------------ the three scripts

  /** The options built from the environment for the user `email`. */
  function FromEnv(env: Env, email: string, clientStore: Option<bool>): (o: Options)
    ensures o.username == email && o.authenticator == Some(ExternalBrowser)
    ensures o.clientStoreTemporaryCredential == clientStore
    ensures Defaulted(o.account, EnvVar(env, "SNOWFLAKE_ACCOUNT"), DefaultAccount)
    ensures Defaulted(o.database, EnvVar(env, "SNOWFLAKE_DATABASE"), DefaultDatabase)
    ensures Defaulted(o.schema, EnvVar(env, "SNOWFLAKE_SCHEMA"), DefaultSchema)
    ensures Defaulted(o.warehouse, EnvVar(env, "SNOWFLAKE_WAREHOUSE"), DefaultWarehouse)
    ensures Defaulted(o.role, EnvVar(env, "SNOWFLAKE_ROLE"), DefaultRole)
  {
    Options(
      OrText(EnvVar(env, "SNOWFLAKE_ACCOUNT"), DefaultAccount),
      email,
      Some(ExternalBrowser),
      clientStore,
      OrText(EnvVar(env, "SNOWFLAKE_DATABASE"), DefaultDatabase),
      OrText(EnvVar(env, "SNOWFLAKE_SCHEMA"), DefaultSchema),
      OrText(EnvVar(env, "SNOWFLAKE_WAREHOUSE"), DefaultWarehouse),
      OrText(EnvVar(env, "SNOWFLAKE_ROLE"), DefaultRole))
  }

  datatype ConfigError = MissingAccountEmail | NoUsernameInToml | NoConfiguration

  /** `getConnectionConfig()` of the local query runner. */
  function LocalQueryConfig(env: Env, files: seq<TomlFile>): (r: Result<Options, ConfigError>)
    ensures HasText(EnvVar(env, "RIPPLING_ACCOUNT_EMAIL")) ==>
              r == Ok(FromEnv(env, env["RIPPLING_ACCOUNT_EMAIL"], Some(true)))
    ensures !HasText(EnvVar(env, "RIPPLING_ACCOUNT_EMAIL")) ==>
              && (FromToml(files).None? ==> r == Err(NoConfiguration))
              && (FromToml(files).Some? && FromToml(files).value.username == "" ==> r == Err(NoUsernameInToml))
              && (FromToml(files).Some? && FromToml(files).value.username != "" ==> r == Ok(FromToml(files).value))
  {
    var email := EnvVar(env, "RIPPLING_ACCOUNT_EMAIL");
    if HasText(email) then Ok(FromEnv(env, email.value, Some(true)))
    else
      match FromToml(files)
      case None => Err(NoConfiguration)
      case Some(o) => if o.username == "" then Err(NoUsernameInToml) else Ok(o)
  }

  /** `getConnectionConfig(email)` of the passcode script: like the local
      runner, but a TOML profile without a user, or no profile at all,
      falls back to the git address with every default. */
  function PasscodeConfig(env: Env, files: seq<TomlFile>, gitEmail: string): (o: Options)
    ensures HasText(EnvVar(env, "RIPPLING_ACCOUNT_EMAIL")) ==>
              o == FromEnv(env, env["RIPPLING_ACCOUNT_EMAIL"], Some(true))
    ensures (!HasText(EnvVar(env, "RIPPLING_ACCOUNT_EMAIL")) && FromToml(files).Some?
             && FromToml(files).value.username != "") ==> o == FromToml(files).value
    ensures (!HasText(EnvVar(env, "RIPPLING_ACCOUNT_EMAIL"))
             && (FromToml(files).None? || FromToml(files).value.username == "")) ==>
              o == Options(DefaultAccount, gitEmail, Some(ExternalBrowser), Some(true),
                           DefaultDatabase, DefaultSchema, DefaultWarehouse, DefaultRole)
  {
    var email := EnvVar(env, "RIPPLING_ACCOUNT_EMAIL");
    if HasText(email) then FromEnv(env, email.value, Some(true))
    else
      var toml := FromToml(files);
      if toml.Some? && toml.value.username != "" then toml.value
      else Options(DefaultAccount, gitEmail, Some(ExternalBrowser), Some(true),
                   DefaultDatabase, DefaultSchema, DefaultWarehouse, DefaultRole)
  }

  /** `getConnectionConfig()` of the query runner: the environment only, and
      no credential caching option. */
  function RunQueryConfig(env: Env): (r: Result<Options, ConfigError>)
    ensures r.Ok? <==> HasText(EnvVar(env, "RIPPLING_ACCOUNT_EMAIL"))
    ensures r.Ok? ==> r.value == FromEnv(env, env["RIPPLING_ACCOUNT_EMAIL"], None)
    ensures r.Err? ==> r.error == MissingAccountEmail
  {
    var email := EnvVar(env, "RIPPLING_ACCOUNT_EMAIL");
    if HasText(email) then Ok(FromEnv(env, email.value, None)) else Err(MissingAccountEmail)
  }

  // ------------------------------------------------------------- lemmas

  /** Whatever the local runner returns names a user; so does the passcode
      script when the git address is not empty. */
  lemma ConfigAlwaysNamesUser(env: Env, files: seq<TomlFile>, gitEmail: string)
    ensures LocalQueryConfig(env, files).Ok? ==> LocalQueryConfig(env, files).value.username != ""
    ensures RunQueryConfig(env).Ok? ==> RunQueryConfig(env).value.username != ""
    ensures gitEmail != "" ==> PasscodeConfig(env, files, gitEmail).username != ""
  {
  }

  /** With the account e-mail set, the TOML files are never consulted and
      the three scripts connect alike, except that the query runner does not
      ask for credential caching. */
  lemma EnvironmentFirst(env: Env, files: seq<TomlFile>, other: seq<TomlFile>, gitEmail: string)
    requires HasText(EnvVar(env, "RIPPLING_ACCOUNT_EMAIL"))
    ensures LocalQueryConfig(env, files) == LocalQueryConfig(env, other)
    ensures LocalQueryConfig(env, files) == Ok(PasscodeConfig(env, other, gitEmail))
    ensures RunQueryConfig(env).Ok? && LocalQueryConfig(env, files).Ok?
    ensures RunQueryConfig(env).value == LocalQueryConfig(env, files).value.(clientStoreTemporaryCredential := None)
  {
  }

  /** Whenever the local runner finds a usable configuration, the passcode
      script uses the same one. */
  lemma PasscodeAgreesWithLocal(env: Env, files: seq<TomlFile>, gitEmail: string)
    ensures LocalQueryConfig(env, files).Ok? ==>
              PasscodeConfig(env, files, gitEmail) == LocalQueryConfig(env, files).value
  {
  }

  /** A file that yields a connection hides every later one. */
  lemma FirstFileWins(first: TomlFile, rest: seq<TomlFile>)
    ensures FileResult(first).Some? ==> FromToml([first] + rest) == FromFile(first.config)
  {
  }

  /** A truthy `connections.rippling` is used whatever else the file holds. */
  lemma RipplingConnectionWins(config: Value)
    requires IsTruthy(ConnEntry(config, "rippling"))
    ensures FromFile(config) == Some(ToSnowflake(ConnEntry(config, "rippling").value))
  {
  }
}

=== FILE: DashboardEditor.dfy ===
/** The dashboard layout editor: its state (editing flag, working copy of the
    configuration, save in progress, index of the widget being dragged) and
    the transitions the event handlers make. A drag-over moves the dragged
    widget to the hovered position; the eye button flips a widget's `hidden`
    flag; cancel restores the configuration the editor was opened with. */
module DashboardEditor {
  import opened Wrappers
  import opened Json
  import opened Widgets

  datatype EditorState<D> = EditorState(
    isEditing: bool,
    config: DashboardConfig<D>,
    isSaving: bool,
    draggedIndex: Option<nat>)

  /** The state the component starts in. */
  function Initial<D>(initial: DashboardConfig<D>): EditorState<D> {
    EditorState(false, initial, false, None)
  }

  /** The dragged index, when there is one, names a widget. */
  predicate Valid<D>(s: EditorState<D>) {
    s.draggedIndex.Some? ==> s.draggedIndex.value < |s.config.widgets|
  }

  // ------------------------------------------------------------ sequences

  /** `xs.splice(i, 1)`: the list without its i-th element. */
  function RemoveAt<T>(xs: seq<T>, i: nat): (r: seq<T>)
    requires i < |xs|
    ensures |r| == |xs| - 1
  {
    xs[..i] + xs[i + 1..]
  }

  /** `xs.splice(i, 0, x)`: `x` inserted so that it sits at index i. */
  function InsertAt<T>(xs: seq<T>, i: nat, x: T): (r: seq<T>)
    requires i <= |xs|
    ensures |r| == |xs| + 1
  {
    xs[..i] + [x] + xs[i..]
  }

  /** Inserting and then removing at the same index gives back the list. */
  lemma RemoveInsert<T>(xs: seq<T>, i: nat, x: T)
    requires i <= |xs|
    ensures RemoveAt(InsertAt(xs, i, x), i) == xs
  {
    var ys := InsertAt(xs, i, x);
    assert ys[..i] == xs[..i];
    assert ys[i + 1..] == xs[i..];
  }

  /** Removing at i and inserting the removed element at i gives back the list. */
  lemma InsertRemove<T>(xs: seq<T>, i: nat)
    requires i < |xs|
    ensures InsertAt(RemoveAt(xs, i), i, xs[i]) == xs
  {
    var ys := RemoveAt(xs, i);
    assert ys[..i] == xs[..i];
    assert ys[i..] == xs[i + 1..];
    assert xs == xs[..i] + [xs[i]] + xs[i + 1..];
  }

  lemma MultisetRemoveInsert<T>(xs: seq<T>, from: nat, to: nat)
    requires from < |xs| && to < |xs|
    ensures multiset(InsertAt(RemoveAt(xs, from), to, xs[from])) == multiset(xs)
  {
    var x := xs[from];
    var a, b := xs[..from], xs[from + 1..];
    assert xs == a + [x] + b;
    var ys := RemoveAt(xs, from);
    assert ys == a + b;
    var c, d := ys[..to], ys[to..];
    assert ys == c + d;
    assert InsertAt(ys, to, x) == c + [x] + d;
    calc {
      multiset(InsertAt(ys, to, x));
      multiset(c) + multiset{x} + multiset(d);
      multiset(ys) + multiset{x};
      multiset(a) + multiset(b) + multiset{x};
      multiset(xs);
    }
  }

  /** The two splices of `handleDragOver`: the element at `from` taken out and
      put back in so that it lands at `to`. */
  function Move<T>(xs: seq<T>, from: nat, to: nat): (r: seq<T>)
    requires from < |xs| && to < |xs|
    ensures |r| == |xs|
    ensures multiset(r) == multiset(xs)
    ensures r[to] == xs[from]
    ensures RemoveAt(r, to) == RemoveAt(xs, from)
  {
    MultisetRemoveInsert(xs, from, to);
    RemoveInsert(RemoveAt(xs, from), to, xs[from]);
    InsertAt(RemoveAt(xs, from), to, xs[from])
  }

  /** Where every element ends up: elements outside the range between the
      two indices stay put, those inside shift by one towards `from`. */
  lemma MovePositions<T>(xs: seq<T>, from: nat, to: nat)
    requires from < |xs| && to < |xs|
    ensures var r := Move(xs, from, to);
      && (forall i :: 0 <= i < |xs| && i < from && i < to ==> r[i] == xs[i])
      && (forall i :: 0 <= i < |xs| && i > from && i > to ==> r[i] == xs[i])
      && (from < to ==> forall i :: from <= i < to ==> r[i] == xs[i + 1])
      && (to < from ==> forall i :: to < i <= from ==> r[i] == xs[i - 1])
  {
  }

  /** Dragging the widget straight back undoes a move. */
  lemma MoveBack<T>(xs: seq<T>, from: nat, to: nat)
    requires from < |xs| && to < |xs|
    ensures Move(Move(xs, from, to), to, from) == xs
  {
    var r := Move(xs, from, to);
    assert RemoveAt(r, to) == RemoveAt(xs, from);
    InsertRemove(xs, from);
  }

  // ---------------------------------------------------------- transitions

  /** `handleDragStart(index)`. */
  function DragStart<D>(s: EditorState<D>, index: nat): (r: EditorState<D>)
    requires index < |s.config.widgets|
    ensures Valid(r) && r.draggedIndex == Some(index) && r.config == s.config
  {
    s.(draggedIndex := Some(index))
  }

  /** `handleDragOver(e, index)`: nothing happens without a dragged widget or
      over the dragged widget itself; otherwise the dragged widget moves to
      `index`, which becomes the dragged index. */
  function DragOver<D>(s: EditorState<D>, index: nat): (r: EditorState<D>)
    requires Valid(s) && index < |s.config.widgets|
    ensures Valid(r)
    ensures s.draggedIndex.None? || s.draggedIndex == Some(index) ==> r == s
    ensures s.draggedIndex.Some? && s.draggedIndex != Some(index) ==>
      && r.draggedIndex == Some(index)
      && r.config.widgets == Move(s.config.widgets, s.draggedIndex.value, index)
      && r.config.title == s.config.title && r.config.description == s.config.description
      && r.config.layout == s.config.layout
      && r.isEditing == s.isEditing && r.isSaving == s.isSaving
  {
    match s.draggedIndex
    case None => s
    case Some(from) =>
      if from == index then s
      else
        s.(config := s.config.(widgets := Move(s.config.widgets, from, index)),
           draggedIndex := Some(index))
  }

  /** `handleDragEnd()`. */
  function DragEnd<D>(s: EditorState<D>): (r: EditorState<D>)
    ensures Valid(r) && r.draggedIndex.None? && r.config == s.config
  {
    s.(draggedIndex := None)
  }

  /** `toggleWidgetVisibility(index)`: `hidden: !widget.hidden`. */
  function Toggle<D>(s: EditorState<D>, index: nat): (r: EditorState<D>)
    requires index < |s.config.widgets|
    ensures |r.config.widgets| == |s.config.widgets|
    ensures r.config.widgets[index].hidden == Some(!IsHidden(s.config.widgets[index]))
    ensures r == s.(config := s.config.(widgets := r.config.widgets))
    ensures forall j :: 0 <= j < |s.config.widgets| && j != index ==>
              r.config.widgets[j] == s.config.widgets[j]
  {
    var w := s.config.widgets[index];
    s.(config := s.config.(widgets := s.config.widgets[index := w.(hidden := Some(!IsHidden(w)))]))
  }

  /** Toggling a widget changes nothing but that widget's `hidden` flag. */
  lemma ToggleOnlyHidden<D>(s: EditorState<D>, index: nat)
    requires index < |s.config.widgets|
    ensures SameExceptHidden(Toggle(s, index).config.widgets[index], s.config.widgets[index])
    ensures IsHidden(Toggle(s, index).config.widgets[index]) != IsHidden(s.config.widgets[index])
  {
  }

  /** Toggling twice restores whether the widget is hidden, and restores the
      widget exactly when its flag was set to begin with. */
  lemma ToggleTwice<D>(s: EditorState<D>, index: nat)
    requires index < |s.config.widgets|
    ensures var w := s.config.widgets[index];
      && Toggle(Toggle(s, index), index) == s.(config := s.config.(widgets :=
           s.config.widgets[index := w.(hidden := Some(IsHidden(w)))]))
      && IsHidden(Toggle(Toggle(s, index), index).config.widgets[index]) == IsHidden(w)
      && (w.hidden.Some? ==> Toggle(Toggle(s, index), index) == s)
  {
    var w := s.config.widgets[index];
    if w.hidden.Some? {
      if w.hidden.value {
        assert IsHidden(w);
      } else {
        assert !IsHidden(w);
      }
      assert Some(IsHidden(w)) == w.hidden;
      assert w.(hidden := Some(IsHidden(w))) == w;
      assert s.config.widgets[index := w] == s.config.widgets;
    }
  }

  /** `handleCancel()`: back to the configuration the editor received. */
  function Cancel<D>(s: EditorState<D>, initial: DashboardConfig<D>): (r: EditorState<D>)
    ensures r.config == initial && !r.isEditing
    ensures r.draggedIndex == s.draggedIndex && r.isSaving == s.isSaving
  {
    s.(config := initial, isEditing := false)
  }

  /** The "Edit Layout" button. */
  function StartEditing<D>(s: EditorState<D>): (r: EditorState<D>)
    ensures r.isEditing && r.config == s.config
    ensures r.draggedIndex == s.draggedIndex && r.isSaving == s.isSaving
  {
    s.(isEditing := true)
  }

  /** `handleSave()` as it starts: `setIsSaving(true)` before the PATCH
      request is sent. */
  function SaveBegin<D>(s: EditorState<D>): (r: EditorState<D>)
    ensures r.isSaving && r.config == s.config
    ensures r.isEditing == s.isEditing && r.draggedIndex == s.draggedIndex
  {
    s.(isSaving := true)
  }

  /** `handleSave()` once the PATCH request has answered: a success leaves
      editing mode (and reloads the page); a failure keeps the working copy. */
  function SaveFinished<D>(s: EditorState<D>, ok: bool): (r: EditorState<D>)
    ensures !r.isSaving && r.config == s.config
    ensures r.isEditing <==> s.isEditing && !ok
  {
    s.(isSaving := false, isEditing := s.isEditing && !ok)
  }

  // ----------------------------------------------------------------- view

  datatype Item = Item(caption: string, dragging: bool, faded: bool, toggleTitle: string)

  datatype EditorView = EditButton | Editing(items: seq<Item>, saveLabel: string, buttonsDisabled: bool)

  /** `widget.title || widget.queryName || \`${widget.type} widget\``: the
      first of title and query name that is a non-empty string, else the
      widget's type followed by " widget". */
  function ItemLabel<D>(w: Widget<D>): (caption: string)
    ensures HasText(w.title) ==> caption == w.title.value
    ensures !HasText(w.title) && HasText(w.queryName) ==> caption == w.queryName.value
    ensures !HasText(w.title) && !HasText(w.queryName) ==> caption == w.kind + " widget"
  {
    OrText(w.title, OrText(w.queryName, w.kind + " widget"))
  }

  /** What the editor renders; `None` is `null`. Outside editing mode it is
      the "Edit Layout" button; in editing mode one item per widget, and a
      save button that reads "Saving..." and, with "Cancel", is disabled
      while a save is in progress. */
  function View<D>(canEdit: bool, s: EditorState<D>): (v: Option<EditorView>)
    ensures v.None? <==> !canEdit
    ensures v.Some? ==> (v.value.Editing? <==> s.isEditing)
    ensures v.Some? && v.value.Editing? ==>
      && |v.value.items| == |s.config.widgets|
      && (forall i :: 0 <= i < |s.config.widgets| ==>
           && v.value.items[i].caption == ItemLabel(s.config.widgets[i])
           && v.value.items[i].faded == IsHidden(s.config.widgets[i])
           && v.value.items[i].toggleTitle == (if IsHidden(s.config.widgets[i]) then "Show widget" else "Hide widget")
           && (v.value.items[i].dragging <==> s.draggedIndex == Some(i)))
      && v.value.saveLabel == (if s.isSaving then "Saving..." else "Save Changes")
      && v.value.buttonsDisabled == s.isSaving
  {
    if !canEdit then None
    else if !s.isEditing then Some(EditButton)
    else
      var ws := s.config.widgets;
      Some(Editing(
        seq(|ws|, i requires 0 <= i < |ws| =>
          Item(ItemLabel(ws[i]), s.draggedIndex == Some(i), IsHidden(ws[i]),
               if IsHidden(ws[i]) then "Show widget" else "Hide widget")),
        if s.isSaving then "Saving..." else "Save Changes",
        s.isSaving))
  }

  /** The view follows the transitions: the edit button opens the list,
      cancel closes it, a save in progress disables the buttons, a failed
      save keeps the list with its normal label, a successful one closes it. */
  lemma ViewFollowsTransitions<D>(s: EditorState<D>, initial: DashboardConfig<D>)
    ensures View(true, StartEditing(s)).value.Editing?
    ensures View(true, Cancel(s, initial)) == Some(EditButton)
    ensures s.isEditing ==> View(true, SaveBegin(s)).value == Editing(
              View(true, s).value.items, "Saving...", true)
    ensures s.isEditing ==> SaveFinished(SaveBegin(s), false).isEditing
    ensures s.isEditing ==> View(true, SaveFinished(SaveBegin(s), false)).value.saveLabel == "Save Changes"
    ensures View(true, SaveFinished(SaveBegin(s), true)) == Some(EditButton)
  {
  }

  /** In editing mode, toggling widget `index` changes its item's fading and
      title and nothing else on screen. */
  lemma ToggleInView<D>(s: EditorState<D>, index: nat)
    requires s.isEditing && index < |s.config.widgets|
    ensures var before := View(true, s).value;
      var after := View(true, Toggle(s, index)).value;
      && |after.items| == |before.items|
      && after.items[index].faded != before.items[index].faded
      && after.items[index].toggleTitle != before.items[index].toggleTitle
      && after.items[index].caption == before.items[index].caption
      && (forall j :: 0 <= j < |before.items| && j != index ==> after.items[j] == before.items[j])
      && after.saveLabel == before.saveLabel
  {
  }

  /** In editing mode, a drag-over that moves a widget shows that widget's
      item, marked as dragged, at the hovered position. */
  lemma DragOverInView<D>(s: EditorState<D>, index: nat)
    requires Valid(s) && s.isEditing && index < |s.config.widgets|
    requires s.draggedIndex.Some? && s.draggedIndex != Some(index)
    ensures var after := View(true, DragOver(s, index)).value;
      && |after.items| == |s.config.widgets|
      && after.items[index].dragging
      && after.items[index].caption == ItemLabel(s.config.widgets[s.draggedIndex.value])
      && (forall j :: 0 <= j < |after.items| && j != index ==> !after.items[j].dragging)
  {
  }
}

=== FILE: DashboardRenderer.dfy ===
/** The dashboard renderer: per-widget defaults (display title, metric value
    key and fallback value, chart kind and axis keys), the split of metric
    widgets from the others, the display index each widget receives, the
    layout choice and the empty state. The rendered React tree is reduced to
    the cards it would show and the props each card receives. */
module DashboardRenderer {
  import opened Wrappers
  import opened Json
  import opened Widgets
  import Text

  type LoadedWidget = Widget<seq<Value>>

  /** What `renderWidget` returns for one widget; `NoCard` is `null`. */
  datatype Card =
    | MetricCard(key: nat, title: string, value: Value)
    | ChartCard(key: nat, title: string, rows: seq<Value>, chartType: string, xKey: string, yKey: string)
    | TableCard(key: nat, title: string, rows: seq<Value>, columns: Option<seq<string>>)
    | NoCard

  /** The rendered dashboard. The metric section is shown iff `metricCards`
      is not empty, the other section iff `otherCards` is not empty. */
  datatype View = View(
    heading: Option<string>,
    description: Option<string>,
    metricCards: seq<Card>,
    otherCards: seq<Card>,
    grid: bool,
    emptyState: bool)

  /** The title of a widget that has neither a title nor a query name. */
  function DefaultTitle(index: nat): string {
    "Widget " + Text.NatToDecimal(index + 1)
  }

  /** `title || queryName || \`Widget ${index + 1}\``. */
  function DisplayTitle(w: LoadedWidget, index: nat): (t: string)
    ensures HasText(w.title) ==> t == w.title.value
    ensures !HasText(w.title) && HasText(w.queryName) ==> t == w.queryName.value
    ensures !HasText(w.title) && !HasText(w.queryName) ==> t == DefaultTitle(index)
  {
    OrText(w.title, OrText(w.queryName, DefaultTitle(index)))
  }

  /** The number after "Widget " reads back as the one-based position. */
  lemma DefaultTitleNumber(i: nat)
    ensures Text.DecimalValue(DefaultTitle(i)[7..]) == i + 1
  {
    var t := DefaultTitle(i);
    assert t[7..] == Text.NatToDecimal(i + 1);
    Text.DecimalRoundTrip(i + 1);
  }

  /** Two widgets at different positions never get the same default title. */
  lemma DefaultTitlesDistinct(i: nat, j: nat)
    requires i != j
    ensures DefaultTitle(i) != DefaultTitle(j)
  {
    DefaultTitleNumber(i);
    DefaultTitleNumber(j);
  }

  /** `widget.valueKey || "value"`. */
  function ValueKey(w: LoadedWidget): (k: string)
    ensures HasText(w.valueKey) ==> k == w.valueKey.value
    ensures !HasText(w.valueKey) ==> k == "value"
  {
    OrText(w.valueKey, "value")
  }

  /** `data?.[0]?.[valueKey] ?? 0`. */
  function MetricValue(w: LoadedWidget): (v: Value)
    ensures |w.data| == 0 ==> v == Num(0)
    ensures |w.data| > 0 && IsNullish(Field(w.data[0], ValueKey(w))) ==> v == Num(0)
    ensures |w.data| > 0 && !IsNullish(Field(w.data[0], ValueKey(w))) ==>
              Field(w.data[0], ValueKey(w)) == Some(v) && !v.Null?
  {
    if |w.data| == 0 then Num(0) else OrElse(Field(w.data[0], ValueKey(w)), Num(0))
  }

  /** `renderWidget(widget, index)`. */
  function RenderWidget(w: LoadedWidget, index: nat): (c: Card)
    ensures c.NoCard? <==> w.kind != "metric" && w.kind != "chart" && w.kind != "table"
    ensures !c.NoCard? ==> c.key == index && c.title == DisplayTitle(w, index)
    ensures c.MetricCard? <==> w.kind == "metric"
    ensures c.ChartCard? <==> w.kind == "chart"
    ensures c.TableCard? <==> w.kind == "table"
    ensures c.MetricCard? ==> c.value == MetricValue(w)
    ensures c.ChartCard? ==> c.rows == w.data
                             && c.chartType == w.chartType.GetOr("line")
                             && c.xKey == w.xKey.GetOr("x") && c.yKey == w.yKey.GetOr("y")
    ensures c.TableCard? ==> c.rows == w.data && c.columns == w.columns
  {
    var title := DisplayTitle(w, index);
    if w.kind == "metric" then MetricCard(index, title, MetricValue(w))
    else if w.kind == "chart" then
      ChartCard(index, title, w.data, w.chartType.GetOr("line"), w.xKey.GetOr("x"), w.yKey.GetOr("y"))
    else if w.kind == "table" then TableCard(index, title, w.data, w.columns)
    else NoCard
  }

  predicate IsMetric(w: LoadedWidget) {
    w.kind == "metric"
  }

  /** `widgets.filter(w => w.type === "metric")`. */
  function Metrics(ws: seq<LoadedWidget>): (ms: seq<LoadedWidget>)
    ensures forall i :: 0 <= i < |ms| ==> IsMetric(ms[i])
  {
    if ws == [] then [] else (if IsMetric(ws[0]) then [ws[0]] else []) + Metrics(ws[1..])
  }

  /** `widgets.filter(w => w.type !== "metric")`. */
  function Others(ws: seq<LoadedWidget>): (os: seq<LoadedWidget>)
    ensures forall i :: 0 <= i < |os| ==> !IsMetric(os[i])
  {
    if ws == [] then [] else (if IsMetric(ws[0]) then [] else [ws[0]]) + Others(ws[1..])
  }

  /** The two filters split the widget list: every widget lands in exactly
      one of them, so the lengths add up and the multisets add up. */
  lemma {:induction false} PartitionComplete(ws: seq<LoadedWidget>)
    ensures |Metrics(ws)| + |Others(ws)| == |ws|
    ensures multiset(Metrics(ws)) + multiset(Others(ws)) == multiset(ws)
  {
    if ws != [] {
      PartitionComplete(ws[1..]);
      assert ws == [ws[0]] + ws[1..];
    }
  }

  /** The filters distribute over concatenation, so each keeps the relative
      order of the widgets it selects. */
  lemma {:induction false} PartitionKeepsOrder(a: seq<LoadedWidget>, b: seq<LoadedWidget>)
    ensures Metrics(a + b) == Metrics(a) + Metrics(b)
    ensures Others(a + b) == Others(a) + Others(b)
  {
    if a == [] {
      assert a + b == b;
    } else {
      assert (a + b)[1..] == a[1..] + b;
      PartitionKeepsOrder(a[1..], b);
    }
  }

  /** The order in which widgets are rendered: metrics first, then the rest. */
  function RenderOrder(ws: seq<LoadedWidget>): seq<LoadedWidget> {
    Metrics(ws) + Others(ws)
  }

  /** `<DashboardRenderer config={config}/>`. */
  function Render(c: DashboardConfig<seq<Value>>): (v: View)
    ensures v.grid <==> c.layout.GetOr("grid") == "grid"
    ensures v.emptyState <==> |c.widgets| == 0
    ensures v.heading.Some? <==> HasText(c.title)
    ensures v.description.Some? <==> HasText(c.title) && HasText(c.description)
    ensures v.heading.Some? ==> v.heading == c.title
    ensures v.description.Some? ==> v.description == c.description
    ensures |v.metricCards| == |Metrics(c.widgets)| && |v.otherCards| == |Others(c.widgets)|
  {
    var ms := Metrics(c.widgets);
    var os := Others(c.widgets);
    View(
      if HasText(c.title) then c.title else None,
      if HasText(c.title) && HasText(c.description) then c.description else None,
      seq(|ms|, i requires 0 <= i < |ms| => RenderWidget(ms[i], i)),
      seq(|os|, i requires 0 <= i < |os| => RenderWidget(os[i], |ms| + i)),
      c.layout.GetOr("grid") == "grid",
      |c.widgets| == 0)
  }

  /** Display indices: the k-th card in rendering order is rendered with
      index k, so the indices are exactly 0..n-1, one per widget, and every
      widget is rendered exactly once. */
  lemma DisplayIndices(c: DashboardConfig<seq<Value>>)
    ensures var v := Render(c); var order := RenderOrder(c.widgets);
      && |order| == |c.widgets|
      && multiset(order) == multiset(c.widgets)
      && v.metricCards + v.otherCards == seq(|order|, k requires 0 <= k < |order| => RenderWidget(order[k], k))
  {
    PartitionComplete(c.widgets);
  }
}

=== FILE: DashboardShell.dfy ===
/** The dashboard shell: the sidebar lists the projects of the person chosen
    in the user switcher (all projects when nobody is chosen), and the
    switcher itself appears only for a signed-in user with an address. */
module DashboardShell {
  import opened Wrappers
  import opened Json
  import UserSwitcher

  /** A project as the sidebar receives it; `owner` may be undefined. */
  datatype ShellProject = ShellProject(slug: string, name: string, owner: Option<string>)

  /** `projects.filter(p => p.owner === email)`. */
  function OwnedBy(projects: seq<ShellProject>, email: string): (r: seq<ShellProject>)
    ensures |r| <= |projects|
    ensures forall p :: p in r ==> p in projects && p.owner == Some(email)
    ensures forall p :: p in projects && p.owner == Some(email) ==> p in r
  {
    if projects == [] then []
    else
      var rest := OwnedBy(projects[1..], email);
      if projects[0].owner == Some(email) then [projects[0]] + rest else rest
  }

  /** `selectedUserEmail ? projects.filter(...) : projects`. */
  function FilteredProjects(projects: seq<ShellProject>, selected: Option<string>): (r: seq<ShellProject>)
    ensures !HasText(selected) ==> r == projects
    ensures HasText(selected) ==> r == OwnedBy(projects, selected.value)
  {
    if HasText(selected) then OwnedBy(projects, selected.value) else projects
  }

  /** Filtering a concatenation filters each part and keeps them in order;
      with the singleton case this fixes the order of the result. */
  lemma {:induction false} OwnedByAppend(a: seq<ShellProject>, b: seq<ShellProject>, email: string)
    ensures OwnedBy(a + b, email) == OwnedBy(a, email) + OwnedBy(b, email)
  {
    if a == [] {
      assert a + b == b;
    } else {
      assert (a + b)[1..] == a[1..] + b;
      OwnedByAppend(a[1..], b, email);
    }
  }

  /** Each project is kept as many times as it occurs, when it is owned by
      the chosen person, and not at all otherwise. */
  lemma {:induction false} OwnedByCounts(projects: seq<ShellProject>, email: string, p: ShellProject)
    ensures multiset(OwnedBy(projects, email))[p] == if p.owner == Some(email) then multiset(projects)[p] else 0
  {
    if projects != [] {
      assert projects == [projects[0]] + projects[1..];
      OwnedByCounts(projects[1..], email, p);
    }
  }

  /** Filtering twice by the same person changes nothing the second time. */
  lemma {:induction false} OwnedByIdempotent(projects: seq<ShellProject>, email: string)
    ensures OwnedBy(OwnedBy(projects, email), email) == OwnedBy(projects, email)
  {
    if projects != [] {
      OwnedByIdempotent(projects[1..], email);
      if projects[0].owner == Some(email) {
        var rest := OwnedBy(projects[1..], email);
        assert ([projects[0]] + rest)[1..] == rest;
      }
    }
  }

  /** A project without an owner is never listed under a selection. */
  lemma UnownedHidden(projects: seq<ShellProject>, selected: Option<string>, p: ShellProject)
    requires HasText(selected) && p.owner.None?
    ensures p !in FilteredProjects(projects, selected)
  {
  }

  /** When every project is owned by the chosen person, nothing is hidden. */
  lemma {:induction false} AllOwnedKept(projects: seq<ShellProject>, email: string)
    requires forall i :: 0 <= i < |projects| ==> projects[i].owner == Some(email)
    ensures OwnedBy(projects, email) == projects
  {
    if projects != [] {
      AllOwnedKept(projects[1..], email);
      assert [projects[0]] + projects[1..] == projects;
    }
  }

  /** `currentUser?.email && <UserSwitcher ...>`. */
  predicate ShowSwitcher(currentEmail: Option<string>) {
    HasText(currentEmail)
  }

  /** What the shell passes to the sidebar after a choice in the switcher:
      everything for "All Users", and one person's projects otherwise. */
  lemma ChoiceFiltersSidebar(projects: seq<ShellProject>, c: UserSwitcher.Choice)
    ensures c.ChooseAll? ==> FilteredProjects(projects, UserSwitcher.Choose(c)) == projects
    ensures c.ChooseUser? && c.u.email != "" ==>
      forall p :: p in FilteredProjects(projects, UserSwitcher.Choose(c)) <==> p in projects && p.owner == Some(c.u.email)
  {
  }
}

=== FILE: DataTable.dfy ===
/** The data table widget: which columns it shows, the header text derived
    from each snake_case column key, the text of each cell, the
    "No data available." row that spans every column, and the pages of ten
    rows with their Previous/Next controls. Number formatting is
    locale-dependent and so is a parameter. */
module DataTable {
  import opened Wrappers
  import opened Json
  import Text

  /** `Object.keys(data[0])` throws: there are rows, no names are supplied,
      and the first row is `null`. */
  predicate FirstRowThrows(data: seq<Value>, columnNames: Option<seq<string>>) {
    |data| > 0 && columnNames.None? && data[0].Null?
  }

  /** The column keys: none for an empty table, even when names are supplied;
      otherwise the supplied names (an array is truthy even when empty), or
      else the keys of the first row in member order, the read throwing when
      that row is `null`. */
  function Columns(data: seq<Value>, columnNames: Option<seq<string>>): (keys: Attempt<seq<string>>)
    ensures keys.Threw? <==> FirstRowThrows(data, columnNames)
    ensures |data| == 0 ==> keys == Done([])
    ensures |data| > 0 && columnNames.Some? ==> keys == Done(columnNames.value)
    ensures |data| > 0 && columnNames.None? && data[0].Obj? ==>
              keys.Done? && |keys.value| == |data[0].members| &&
              forall i :: 0 <= i < |keys.value| ==> keys.value[i] == data[0].members[i].0
  {
    if |data| == 0 then Done([])
    else if columnNames.Some? then Done(columnNames.value)
    else if data[0].Null? then Threw
    else Done(Keys(data[0]))
  }

  // ---------------------------------------------------------- header text

  /** `\w` in a regular expression without the `u` flag: ASCII letters,
      digits and `_`. */
  predicate IsWordChar(c: char) {
    Text.IsLowerAscii(c) || Text.IsUpperAscii(c) || Text.IsDigit(c) || c == '_'
  }

  /** `\b\w` matches at i: a word character not preceded by one. */
  predicate AtWordStart(s: string, i: nat)
    requires i < |s|
  {
    IsWordChar(s[i]) && (i == 0 || !IsWordChar(s[i - 1]))
  }

  /** `key.replace(/_/g, " ")`. */
  function SpaceUnderscores(s: string): (r: string)
    ensures |r| == |s| && '_' !in r
  {
    seq(|s|, i requires 0 <= i < |s| => if s[i] == '_' then ' ' else s[i])
  }

  /** `.replace(/\b\w/g, l => l.toUpperCase())`. */
  function UpperWordStarts(s: string): (r: string)
    ensures |r| == |s|
  {
    seq(|s|, i requires 0 <= i < |s| => if AtWordStart(s, i) then Text.UpperChar(s[i]) else s[i])
  }

  /** The header text of a column key. */
  function HeaderText(key: string): string {
    UpperWordStarts(SpaceUnderscores(key))
  }

  /** The header read off the key itself: underscores become spaces, and a
      letter or digit is upper-cased exactly when it starts the key or
      follows a character that is neither a letter nor a digit (an
      underscore included); nothing else changes. */
  lemma HeaderTextChars(key: string)
    ensures var h := HeaderText(key);
      && |h| == |key| && '_' !in h
      && forall i :: 0 <= i < |key| ==>
           h[i] == (if key[i] == '_' then ' '
                    else if IsWordChar(key[i]) && (i == 0 || !IsWordChar(key[i - 1]) || key[i - 1] == '_')
                    then Text.UpperChar(key[i])
                    else key[i])
  {
    var s := SpaceUnderscores(key);
    forall i | 0 <= i < |key|
      ensures AtWordStart(s, i) <==>
                key[i] != '_' && IsWordChar(key[i]) && (i == 0 || !IsWordChar(key[i - 1]) || key[i - 1] == '_')
    {
      if i > 0 {
        assert s[i - 1] == (if key[i - 1] == '_' then ' ' else key[i - 1]);
      }
    }
  }

  /** "first_name" heads its column as "First Name". */
  lemma HeaderTextExample()
    ensures HeaderText("first_name") == "First Name"
  {
    HeaderTextChars("first_name");
  }

  /** A header is already in header form: deriving it again changes nothing. */
  lemma HeaderTextIdempotent(key: string)
    ensures HeaderText(HeaderText(key)) == HeaderText(key)
  {
    var s := SpaceUnderscores(key);
    var h := UpperWordStarts(s);
    assert SpaceUnderscores(h) == h;
    forall i | 0 <= i < |h|
      ensures AtWordStart(h, i) == AtWordStart(s, i)
    {
      assert IsWordChar(h[i]) == IsWordChar(s[i]);
      if i > 0 {
        assert IsWordChar(h[i - 1]) == IsWordChar(s[i - 1]);
      }
    }
  }

  // ---------------------------------------------------------------- cells

  /** A cell's text. A number goes through the locale formatter; anything
      else is `String(value ?? "")`, so a missing or `null` value shows "". */
  function CellText(v: Option<Value>, formatNumber: int -> string): (t: string)
    ensures IsNullish(v) ==> t == ""
    ensures v.Some? && v.value.Num? ==> t == formatNumber(v.value.n)
    ensures v.Some? && v.value.Str? ==> t == v.value.s
    ensures v.Some? && v.value.Bool? ==> t == (if v.value.b then "true" else "false")
    ensures v.Some? && v.value.Obj? ==> t == "[object Object]"
  {
    match v
    case Some(Num(n)) => formatNumber(n)
    case _ => ToString(OrElse(v, Str("")))
  }

  // ----------------------------------------------------------- pagination

  /** `initialState.pagination.pageSize`. */
  const PageSize: nat := 10

  /** `table.getPageCount()`: enough pages of `PageSize` for `n` rows. */
  function PageCount(n: nat): (c: nat)
    ensures c * PageSize >= n && (c == 0 || (c - 1) * PageSize < n)
  {
    (n + PageSize - 1) / PageSize
  }

  /** The rows `getPaginationRowModel()` puts on page `pageIndex` (counting
      from 0): the sorting state starts empty, so the rows keep data order. */
  function Page<T>(data: seq<T>, pageIndex: nat): (rows: seq<T>)
    ensures |rows| <= PageSize
    ensures forall j :: 0 <= j < |rows| ==>
              pageIndex * PageSize + j < |data| && rows[j] == data[pageIndex * PageSize + j]
  {
    var start := if pageIndex * PageSize < |data| then pageIndex * PageSize else |data|;
    var end := if start + PageSize < |data| then start + PageSize else |data|;
    data[start..end]
  }

  /** Every page before the last is full, the last holds the remainder, and
      there is nothing past it. */
  lemma PageSizes<T>(data: seq<T>, pageIndex: nat)
    ensures pageIndex < |data| / PageSize ==> |Page(data, pageIndex)| == PageSize
    ensures pageIndex == |data| / PageSize ==> |Page(data, pageIndex)| == |data| % PageSize
    ensures pageIndex >= PageCount(|data|) ==> Page(data, pageIndex) == []
    ensures pageIndex < PageCount(|data|) ==> |Page(data, pageIndex)| > 0
  {
  }

  /** Every data row is shown on some page: row i is entry
      `i % PageSize` of page `i / PageSize`, which exists. */
  lemma EveryRowOnAPage<T>(data: seq<T>, i: nat)
    requires i < |data|
    ensures i / PageSize < PageCount(|data|)
    ensures i % PageSize < |Page(data, i / PageSize)|
    ensures Page(data, i / PageSize)[i % PageSize] == data[i]
  {
  }

  /** The page controls, shown when there is more than one page: the
      one-based page number, the page count, and which buttons are enabled. */
  datatype Pager = Pager(page: nat, pageCount: nat, canPrevious: bool, canNext: bool)

  /** The table as shown on page `pageIndex`: the headers, one line of cell
      texts per row of the page, the width of the "No data available." cell
      when the page has no rows, and the page controls. */
  datatype TableView = TableView(headers: seq<string>, rows: seq<seq<string>>, emptySpan: Option<nat>, pager: Option<Pager>)

  /** The table on page `pageIndex`, or the render error when the column
      keys cannot be read. */
  function Table(data: seq<Value>, columnNames: Option<seq<string>>, formatNumber: int -> string, pageIndex: nat)
    : (r: Attempt<TableView>)
    ensures r.Threw? <==> FirstRowThrows(data, columnNames)
    ensures r.Done? ==> var t := r.value; var cols := Columns(data, columnNames).value;
      && |t.headers| == |cols|
      && (forall j :: 0 <= j < |t.headers| ==> t.headers[j] == HeaderText(cols[j]))
      && |t.rows| == |Page(data, pageIndex)|
      && (forall i :: 0 <= i < |t.rows| ==>
            && pageIndex * PageSize + i < |data|
            && |t.rows[i]| == |t.headers|
            && forall j :: 0 <= j < |t.headers| ==>
                 t.rows[i][j] == CellText(Field(data[pageIndex * PageSize + i], cols[j]), formatNumber))
      && (t.emptySpan.Some? <==> |t.rows| == 0)
      && (t.emptySpan.Some? ==> t.emptySpan.value == |t.headers|)
      && (t.pager.Some? <==> |data| > PageSize)
      && (t.pager.Some? ==> t.pager.value == Pager(pageIndex + 1, PageCount(|data|),
                                                   pageIndex > 0, pageIndex + 1 < PageCount(|data|)))
  {
    match Columns(data, columnNames)
    case Threw => Threw
    case Done(cols) =>
      var page := Page(data, pageIndex);
      Done(TableView(
        seq(|cols|, j requires 0 <= j < |cols| => HeaderText(cols[j])),
        seq(|page|, i requires 0 <= i < |page| =>
          seq(|cols|, j requires 0 <= j < |cols| => CellText(Field(page[i], cols[j]), formatNumber))),
        if |page| == 0 then Some(|cols|) else None,
        if PageCount(|data|) > 1
        then Some(Pager(pageIndex + 1, PageCount(|data|), pageIndex > 0, pageIndex + 1 < PageCount(|data|)))
        else None))
  }

  /** What the table first shows: the first `PageSize` rows (all of them when
      there are fewer), the empty-state cell only without data, and page
      controls only with more than one page, "Previous" disabled. */
  lemma FirstPage(data: seq<Value>, columnNames: Option<seq<string>>, formatNumber: int -> string)
    ensures !FirstRowThrows(data, columnNames) ==> var t := Table(data, columnNames, formatNumber, 0).value;
      && |t.rows| == (if |data| < PageSize then |data| else PageSize)
      && (t.emptySpan.Some? <==> |data| == 0)
      && (t.pager.Some? ==> t.pager.value.page == 1 && !t.pager.value.canPrevious)
  {
    PageSizes(data, 0);
  }

  /** A page index the controls can reach: the first page, or a page that
      exists. */
  predicate ReachablePage(n: nat, pageIndex: nat) {
    pageIndex == 0 || pageIndex < PageCount(n)
  }

  /** The "Next" button, disabled unless `getCanNextPage()`. */
  function NextPage(n: nat, pageIndex: nat): (r: nat)
    ensures ReachablePage(n, pageIndex) ==> ReachablePage(n, r)
    ensures r == pageIndex || r == pageIndex + 1
    ensures r == pageIndex + 1 <==> pageIndex + 1 < PageCount(n)
  {
    if pageIndex + 1 < PageCount(n) then pageIndex + 1 else pageIndex
  }

  /** The "Previous" button, disabled unless `getCanPreviousPage()`. */
  function PreviousPage(n: nat, pageIndex: nat): (r: nat)
    ensures ReachablePage(n, pageIndex) ==> ReachablePage(n, r)
    ensures pageIndex > 0 ==> r == pageIndex - 1
    ensures pageIndex == 0 ==> r == 0
  {
    if pageIndex > 0 then pageIndex - 1 else 0
  }

  /** On a reachable page the table shows rows exactly when there is data,
      and "Previous" undoes "Next" whenever "Next" moved. */
  lemma ReachablePageShowsRows(data: seq<Value>, columnNames: Option<seq<string>>,
                               formatNumber: int -> string, pageIndex: nat)
    requires ReachablePage(|data|, pageIndex)
    ensures !FirstRowThrows(data, columnNames) ==>
              (Table(data, columnNames, formatNumber, pageIndex).value.emptySpan.Some? <==> |data| == 0)
    ensures NextPage(|data|, pageIndex) != pageIndex ==>
              PreviousPage(|data|, NextPage(|data|, pageIndex)) == pageIndex
  {
    PageSizes(data, pageIndex);
  }

  /** The empty-state cell spans every column, and that is no columns at all:
      an empty table derives none, whatever names it was given. */
  lemma EmptyTableHasNoColumns(columnNames: Option<seq<string>>, formatNumber: int -> string, pageIndex: nat)
    ensures Table([], columnNames, formatNumber, pageIndex).Done?
    ensures Table([], columnNames, formatNumber, pageIndex).value.emptySpan == Some(0)
    ensures Table([], columnNames, formatNumber, pageIndex).value.headers == []
    ensures Table([], columnNames, formatNumber, pageIndex).value.pager.None?
  {
  }
}

=== FILE: Json.dfy ===
/** Parsed JSON (and TOML) values, with the JavaScript operations the source
    applies to them: truthiness, property reads that may be `undefined`, the
    `??` operator, `Object.keys` and `String(value)`. */
module Json {
  import opened Wrappers
  import Text

  /** A parsed value. Numbers are integers; an object keeps its members in
      insertion order, with distinct keys as `JSON.parse` produces them. */
  datatype Value =
    | Null
    | Bool(b: bool)
    | Num(n: int)
    | Str(s: string)
    | Arr(elems: seq<Value>)
    | Obj(members: seq<(string, Value)>)

  /** Whether a present value is truthy: `null`, `false`, `0` and `""` are not. */
  predicate Truthy(v: Value) {
    match v
    case Null => false
    case Bool(b) => b
    case Num(n) => n != 0
    case Str(s) => s != ""
    case _ => true
  }

  /** Whether a property read, `None` meaning `undefined`, is truthy. */
  predicate IsTruthy(o: Option<Value>) {
    o.Some? && Truthy(o.value)
  }

  /** Whether an optional string is present and not empty, i.e. truthy. */
  predicate HasText(o: Option<string>) {
    o.Some? && o.value != ""
  }

  /** `a || d` for an optional string: the empty string falls through too. */
  function OrText(o: Option<string>, d: string): (r: string)
    ensures HasText(o) ==> r == o.value
    ensures !HasText(o) ==> r == d
  {
    if HasText(o) then o.value else d
  }

  /** Whether a property read is `null` or `undefined`. */
  predicate IsNullish(o: Option<Value>) {
    o.None? || o.value.Null?
  }

  /** `a ?? d`. */
  function OrElse(o: Option<Value>, d: Value): (r: Value)
    ensures IsNullish(o) ==> r == d
    ensures !IsNullish(o) ==> r == o.value
  {
    if IsNullish(o) then d else o.value
  }

  /** The member of an object with key `key`, or `undefined`. */
  function Get(members: seq<(string, Value)>, key: string): (r: Option<Value>)
    ensures r.Some? <==> exists i :: 0 <= i < |members| && members[i].0 == key
    ensures r.Some? ==> exists i :: 0 <= i < |members| && members[i] == (key, r.value)
  {
    if members == [] then None
    else if members[0].0 == key then Some(members[0].1)
    else
      var r := Get(members[1..], key);
      assert forall i :: 1 <= i < |members| ==> members[i] == members[1..][i - 1];
      r
  }

  /** `v[key]` (and `v?.[key]`) for the values the source reads properties of:
      objects have their members; every other value reads as `undefined`. */
  function Field(v: Value, key: string): Option<Value> {
    if v.Obj? then Get(v.members, key) else None
  }

  /** `Object.keys(v)` of an object, in member order. */
  function Keys(v: Value): (ks: seq<string>)
    ensures v.Obj? ==> |ks| == |v.members|
    ensures v.Obj? ==> forall i :: 0 <= i < |ks| ==> ks[i] == v.members[i].0
  {
    if v.Obj? then seq(|v.members|, i requires 0 <= i < |v.members| => v.members[i].0) else []
  }

  /** `String(v)`. Inside an array, `null` elements print as "". */
  function ToString(v: Value): string
    decreases v
  {
    match v
    case Null => "null"
    case Bool(b) => if b then "true" else "false"
    case Num(n) => Text.IntToDecimal(n)
    case Str(s) => s
    case Arr(es) =>
      Text.Join(seq(|es|, i requires 0 <= i < |es| => if es[i].Null? then "" else ToString(es[i])), ',')
    case Obj(_) => "[object Object]"
  }
}

=== FILE: LoginRoute.dfy ===
/** `POST /api/auth/login`: the passcode sign-in endpoint. Reading the JSON
    body, checking the passcode and creating the session are calls that may
    throw; what each returned is an input, and the answer records which of
    the later calls were made. */
module LoginRoute {
  import opened Wrappers
  import opened Json

  /** The user `validatePasscode` resolves a passcode to. */
  datatype User = User(id: string, email: string, name: Option<string>)

  /** The JSON response. */
  datatype Response =
    | Failure(status: nat, error: string)
    | Success(email: string, name: Option<string>)

  /** The response, whether `validatePasscode` was called and with what, and
      the user id a session was created for, if `createSession` was called. */
  datatype Outcome = Outcome(response: Response, validated: Option<Value>, sessionFor: Option<string>)

  /** `POST(request)`. `body` is what `request.json()` produced; `validate`
      is what `validatePasscode` returns for a passcode value; `created` is
      what `createSession` did. Destructuring a `null` body throws. */
  function Post(body: Attempt<Value>, validate: Value -> Attempt<Option<User>>, created: Attempt<()>)
    : (o: Outcome)
    ensures o.response.Success? ==>
      && body.Done? && IsTruthy(Field(body.value, "passcode"))
      && o.validated == Field(body.value, "passcode")
      && o.sessionFor.Some?
      && validate(o.validated.value) == Done(Some(User(o.sessionFor.value, o.response.email, o.response.name)))
      && created.Done?
    ensures o.validated.None? ==> o.sessionFor.None?
    ensures o.response.Failure? ==> o.response.status in {400, 401, 500}
  {
    match body
    case Threw => Outcome(Failure(500, "An error occurred during login"), None, None)
    case Done(v) =>
      if v.Null? then Outcome(Failure(500, "An error occurred during login"), None, None)
      else
        var passcode := Field(v, "passcode");
        if !IsTruthy(passcode) then Outcome(Failure(400, "Passcode is required"), None, None)
        else
          match validate(passcode.value)
          case Threw => Outcome(Failure(500, "An error occurred during login"), passcode, None)
          case Done(None) => Outcome(Failure(401, "Invalid passcode"), passcode, None)
          case Done(Some(user)) =>
            match created
            case Threw => Outcome(Failure(500, "An error occurred during login"), passcode, Some(user.id))
            case Done(_) => Outcome(Success(user.email, user.name), passcode, Some(user.id))
  }

  /** The decision table of the endpoint, case by case. */
  lemma PostCases(body: Attempt<Value>, validate: Value -> Attempt<Option<User>>, created: Attempt<()>)
    ensures var o := Post(body, validate, created);
      && (body.Threw? || body.value.Null? ==>
            o.response == Failure(500, "An error occurred during login") && o.validated.None?)
      && (body.Done? && !body.value.Null? && !IsTruthy(Field(body.value, "passcode")) ==>
            o.response == Failure(400, "Passcode is required") && o.validated.None? && o.sessionFor.None?)
      && (body.Done? && !body.value.Null? && IsTruthy(Field(body.value, "passcode")) ==>
            var p := Field(body.value, "passcode").value;
            && o.validated == Some(p)
            && (validate(p) == Done(None) ==>
                  o.response == Failure(401, "Invalid passcode") && o.sessionFor.None?)
            && (validate(p).Threw? ==> o.response.status == 500 && o.sessionFor.None?)
            && (validate(p).Done? && validate(p).value.Some? ==>
                  && o.sessionFor == Some(validate(p).value.value.id)
                  && (created.Done? ==> o.response == Success(validate(p).value.value.email, validate(p).value.value.name))
                  && (created.Threw? ==> o.response == Failure(500, "An error occurred during login"))))
  {
  }
}

=== FILE: Middleware.dfy ===
/** The edge middleware's routing decision. It only looks for a session
    cookie by name (validating it happens elsewhere): the auth API always
    passes, a development bypass lets everything through, a visitor without a
    cookie is sent to the login page with the path to come back to, and a
    visitor with one is sent away from the login page. */
module Middleware {
  import opened Wrappers
  import Text

  /** What the middleware answers: let the request through, or redirect to
      `location`, with the `callbackUrl` query parameter when present. */
  datatype Decision = Next | Redirect(location: string, callbackUrl: Option<string>)

  datatype Request = Request(pathname: string, cookies: set<string>)

  datatype Env = Env(nodeEnv: Option<string>, bypassAuth: Option<string>)

  const SessionCookie: string := "authjs.session-token"
  const SecureSessionCookie: string := "__Secure-authjs.session-token"

  /** Whether the request carries either session cookie. A cookie that is
      present counts whatever its value, even an empty one. */
  predicate IsLoggedIn(r: Request) {
    SessionCookie in r.cookies || SecureSessionCookie in r.cookies
  }

  predicate Bypass(env: Env) {
    env.nodeEnv == Some("development") && env.bypassAuth == Some("true")
  }

  /** `middleware(request)`. */
  function Decide(r: Request, env: Env): (d: Decision)
    ensures Text.StartsWith(r.pathname, "/api/auth") ==> d == Next
    ensures Bypass(env) ==> d == Next
    ensures d.Redirect? <==>
              && !Text.StartsWith(r.pathname, "/api/auth") && !Bypass(env)
              && (IsLoggedIn(r) <==> r.pathname == "/login")
    ensures d.Redirect? && !IsLoggedIn(r) ==> d == Redirect("/login", Some(r.pathname))
    ensures d.Redirect? && IsLoggedIn(r) ==> d == Redirect("/", None)
  {
    if Text.StartsWith(r.pathname, "/api/auth") then Next
    else if Bypass(env) then Next
    else
      var loggedIn := IsLoggedIn(r);
      var isLoginPage := r.pathname == "/login";
      if !loggedIn && !isLoginPage then Redirect("/login", Some(r.pathname))
      else if loggedIn && isLoginPage then Redirect("/", None)
      else Next
  }

  /** The login page is never redirected to itself, and no redirect ever
      sends a visitor back to the page they asked for, so one hop settles. */
  lemma NoRedirectLoop(r: Request, env: Env)
    ensures Decide(Request("/login", r.cookies), env) != Redirect("/login", Some("/login"))
    ensures var d := Decide(r, env);
      d.Redirect? ==> d.location != r.pathname
    ensures var d := Decide(r, env);
      d.Redirect? ==> Decide(Request(d.location, r.cookies), env) == Next
  {
    var d := Decide(r, env);
    if d.Redirect? && !IsLoggedIn(r) {
      assert !Text.StartsWith("/login", "/api/auth") by {
        assert "/login"[1] != "/api/auth"[1];
      }
    }
    if d.Redirect? && IsLoggedIn(r) {
      assert !Text.StartsWith("/", "/api/auth");
    }
  }
}

=== FILE: Migration.dfy ===
/** The one-off migration that fills the query junction tables. For each
    project it links every query a dashboard widget names to that dashboard,
    links every `report_`/`report-` query to the project's first report, and
    attaches the queries neither step touched to the dashboard named "main";
    it never creates a link the loaded snapshot already has. The database is
    a snapshot value, and the creates are the sequence of links written, in
    order. */
module Migration {
  import opened Wrappers
  import opened Json
  import Text

  datatype Dashboard = Dashboard(id: string, name: string, config: Value)

  datatype Report = Report(id: string, name: string)

  /** A query with the ids of the dashboards and of the reports it is
      already linked to in the snapshot. */
  datatype Query = Query(id: string, name: string, dashboardIds: set<string>, reportIds: set<string>)

  datatype Project = Project(dashboards: seq<Dashboard>, queries: seq<Query>, reports: seq<Report>)

  /** A `DashboardQuery` or a `ReportQuery` record. */
  datatype Link =
    | DashboardLink(dashboardId: string, queryId: string)
    | ReportLink(reportId: string, queryId: string)

  /** No value occurs twice. */
  predicate Distinct<T(==)>(s: seq<T>) {
    forall i, j :: 0 <= i < j < |s| ==> s[i] != s[j]
  }

  /** The values a sequence lists. */
  function ElemSet<T>(s: seq<T>): set<T> {
    set x | x in s
  }

  /** The union of a sequence of sets. */
  function Union<T>(ss: seq<set<T>>): set<T> {
    if ss == [] then {} else Union(ss[..|ss| - 1]) + ss[|ss| - 1]
  }

  /** The union of `f` over the elements of `s`. */
  function UnionMap<A, T>(f: A -> set<T>, s: seq<A>): set<T> {
    if s == [] then {} else UnionMap(f, s[..|s| - 1]) + f(s[|s| - 1])
  }

  lemma UnionMapSnoc<A, T>(f: A -> set<T>, s: seq<A>, k: nat)
    requires k < |s|
    ensures UnionMap(f, s[..k + 1]) == UnionMap(f, s[..k]) + f(s[k])
  {
    assert s[..k + 1][..k] == s[..k];
  }

  /** A value is in the union exactly when one element's set holds it. */
  lemma {:induction false} UnionMapMember<A, T>(f: A -> set<T>, s: seq<A>, x: T)
    ensures x in UnionMap(f, s) <==> exists i :: 0 <= i < |s| && x in f(s[i])
  {
    if s != [] {
      var n := |s| - 1;
      UnionMapMember(f, s[..n], x);
      assert forall i :: 0 <= i < n ==> s[..n][i] == s[i];
    }
  }

  /** A value is in the union exactly when it is in one of the sets. */
  lemma {:induction false} UnionMember<T>(ss: seq<set<T>>, x: T)
    ensures x in Union(ss) <==> exists i :: 0 <= i < |ss| && x in ss[i]
  {
    if ss != [] {
      var n := |ss| - 1;
      UnionMember(ss[..n], x);
      assert forall i :: 0 <= i < n ==> ss[..n][i] == ss[i];
    }
  }

  lemma UnionSnoc<T>(ss: seq<set<T>>, s: set<T>)
    ensures Union(ss + [s]) == Union(ss) + s
  {
    assert (ss + [s])[..|ss|] == ss;
  }

  /** Taking the same values out of every set takes them out of the union. */
  lemma {:induction false} UnionMinus<T>(ss: seq<set<T>>, ts: seq<set<T>>, out: set<T>)
    requires |ts| == |ss| && forall i :: 0 <= i < |ss| ==> ts[i] == ss[i] - out
    ensures Union(ts) == Union(ss) - out
  {
    if ss != [] {
      var n := |ss| - 1;
      UnionMinus(ss[..n], ts[..n], out);
    }
  }

  /** No two queries share an id. */
  predicate UniqueIds(qs: seq<Query>) {
    forall i, j :: 0 <= i < j < |qs| ==> qs[i].id != qs[j].id
  }

  /** None of the links is to dashboard `id`. */
  predicate NoneTo(links: seq<Link>, id: string) {
    forall l :: l in links ==> !(l.DashboardLink? && l.dashboardId == id)
  }

  /** Primary keys are unique: no two dashboards, queries or reports of the
      project share an id, as the database guarantees. */
  predicate WellFormed(p: Project) {
    && (forall i, j :: 0 <= i < j < |p.dashboards| ==> p.dashboards[i].id != p.dashboards[j].id)
    && UniqueIds(p.queries)
  }

  // ------------------------------------------------------- widget names

  /** `config.widgets` when it is an array, else no widgets. */
  function WidgetArray(config: Value): (ws: seq<Value>)
    ensures IsTruthy(Field(config, "widgets")) && Field(config, "widgets").value.Arr? ==>
      ws == Field(config, "widgets").value.elems
  {
    var w := Field(config, "widgets");
    if IsTruthy(w) && w.value.Arr? then w.value.elems else []
  }

  /** Reading the widgets throws when the config is `null`, or when one of
      its widgets is `null` (`widget.queryName` on `null`). */
  predicate Throws(config: Value) {
    config.Null? || exists i :: 0 <= i < |WidgetArray(config)| && WidgetArray(config)[i].Null?
  }

  /** `widget.queryName` when it is truthy. */
  predicate NamesQuery(w: Value) {
    IsTruthy(Field(w, "queryName"))
  }

  /** Dashboard k is the first whose config read throws. */
  predicate FailsAt(ds: seq<Dashboard>, k: int) {
    0 <= k < |ds| && Throws(ds[k].config) && forall j :: 0 <= j < k ==> !Throws(ds[j].config)
  }

  /** The set of truthy `queryName` values of some widgets. */
  function NamesOf(ws: seq<Value>): set<Value> {
    set w | w in ws && NamesQuery(w) :: Field(w, "queryName").value
  }

  /** The set of truthy `queryName` values of a config's widgets. */
  function NameSet(config: Value): set<Value> {
    NamesOf(WidgetArray(config))
  }

  lemma NamesOfSnoc(ws: seq<Value>, i: nat)
    requires i < |ws|
    ensures NamesOf(ws[..i + 1]) == NamesOf(ws[..i]) + (if NamesQuery(ws[i]) then {Field(ws[i], "queryName").value} else {})
  {
    assert ws[..i + 1] == ws[..i] + [ws[i]];
  }

  /** The loop that fills `queryNames`: the truthy names in first-seen order,
      each once, or a failure when a read throws. */
  method WidgetNames(config: Value) returns (names: seq<Value>, failed: bool)
    ensures failed <==> Throws(config)
    ensures !failed ==> ElemSet(names) == NameSet(config) && Distinct(names)
  {
    if config.Null? {
      return [], true;
    }
    var ws := WidgetArray(config);
    names := [];
    var i := 0;
    while i < |ws|
      invariant 0 <= i <= |ws|
      invariant forall k :: 0 <= k < i ==> !ws[k].Null?
      invariant ElemSet(names) == NamesOf(ws[..i])
      invariant Distinct(names)
    {
      if ws[i].Null? {
        return names, true;
      }
      NamesOfSnoc(ws, i);
      var q := Field(ws[i], "queryName");
      if IsTruthy(q) && q.value !in names {
        assert ElemSet(names + [q.value]) == ElemSet(names) + {q.value};
        names := names + [q.value];
      }
      i := i + 1;
    }
    assert ws[..i] == ws;
    return names, false;
  }

  // ------------------------------------------------------------- lookup

  /** `project.queries.find(q => q.name === name)`. */
  function FindQuery(qs: seq<Query>, name: Value): (r: Option<Query>)
    ensures r.Some? ==> r.value in qs && name == Str(r.value.name)
    ensures r.None? <==> forall i :: 0 <= i < |qs| ==> name != Str(qs[i].name)
  {
    if qs == [] then None
    else if name == Str(qs[0].name) then Some(qs[0])
    else FindQuery(qs[1..], name)
  }

  /** `project.dashboards.find(d => d.name === 'main')`. */
  function FindDashboard(ds: seq<Dashboard>, name: string): (r: Option<Dashboard>)
    ensures r.Some? ==> r.value in ds && r.value.name == name
    ensures r.None? <==> forall i :: 0 <= i < |ds| ==> ds[i].name != name
  {
    if ds == [] then None
    else if ds[0].name == name then Some(ds[0])
    else FindDashboard(ds[1..], name)
  }

  // ------------------------------------------------------ what is linked

  /** The links step 1 makes for one dashboard and a set of names. */
  function DashLinks(d: Dashboard, qs: seq<Query>, names: set<Value>): set<Link> {
    set v | v in names && FindQuery(qs, v).Some? && d.id !in FindQuery(qs, v).value.dashboardIds
      :: DashboardLink(d.id, FindQuery(qs, v).value.id)
  }

  /** The queries step 1 marks as linked for a set of names. */
  function DashLinked(qs: seq<Query>, names: set<Value>): set<string> {
    set v | v in names && FindQuery(qs, v).Some? :: FindQuery(qs, v).value.id
  }

  /** The links step 1 makes for one dashboard. */
  function LinksFor(d: Dashboard, qs: seq<Query>): set<Link> {
    DashLinks(d, qs, NameSet(d.config))
  }

  /** The queries step 1 marks for one dashboard. */
  function LinkedFor(d: Dashboard, qs: seq<Query>): set<string> {
    DashLinked(qs, NameSet(d.config))
  }

  /** Each dashboard's step-1 links, in dashboard order. */
  function LinkSets(ds: seq<Dashboard>, qs: seq<Query>): (r: seq<set<Link>>)
    ensures |r| == |ds| && forall i :: 0 <= i < |ds| ==> r[i] == LinksFor(ds[i], qs)
  {
    seq(|ds|, i requires 0 <= i < |ds| => LinksFor(ds[i], qs))
  }

  /** Each dashboard's step-1 marks, in dashboard order. */
  function MarkSets(ds: seq<Dashboard>, qs: seq<Query>): (r: seq<set<string>>)
    ensures |r| == |ds| && forall i :: 0 <= i < |ds| ==> r[i] == LinkedFor(ds[i], qs)
  {
    seq(|ds|, i requires 0 <= i < |ds| => LinkedFor(ds[i], qs))
  }

  /** Step 1: for each dashboard, its named queries that are not yet linked
      to it. */
  function Step1Links(ds: seq<Dashboard>, qs: seq<Query>): set<Link> {
    Union(LinkSets(ds, qs))
  }

  /** The queries step 1 marks as linked: every query some widget names,
      whether or not its link already existed. */
  function Step1Linked(ds: seq<Dashboard>, qs: seq<Query>): set<string> {
    Union(MarkSets(ds, qs))
  }

  /** Processing one more dashboard adds its links and marks. */
  lemma Step1Snoc(ds: seq<Dashboard>, qs: seq<Query>, k: nat)
    requires k < |ds|
    ensures Step1Links(ds[..k + 1], qs) == Step1Links(ds[..k], qs) + LinksFor(ds[k], qs)
    ensures Step1Linked(ds[..k + 1], qs) == Step1Linked(ds[..k], qs) + LinkedFor(ds[k], qs)
  {
    assert LinkSets(ds[..k + 1], qs) == LinkSets(ds[..k], qs) + [LinksFor(ds[k], qs)];
    assert MarkSets(ds[..k + 1], qs) == MarkSets(ds[..k], qs) + [LinkedFor(ds[k], qs)];
    UnionSnoc(LinkSets(ds[..k], qs), LinksFor(ds[k], qs));
    UnionSnoc(MarkSets(ds[..k], qs), LinkedFor(ds[k], qs));
  }

  /** `name.startsWith('report_') || name.startsWith('report-')`. */
  predicate IsReportQuery(name: string) {
    Text.StartsWith(name, "report_") || Text.StartsWith(name, "report-")
  }

  /** Step 2 over the queries in `qs`: the report queries not yet linked to
      the first report. */
  function Step2Links(reports: seq<Report>, qs: seq<Query>): set<Link> {
    if reports == [] then {}
    else set q | q in qs && IsReportQuery(q.name) && reports[0].id !in q.reportIds :: ReportLink(reports[0].id, q.id)
  }

  /** The queries step 2 marks as linked. */
  function Step2Linked(reports: seq<Report>, qs: seq<Query>): set<string> {
    if reports == [] then {}
    else set q | q in qs && IsReportQuery(q.name) :: q.id
  }

  /** Step 3 over the queries in `qs`: those not marked linked and not yet
      attached to "main", when there is a dashboard of that name. */
  function Step3Links(ds: seq<Dashboard>, qs: seq<Query>, linked: set<string>): set<Link> {
    match FindDashboard(ds, "main")
    case None => {}
    case Some(main) => set q | q in qs && q.id !in linked && main.id !in q.dashboardIds :: DashboardLink(main.id, q.id)
  }

  /** Every query marked linked by steps 1 and 2. */
  function Linked(p: Project): set<string> {
    Step1Linked(p.dashboards, p.queries) + Step2Linked(p.reports, p.queries)
  }

  /** Every link the migration makes for a project whose configs read without
      throwing. */
  function ProjectLinks(p: Project): set<Link> {
    Step1Links(p.dashboards, p.queries) + Step2Links(p.reports, p.queries)
      + Step3Links(p.dashboards, p.queries, Linked(p))
  }

  // --------------------------------------------------------- step 1 facts

  /** A step-1 link names one of the dashboards; a linked query id is one
      of the queries'. */
  lemma Step1Origin(ds: seq<Dashboard>, qs: seq<Query>, l: Link)
    requires l in Step1Links(ds, qs)
    ensures l.DashboardLink?
    ensures exists i :: 0 <= i < |ds| && l.dashboardId == ds[i].id
    ensures l.queryId in Step1Linked(ds, qs)
  {
    Step1Member(ds, qs, l);
    var i :| 0 <= i < |ds| && l in LinksFor(ds[i], qs);
    Step1LinkedMember(ds, qs, l.queryId);
  }

  /** A link is made by step 1 exactly when it is among the links for one
      of the dashboards. */
  lemma Step1Member(ds: seq<Dashboard>, qs: seq<Query>, l: Link)
    ensures l in Step1Links(ds, qs) <==>
      exists i :: 0 <= i < |ds| && l in LinksFor(ds[i], qs)
  {
    UnionMember(LinkSets(ds, qs), l);
  }

  /** A query is marked by step 1 exactly when it is marked for one of the
      dashboards. */
  lemma Step1LinkedMember(ds: seq<Dashboard>, qs: seq<Query>, id: string)
    ensures id in Step1Linked(ds, qs) <==>
      exists i :: 0 <= i < |ds| && id in LinkedFor(ds[i], qs)
  {
    UnionMember(MarkSets(ds, qs), id);
  }

  /** Step 1 links a dashboard and a query only when a widget of that
      dashboard names the query and the pair is not linked yet. */
  lemma Step1Sound(ds: seq<Dashboard>, qs: seq<Query>, l: Link)
    requires l in Step1Links(ds, qs)
    ensures exists i, j, w :: (0 <= i < |ds| && 0 <= j < |qs| && w in WidgetArray(ds[i].config)
      && Field(w, "queryName") == Some(Str(qs[j].name))
      && ds[i].id !in qs[j].dashboardIds && l == DashboardLink(ds[i].id, qs[j].id))
  {
    Step1Member(ds, qs, l);
    var i :| 0 <= i < |ds| && l in LinksFor(ds[i], qs);
    var v :| v in NameSet(ds[i].config) && FindQuery(qs, v).Some? && ds[i].id !in FindQuery(qs, v).value.dashboardIds
      && l == DashboardLink(ds[i].id, FindQuery(qs, v).value.id);
    var q := FindQuery(qs, v).value;
    var j :| 0 <= j < |qs| && qs[j] == q;
    var w :| w in WidgetArray(ds[i].config) && NamesQuery(w) && v == Field(w, "queryName").value;
  }

  /** A widget name that no query carries adds nothing to step 1: no link
      and no mark. */
  lemma UnmatchedNameIgnored(d: Dashboard, qs: seq<Query>, names: set<Value>, v: Value)
    requires forall j :: 0 <= j < |qs| ==> v != Str(qs[j].name)
    ensures DashLinks(d, qs, names + {v}) == DashLinks(d, qs, names)
    ensures DashLinked(qs, names + {v}) == DashLinked(qs, names)
  {
  }

  // ------------------------------------------------------------ the steps

  /** The links step 1 writes for one dashboard, given its names. */
  method LinkNames(d: Dashboard, qs: seq<Query>, names: seq<Value>, before: seq<Link>)
    returns (creates: seq<Link>, linked: set<string>)
    ensures forall l :: l in creates <==> l in before || l in DashLinks(d, qs, ElemSet(names))
    ensures linked == DashLinked(qs, ElemSet(names))
    ensures |creates| >= |before| && creates[..|before|] == before
    ensures forall l :: l in creates[|before|..] ==> l.DashboardLink? && l.dashboardId == d.id
    ensures UniqueIds(qs) && Distinct(names) && Distinct(before) && NoneTo(before, d.id) ==> Distinct(creates)
  {
    creates := before;
    linked := {};
    var k := 0;
    while k < |names|
      invariant 0 <= k <= |names|
      invariant forall l :: l in creates <==> l in before || l in DashLinks(d, qs, ElemSet(names[..k]))
      invariant linked == DashLinked(qs, ElemSet(names[..k]))
      invariant |creates| >= |before| && creates[..|before|] == before
      invariant forall l :: l in creates[|before|..] ==> l.DashboardLink? && l.dashboardId == d.id
      invariant UniqueIds(qs) && Distinct(names) && Distinct(before) && NoneTo(before, d.id) ==> Distinct(creates)
    {
      assert ElemSet(names[..k + 1]) == ElemSet(names[..k]) + {names[k]} by {
        assert names[..k + 1] == names[..k] + [names[k]];
      }
      var q := FindQuery(qs, names[k]);
      if q.Some? {
        if d.id !in q.value.dashboardIds {
          var l := DashboardLink(d.id, q.value.id);
          if UniqueIds(qs) && Distinct(names) && Distinct(before) && NoneTo(before, d.id) {
            NewNameNewLink(d, qs, names, k);
          }
          creates := creates + [l];
        }
        linked := linked + {q.value.id};
      }
      k := k + 1;
    }
    assert names[..|names|] == names;
  }

  /** With unique query ids, the link for a name not seen before is not
      among the links for the names before it. */
  lemma NewNameNewLink(d: Dashboard, qs: seq<Query>, names: seq<Value>, k: nat)
    requires k < |names| && Distinct(names)
    requires UniqueIds(qs)
    requires FindQuery(qs, names[k]).Some?
    ensures DashboardLink(d.id, FindQuery(qs, names[k]).value.id) !in DashLinks(d, qs, ElemSet(names[..k]))
  {
    forall v | v in names[..k] && FindQuery(qs, v).Some?
      ensures FindQuery(qs, v).value.id != FindQuery(qs, names[k]).value.id
    {
      var j :| 0 <= j < k && names[..k][j] == v;
      assert names[j] == v;
      FindQueryDistinct(qs, v, names[k]);
    }
  }

  /** With unique ids, different names find queries with different ids. */
  lemma FindQueryDistinct(qs: seq<Query>, v: Value, w: Value)
    requires UniqueIds(qs) && v != w
    requires FindQuery(qs, v).Some? && FindQuery(qs, w).Some?
    ensures FindQuery(qs, v).value.id != FindQuery(qs, w).value.id
  {
    var a :| 0 <= a < |qs| && qs[a] == FindQuery(qs, v).value;
    var b :| 0 <= b < |qs| && qs[b] == FindQuery(qs, w).value;
    assert qs[a].name != qs[b].name;
    assert a != b;
  }

  /** No config among the dashboards throws when read. */
  predicate NoneThrow(ds: seq<Dashboard>) {
    ds == [] || (NoneThrow(ds[..|ds| - 1]) && !Throws(ds[|ds| - 1].config))
  }

  /** Extending the prefix by one dashboard. */
  lemma NoneThrowSnoc(ds: seq<Dashboard>, k: nat)
    requires k < |ds|
    ensures NoneThrow(ds[..k + 1]) <==> NoneThrow(ds[..k]) && !Throws(ds[k].config)
  {
    assert ds[..k + 1][..k] == ds[..k];
  }

  lemma {:induction false} NoneThrowAll(ds: seq<Dashboard>)
    ensures NoneThrow(ds) <==> forall j :: 0 <= j < |ds| ==> !Throws(ds[j].config)
  {
    if ds != [] {
      var n := |ds| - 1;
      NoneThrowAll(ds[..n]);
      assert forall j :: 0 <= j < n ==> ds[..n][j] == ds[j];
    }
  }

  /** With unique dashboard ids, nothing written for the dashboards before
      the k-th links the k-th. */
  lemma NotYetLinked(ds: seq<Dashboard>, qs: seq<Query>, k: nat, creates: seq<Link>)
    requires k < |ds| && WellFormed(Project(ds, qs, []))
    requires forall l :: l in creates <==> l in Step1Links(ds[..k], qs)
    ensures NoneTo(creates, ds[k].id)
  {
    forall l | l in creates
      ensures !(l.DashboardLink? && l.dashboardId == ds[k].id)
    {
      Step1Origin(ds[..k], qs, l);
    }
  }

  /** Step 1 over all dashboards: the links written, `dashboardLinksCreated`,
      the queries marked linked, and whether a config read threw (which ends
      the whole migration, keeping what was already written). */
  method LinkDashboards(ds: seq<Dashboard>, qs: seq<Query>)
    returns (creates: seq<Link>, count: nat, linked: set<string>, failed: bool)
    ensures count == |creates|
    ensures forall l :: l in creates ==> l.DashboardLink?
    ensures failed <==> exists i :: 0 <= i < |ds| && Throws(ds[i].config)
    ensures !failed ==> (forall l :: l in creates <==> l in Step1Links(ds, qs)) && linked == Step1Linked(ds, qs)
    ensures failed ==> exists k :: FailsAt(ds, k) && (forall l :: l in creates <==> l in Step1Links(ds[..k], qs))
    ensures WellFormed(Project(ds, qs, [])) ==> Distinct(creates)
  {
    creates := [];
    linked := {};
    var k := 0;
    while k < |ds|
      invariant 0 <= k <= |ds|
      invariant NoneThrow(ds[..k])
      invariant forall l :: l in creates <==> l in Step1Links(ds[..k], qs)
      invariant linked == Step1Linked(ds[..k], qs)
      invariant forall l :: l in creates ==> l.DashboardLink?
      invariant WellFormed(Project(ds, qs, [])) ==> Distinct(creates)
    {
      Step1Snoc(ds, qs, k);
      NoneThrowSnoc(ds, k);
      var names, bad := WidgetNames(ds[k].config);
      if bad {
        NoneThrowAll(ds[..k]);
        assert forall j :: 0 <= j < k ==> ds[..k][j] == ds[j];
        assert FailsAt(ds, k);
        return creates, |creates|, linked, true;
      }
      assert ElemSet(names) == NameSet(ds[k].config);
      if WellFormed(Project(ds, qs, [])) {
        NotYetLinked(ds, qs, k, creates);
      }
      var more;
      creates, more := LinkNames(ds[k], qs, names, creates);
      linked := linked + more;
      k := k + 1;
    }
    assert ds[..|ds|] == ds;
    NoneThrowAll(ds);
    return creates, |creates|, linked, false;
  }

  /** Step 2: the links to the first report, `reportLinksCreated`, and the
      queries marked linked. */
  method LinkReports(reports: seq<Report>, qs: seq<Query>)
    returns (creates: seq<Link>, count: nat, linked: set<string>)
    ensures count == |creates|
    ensures forall l :: l in creates <==> l in Step2Links(reports, qs)
    ensures linked == Step2Linked(reports, qs)
    ensures UniqueIds(qs) ==> Distinct(creates)
  {
    creates := [];
    linked := {};
    count := 0;
    if |reports| == 0 {
      return;
    }
    var first := reports[0];
    var k := 0;
    while k < |qs|
      invariant 0 <= k <= |qs|
      invariant count == |creates|
      invariant forall l :: l in creates <==> l in Step2Links(reports, qs[..k])
      invariant linked == Step2Linked(reports, qs[..k])
      invariant forall l :: l in creates ==> exists j :: 0 <= j < k && l.queryId == qs[j].id
      invariant UniqueIds(qs) ==> Distinct(creates)
    {
      assert qs[..k + 1] == qs[..k] + [qs[k]];
      var q := qs[k];
      if IsReportQuery(q.name) {
        if first.id !in q.reportIds {
          creates := creates + [ReportLink(first.id, q.id)];
          count := count + 1;
        }
        linked := linked + {q.id};
      }
      k := k + 1;
    }
    assert qs[..|qs|] == qs;
  }

  /** Step 3: the queries attached to "main" and `orphansAttached`. */
  method AttachOrphans(ds: seq<Dashboard>, qs: seq<Query>, linked: set<string>)
    returns (creates: seq<Link>, count: nat)
    ensures count == |creates|
    ensures forall l :: l in creates <==> l in Step3Links(ds, qs, linked)
    ensures UniqueIds(qs) ==> Distinct(creates)
  {
    creates := [];
    count := 0;
    var main := FindDashboard(ds, "main");
    if main.None? {
      return;
    }
    var k := 0;
    while k < |qs|
      invariant 0 <= k <= |qs|
      invariant count == |creates|
      invariant forall l :: l in creates <==> l in Step3Links(ds, qs[..k], linked)
      invariant forall l :: l in creates ==> exists j :: 0 <= j < k && l.queryId == qs[j].id
      invariant UniqueIds(qs) ==> Distinct(creates)
    {
      assert qs[..k + 1] == qs[..k] + [qs[k]];
      var q := qs[k];
      if q.id !in linked && main.value.id !in q.dashboardIds {
        creates := creates + [DashboardLink(main.value.id, q.id)];
        count := count + 1;
      }
      k := k + 1;
    }
    assert qs[..|qs|] == qs;
  }

  // ---------------------------------------------------------- one project

  /** What the migration does to one project: the links written in order and
      the three counters' increments. */
  datatype Outcome = Outcome(creates: seq<Link>, dashboardLinks: nat, reportLinks: nat, orphans: nat, failed: bool)

  /** The body of the loop over projects. */
  method MigrateProject(p: Project) returns (o: Outcome)
    ensures |o.creates| == o.dashboardLinks + o.reportLinks + o.orphans
    ensures o.failed <==> ProjectThrows(p)
    ensures !o.failed ==>
      var d := o.dashboardLinks;
      var r := o.reportLinks;
      && (forall l :: l in o.creates[..d] <==> l in Step1Links(p.dashboards, p.queries))
      && (forall l :: l in o.creates[d..d + r] <==> l in Step2Links(p.reports, p.queries))
      && (forall l :: l in o.creates[d + r..] <==> l in Step3Links(p.dashboards, p.queries, Linked(p)))
    ensures !o.failed ==> forall l :: l in o.creates <==> l in ProjectLinks(p)
    ensures o.failed ==> o.reportLinks == 0 && o.orphans == 0
    ensures o.failed ==> exists k :: (FailsAt(p.dashboards, k)
      && (forall l :: l in o.creates <==> l in Step1Links(p.dashboards[..k], p.queries)))
    ensures WellFormed(p) ==> Distinct(o.creates)
    ensures WellFormed(p) && !o.failed ==>
      && o.dashboardLinks == |Step1Links(p.dashboards, p.queries)|
      && o.reportLinks == |Step2Links(p.reports, p.queries)|
      && o.orphans == |Step3Links(p.dashboards, p.queries, Linked(p))|
      && |o.creates| == |ProjectLinks(p)|
  {
    var c1, n1, linked1, failed := LinkDashboards(p.dashboards, p.queries);
    if failed {
      if WellFormed(p) {
        assert WellFormed(Project(p.dashboards, p.queries, []));
      }
      return Outcome(c1, n1, 0, 0, true);
    }
    var c2, n2, linked2 := LinkReports(p.reports, p.queries);
    var c3, n3 := AttachOrphans(p.dashboards, p.queries, linked1 + linked2);
    var all := c1 + c2 + c3;
    assert all[..n1] == c1 && all[n1..n1 + n2] == c2 && all[n1 + n2..] == c3;
    if WellFormed(p) {
      assert WellFormed(Project(p.dashboards, p.queries, []));
      StepsDisjoint(p, c1, c2, c3);
      StepCounts(p, c1, c2, c3);
    }
    return Outcome(all, n1, n2, n3, false);
  }

  /** Links of different steps never coincide: report links are of their own
      kind, and a query step 3 attaches is one step 1 did not mark. */
  lemma StepsDisjoint(p: Project, c1: seq<Link>, c2: seq<Link>, c3: seq<Link>)
    requires Distinct(c1) && Distinct(c2) && Distinct(c3)
    requires forall l :: l in c1 <==> l in Step1Links(p.dashboards, p.queries)
    requires forall l :: l in c2 <==> l in Step2Links(p.reports, p.queries)
    requires forall l :: l in c3 <==> l in Step3Links(p.dashboards, p.queries, Linked(p))
    ensures Distinct(c1 + c2 + c3)
  {
    forall l | l in c1
      ensures l !in c3 && l !in c2
    {
      Step1Origin(p.dashboards, p.queries, l);
    }
    DistinctConcat(c1, c2);
    DistinctConcat(c1 + c2, c3);
  }

  lemma DistinctConcat<T>(a: seq<T>, b: seq<T>)
    requires Distinct(a) && Distinct(b)
    requires forall x :: x in a ==> x !in b
    ensures Distinct(a + b)
  {
    forall i, j | 0 <= i < j < |a + b|
      ensures (a + b)[i] != (a + b)[j]
    {
      if i < |a| && j >= |a| {
        assert (a + b)[i] in a && (a + b)[j] in b;
      }
    }
  }

  // ------------------------------------------------------------- counters

  /** A sequence without repeats has as many elements as the set it lists. */
  lemma {:induction false} DistinctCount<T>(s: seq<T>, S: set<T>)
    requires Distinct(s)
    requires forall x :: x in s <==> x in S
    ensures |S| == |s|
  {
    if s != [] {
      var n := |s| - 1;
      assert s == s[..n] + [s[n]];
      assert s[n] !in s[..n];
      assert ElemSet(s[..n]) == S - {s[n]};
      DistinctCount(s[..n], S - {s[n]});
    }
  }

  /** On a project with unique ids each counter is the number of links its
      step makes, and the run writes each of the project's links once. */
  lemma StepCounts(p: Project, c1: seq<Link>, c2: seq<Link>, c3: seq<Link>)
    requires Distinct(c1) && Distinct(c2) && Distinct(c3) && Distinct(c1 + c2 + c3)
    requires forall l :: l in c1 <==> l in Step1Links(p.dashboards, p.queries)
    requires forall l :: l in c2 <==> l in Step2Links(p.reports, p.queries)
    requires forall l :: l in c3 <==> l in Step3Links(p.dashboards, p.queries, Linked(p))
    ensures |c1| == |Step1Links(p.dashboards, p.queries)|
    ensures |c2| == |Step2Links(p.reports, p.queries)|
    ensures |c3| == |Step3Links(p.dashboards, p.queries, Linked(p))|
    ensures |c1 + c2 + c3| == |ProjectLinks(p)|
  {
    DistinctCount(c1, Step1Links(p.dashboards, p.queries));
    DistinctCount(c2, Step2Links(p.reports, p.queries));
    DistinctCount(c3, Step3Links(p.dashboards, p.queries, Linked(p)));
    DistinctCount(c1 + c2 + c3, ProjectLinks(p));
  }

  // -------------------------------------------------------- after a run

  /** A query once the given links are in the database. */
  function AddLinks(q: Query, links: set<Link>): (r: Query)
    ensures r.id == q.id && r.name == q.name
    ensures forall d :: d in r.dashboardIds <==> d in q.dashboardIds || DashboardLink(d, q.id) in links
    ensures forall rid :: rid in r.reportIds <==> rid in q.reportIds || ReportLink(rid, q.id) in links
  {
    var newDash := set l | l in links && l.DashboardLink? && l.queryId == q.id :: l.dashboardId;
    var newReport := set l | l in links && l.ReportLink? && l.queryId == q.id :: l.reportId;
    assert forall d :: DashboardLink(d, q.id) in links ==> d in newDash;
    assert forall rid :: ReportLink(rid, q.id) in links ==> rid in newReport;
    q.(dashboardIds := q.dashboardIds + newDash, reportIds := q.reportIds + newReport)
  }

  function AddAll(qs: seq<Query>, links: set<Link>): (r: seq<Query>)
    ensures |r| == |qs| && forall i :: 0 <= i < |qs| ==> r[i] == AddLinks(qs[i], links)
  {
    if qs == [] then [] else [AddLinks(qs[0], links)] + AddAll(qs[1..], links)
  }

  /** The snapshot a re-run loads: the same project with the links written. */
  function Apply(p: Project, links: set<Link>): Project {
    p.(queries := AddAll(p.queries, links))
  }

  /** Lookup by name finds the same query, now carrying the new links. */
  lemma {:induction false} FindQueryAfter(qs: seq<Query>, links: set<Link>, v: Value)
    ensures FindQuery(qs, v).None? ==> FindQuery(AddAll(qs, links), v).None?
    ensures FindQuery(qs, v).Some? ==> FindQuery(AddAll(qs, links), v) == Some(AddLinks(FindQuery(qs, v).value, links))
  {
    if qs != [] {
      assert AddAll(qs, links)[1..] == AddAll(qs[1..], links);
      FindQueryAfter(qs[1..], links, v);
    }
  }

  /** Once `links` are written, one dashboard's step-1 links are the old ones
      that were not among them. */
  lemma DashLinksAfter(d: Dashboard, qs: seq<Query>, links: set<Link>, names: set<Value>)
    ensures DashLinks(d, AddAll(qs, links), names) == DashLinks(d, qs, names) - links
    ensures DashLinked(AddAll(qs, links), names) == DashLinked(qs, names)
  {
    forall v | v in names
      ensures FindQuery(qs, v).None? ==> FindQuery(AddAll(qs, links), v).None?
      ensures FindQuery(qs, v).Some? ==> FindQuery(AddAll(qs, links), v) == Some(AddLinks(FindQuery(qs, v).value, links))
    {
      FindQueryAfter(qs, links, v);
    }
  }

  lemma Step1After(ds: seq<Dashboard>, qs: seq<Query>, links: set<Link>)
    ensures Step1Links(ds, AddAll(qs, links)) == Step1Links(ds, qs) - links
    ensures Step1Linked(ds, AddAll(qs, links)) == Step1Linked(ds, qs)
  {
    forall i | 0 <= i < |ds|
      ensures LinksFor(ds[i], AddAll(qs, links)) == LinksFor(ds[i], qs) - links
      ensures LinkedFor(ds[i], AddAll(qs, links)) == LinkedFor(ds[i], qs)
    {
      DashLinksAfter(ds[i], qs, links, NameSet(ds[i].config));
    }
    UnionMinus(LinkSets(ds, qs), LinkSets(ds, AddAll(qs, links)), links);
    assert MarkSets(ds, AddAll(qs, links)) == MarkSets(ds, qs);
  }

  lemma Step2After(reports: seq<Report>, qs: seq<Query>, links: set<Link>)
    ensures Step2Links(reports, AddAll(qs, links)) == Step2Links(reports, qs) - links
    ensures Step2Linked(reports, AddAll(qs, links)) == Step2Linked(reports, qs)
  {
    var qs' := AddAll(qs, links);
    assert forall q' :: q' in qs' ==> exists i :: 0 <= i < |qs| && q' == AddLinks(qs[i], links);
    assert forall i :: 0 <= i < |qs| ==> AddLinks(qs[i], links) in qs' by {
      forall i | 0 <= i < |qs|
        ensures AddLinks(qs[i], links) in qs'
      {
        assert qs'[i] == AddLinks(qs[i], links);
      }
    }
  }

  lemma Step3After(ds: seq<Dashboard>, qs: seq<Query>, linked: set<string>, links: set<Link>)
    ensures Step3Links(ds, AddAll(qs, links), linked) == Step3Links(ds, qs, linked) - links
  {
    var qs' := AddAll(qs, links);
    assert forall q' :: q' in qs' ==> exists i :: 0 <= i < |qs| && q' == AddLinks(qs[i], links);
    assert forall i :: 0 <= i < |qs| ==> AddLinks(qs[i], links) in qs' by {
      forall i | 0 <= i < |qs|
        ensures AddLinks(qs[i], links) in qs'
      {
        assert qs'[i] == AddLinks(qs[i], links);
      }
    }
  }

  /** Whatever is already written is not written again: on the snapshot with
      `links` added, the migration makes exactly its old links minus those. */
  lemma LinksAfter(p: Project, links: set<Link>)
    ensures ProjectLinks(Apply(p, links)) == ProjectLinks(p) - links
    ensures Linked(Apply(p, links)) == Linked(p)
  {
    Step1After(p.dashboards, p.queries, links);
    Step2After(p.reports, p.queries, links);
    Step3After(p.dashboards, p.queries, Linked(p), links);
  }

  /** Running the migration again over its own result creates nothing. */
  lemma RerunCreatesNothing(p: Project)
    ensures ProjectLinks(Apply(p, ProjectLinks(p))) == {}
  {
    LinksAfter(p, ProjectLinks(p));
  }

  // ---------------------------------------------------- within a project

  /** Every link joins a query of the project to one of its dashboards or to
      its first report. */
  lemma LinksStayInProject(p: Project, l: Link)
    ensures l in ProjectLinks(p) ==> exists j :: 0 <= j < |p.queries| && l.queryId == p.queries[j].id
    ensures l in ProjectLinks(p) && l.DashboardLink? ==>
              exists i :: 0 <= i < |p.dashboards| && l.dashboardId == p.dashboards[i].id
    ensures l in ProjectLinks(p) && l.ReportLink? ==> |p.reports| > 0 && l.reportId == p.reports[0].id
  {
    if l in Step1Links(p.dashboards, p.queries) {
      Step1Sound(p.dashboards, p.queries, l);
    } else if l in Step2Links(p.reports, p.queries) {
      var q :| q in p.queries && l == ReportLink(p.reports[0].id, q.id);
    } else if l in Step3Links(p.dashboards, p.queries, Linked(p)) {
      var main := FindDashboard(p.dashboards, "main").value;
      var q :| q in p.queries && l == DashboardLink(main.id, q.id);
    }
  }

  /** A report link goes to the first report, for a query whose name starts
      with "report_" or "report-" and that was not linked to it already; a
      project without reports gets none. */
  lemma ReportLinksOnlyForReportQueries(p: Project, l: Link)
    ensures l in ProjectLinks(p) && l.ReportLink? ==> |p.reports| > 0 && l.reportId == p.reports[0].id
    ensures l in ProjectLinks(p) && l.ReportLink? ==>
              exists j :: 0 <= j < |p.queries| && l.queryId == p.queries[j].id
                          && IsReportQuery(p.queries[j].name) && p.reports[0].id !in p.queries[j].reportIds
  {
    if l !in ProjectLinks(p) || !l.ReportLink? {
      return;
    }
    if l in Step1Links(p.dashboards, p.queries) {
      Step1Origin(p.dashboards, p.queries, l);
      assert false;
    }
    if l in Step3Links(p.dashboards, p.queries, Linked(p)) {
      Step3OnlyDashboards(p.dashboards, p.queries, Linked(p), l);
      assert false;
    }
    Step2Origin(p.reports, p.queries, l);
  }

  /** Step 3 writes dashboard links only. */
  lemma Step3OnlyDashboards(ds: seq<Dashboard>, qs: seq<Query>, linked: set<string>, l: Link)
    requires l in Step3Links(ds, qs, linked)
    ensures l.DashboardLink?
  {
  }

  /** Where a step-2 link comes from. */
  lemma Step2Origin(reports: seq<Report>, qs: seq<Query>, l: Link)
    requires l in Step2Links(reports, qs)
    ensures |reports| > 0 && l.ReportLink? && l.reportId == reports[0].id
    ensures exists j :: 0 <= j < |qs| && l.queryId == qs[j].id
                        && IsReportQuery(qs[j].name) && reports[0].id !in qs[j].reportIds
  {
    var q :| q in qs && IsReportQuery(q.name) && reports[0].id !in q.reportIds
             && l == ReportLink(reports[0].id, q.id);
    var j :| 0 <= j < |qs| && qs[j] == q;
  }

  /** Step 3 attaches to "main" exactly the queries steps 1 and 2 did not
      mark and that are not attached already; a project without a "main"
      dashboard gets none. */
  lemma OrphansExactly(p: Project, j: nat)
    requires j < |p.queries| && UniqueIds(p.queries)
    ensures var q := p.queries[j];
      var s3 := Step3Links(p.dashboards, p.queries, Linked(p));
      && (FindDashboard(p.dashboards, "main").None? ==> s3 == {})
      && (FindDashboard(p.dashboards, "main").Some? ==>
            var main := FindDashboard(p.dashboards, "main").value;
            (DashboardLink(main.id, q.id) in s3 <==> q.id !in Linked(p) && main.id !in q.dashboardIds))
  {
    Step3Member(p.dashboards, p.queries, Linked(p), j);
  }

  /** `OrphansExactly` for any set of marked ids. */
  lemma Step3Member(ds: seq<Dashboard>, qs: seq<Query>, linked: set<string>, j: nat)
    requires j < |qs| && UniqueIds(qs)
    ensures var q := qs[j];
      var s3 := Step3Links(ds, qs, linked);
      && (FindDashboard(ds, "main").None? ==> s3 == {})
      && (FindDashboard(ds, "main").Some? ==>
            var main := FindDashboard(ds, "main").value;
            (DashboardLink(main.id, q.id) in s3 <==> q.id !in linked && main.id !in q.dashboardIds))
  {
  }

  // -------------------------------------------------------- all projects

  /** Some dashboard of the project has a config whose read throws. */
  predicate ProjectThrows(p: Project) {
    exists i :: 0 <= i < |p.dashboards| && Throws(p.dashboards[i].config)
  }

  /** Every link the migration makes over some projects. */
  function AllLinks(ps: seq<Project>): set<Link> {
    UnionMap(ProjectLinks, ps)
  }

  /** Some project among `ps` has a config whose read throws. */
  predicate AnyThrows(ps: seq<Project>) {
    ps != [] && (AnyThrows(ps[..|ps| - 1]) || ProjectThrows(ps[|ps| - 1]))
  }

  /** Extending the prefix by one project. */
  lemma AnyThrowsSnoc(ps: seq<Project>, k: nat)
    requires k < |ps|
    ensures AnyThrows(ps[..k + 1]) <==> AnyThrows(ps[..k]) || ProjectThrows(ps[k])
  {
    assert ps[..k + 1][..k] == ps[..k];
  }

  lemma {:induction false} AnyThrowsExists(ps: seq<Project>)
    ensures AnyThrows(ps) <==> exists k :: 0 <= k < |ps| && ProjectThrows(ps[k])
  {
    if ps != [] {
      var n := |ps| - 1;
      AnyThrowsExists(ps[..n]);
      assert forall k :: 0 <= k < n ==> ps[..n][k] == ps[k];
    }
  }

  /** `migrateQueryRelationships()`: the links written over all projects in
      order, the three counters, and whether a read threw (after which
      nothing more is written). */
  method Migrate(projects: seq<Project>) returns (creates: seq<Link>, dashboardLinks: nat, reportLinks: nat, orphans: nat, failed: bool)
    ensures |creates| == dashboardLinks + reportLinks + orphans
    ensures failed <==> exists k :: 0 <= k < |projects| && ProjectThrows(projects[k])
    ensures !failed ==> forall l :: l in creates <==> exists k :: 0 <= k < |projects| && l in ProjectLinks(projects[k])
  {
    creates := [];
    dashboardLinks, reportLinks, orphans := 0, 0, 0;
    var k := 0;
    while k < |projects|
      invariant 0 <= k <= |projects|
      invariant |creates| == dashboardLinks + reportLinks + orphans
      invariant !AnyThrows(projects[..k])
      invariant ElemSet(creates) == AllLinks(projects[..k])
    {
      var o := MigrateProject(projects[k]);
      AnyThrowsSnoc(projects, k);
      if !o.failed {
        UnionMapSnoc(ProjectLinks, projects, k);
        Accumulate(creates, o.creates, AllLinks(projects[..k]), ProjectLinks(projects[k]));
      }
      creates := creates + o.creates;
      dashboardLinks := dashboardLinks + o.dashboardLinks;
      reportLinks := reportLinks + o.reportLinks;
      orphans := orphans + o.orphans;
      if o.failed {
        AnyThrowsExists(projects[..k + 1]);
        assert forall j :: 0 <= j < k + 1 ==> projects[..k + 1][j] == projects[j];
        return creates, dashboardLinks, reportLinks, orphans, true;
      }
      k := k + 1;
    }
    assert projects[..k] == projects;
    AnyThrowsExists(projects);
    forall l
      ensures l in creates <==> exists j :: 0 <= j < |projects| && l in ProjectLinks(projects[j])
    {
      UnionMapMember(ProjectLinks, projects, l);
    }
    return creates, dashboardLinks, reportLinks, orphans, false;
  }

  /** Appending the listing of one more set. */
  lemma Accumulate<T>(a: seq<T>, b: seq<T>, s: set<T>, t: set<T>)
    requires ElemSet(a) == s
    requires forall x :: x in b <==> x in t
    ensures ElemSet(a + b) == s + t
  {
  }
}

=== FILE: PasscodeCli.dfy ===
/** The passcode management command line: the passcode layout, its hint, the
    text that is hashed, the name given to a new user, and the commands
    `generate`, `list`, `delete`, `admin:list` and `admin:delete` over the
    user and passcode tables. The git identity, the Snowflake access test,
    the random draws, fresh ids, the clock and bcrypt are inputs. */
module PasscodeCli {
  import opened Wrappers
  import opened Json
  import Text
  import Accounts
  import opened PasscodeStore

  const AdminEmail: string := "willhunter@rippling.com"

  /** The passcode alphabet: capital letters and digits without the
      look-alikes 0, O, 1 and I. */
  const Alphabet: string := "ABCDEFGHJKLMNPQRSTUVWXYZ23456789"

  /** The characters the alphabet is made of. */
  predicate AlphabetChar(c: char) {
    ('A' <= c <= 'Z' && c != 'I' && c != 'O') || ('2' <= c <= '9')
  }

  /** Where a character sits in the alphabet. */
  function AlphabetIndex(c: char): int {
    if 'A' <= c <= 'H' then c as int - 'A' as int
    else if 'J' <= c <= 'N' then c as int - 'A' as int - 1
    else if 'P' <= c <= 'Z' then c as int - 'A' as int - 2
    else c as int - '2' as int + 24
  }

  lemma AlphabetChars()
    ensures |Alphabet| == 32
    ensures forall i :: 0 <= i < |Alphabet| ==> AlphabetChar(Alphabet[i]) && AlphabetIndex(Alphabet[i]) == i
  {
  }

  /** The alphabet has 32 different characters, none of them a look-alike,
      a dash or a lower-case letter. */
  lemma AlphabetFacts()
    ensures |Alphabet| == 32
    ensures forall i, j :: 0 <= i < j < |Alphabet| ==> Alphabet[i] != Alphabet[j]
    ensures '0' !in Alphabet && 'O' !in Alphabet && '1' !in Alphabet && 'I' !in Alphabet
    ensures '-' !in Alphabet
    ensures forall i :: 0 <= i < |Alphabet| ==> Text.UpperChar(Alphabet[i]) == Alphabet[i]
  {
    AlphabetChars();
  }

  /** A valid sequence of random draws: 16 indices into the alphabet, one per
      character (`Math.floor(Math.random() * chars.length)`). */
  predicate ValidDraws(draws: seq<nat>) {
    |draws| == 16 && forall i :: 0 <= i < |draws| ==> draws[i] < |Alphabet|
  }

  /** The positions of the three dashes. */
  predicate IsDashPos(p: nat) {
    p == 4 || p == 9 || p == 14
  }

  /** How many dashes come before position p. */
  function DashesBefore(p: nat): nat {
    if p < 5 then 0 else if p < 10 then 1 else if p < 15 then 2 else 3
  }

  /** How many dashes the code holds once i letters are written. */
  function DashesWritten(i: nat): nat {
    if i <= 4 then 0 else if i <= 8 then 1 else if i <= 12 then 2 else 3
  }

  /** Character p of the passcode the draws produce: a dash between groups
      of four, otherwise the drawn letter. */
  function LayoutChar(draws: seq<nat>, p: nat): char
    requires ValidDraws(draws) && p < 19
  {
    if IsDashPos(p) then '-' else Alphabet[draws[p - DashesBefore(p)]]
  }

  /** The passcode the draws produce, position by position. */
  function Layout(draws: seq<nat>): (code: string)
    requires ValidDraws(draws)
  {
    seq(19, p requires 0 <= p < 19 => LayoutChar(draws, p))
  }

  /** The j-th group of four drawn letters. */
  function Group(draws: seq<nat>, j: nat): (g: string)
    requires ValidDraws(draws) && j < 4
    ensures |g| == 4 && '-' !in g
  {
    AlphabetFacts();
    seq(4, k requires 0 <= k < 4 => Alphabet[draws[4 * j + k]])
  }

  /** The shape of every passcode: 19 characters, dashes exactly at 4, 9 and
      14, and the drawn alphabet letters, in draw order, everywhere else. */
  lemma LayoutShape(draws: seq<nat>)
    requires ValidDraws(draws)
    ensures var code := Layout(draws);
      && |code| == 19
      && (forall p :: 0 <= p < 19 ==> (code[p] == '-' <==> IsDashPos(p)))
      && (forall p :: 0 <= p < 19 && !IsDashPos(p) ==> code[p] in Alphabet)
      && code == Group(draws, 0) + "-" + Group(draws, 1) + "-" + Group(draws, 2) + "-" + Group(draws, 3)
  {
    AlphabetFacts();
    LayoutIsGroups(draws);
  }

  /** A passcode is its four groups joined by dashes. */
  lemma LayoutIsGroups(draws: seq<nat>)
    requires ValidDraws(draws)
    ensures Layout(draws) == Group(draws, 0) + "-" + Group(draws, 1) + "-" + Group(draws, 2) + "-" + Group(draws, 3)
  {
    var code := Layout(draws);
    var g := Group(draws, 0) + "-" + Group(draws, 1) + "-" + Group(draws, 2) + "-" + Group(draws, 3);
    assert |g| == 19;
    forall p | 0 <= p < 19
      ensures code[p] == g[p]
    {
      if p < 4 {
        assert g[p] == Group(draws, 0)[p];
      } else if 4 < p < 9 {
        assert g[p] == Group(draws, 1)[p - 5];
      } else if 9 < p < 14 {
        assert g[p] == Group(draws, 2)[p - 10];
      } else if 14 < p {
        assert g[p] == Group(draws, 3)[p - 15];
      }
    }
  }

  /** `generatePasscode()`, building the code as the source's loop does. */
  method GeneratePasscode(draws: seq<nat>) returns (code: string)
    requires ValidDraws(draws)
    ensures code == Layout(draws)
  {
    code := "";
    var i := 0;
    while i < 16
      invariant 0 <= i <= 16
      invariant |code| == i + DashesWritten(i)
      invariant forall p :: 0 <= p < |code| ==> code[p] == LayoutChar(draws, p)
    {
      if i > 0 && i % 4 == 0 {
        code := code + "-";
      }
      code := code + [Alphabet[draws[i]]];
      i := i + 1;
    }
  }

  /** `getPasscodeHint(code)`: the last four characters once the dashes are
      removed (all of them when there are fewer). */
  function Hint(code: string): (h: string)
    ensures '-' !in h && |h| == if |Text.Remove(code, '-')| < 4 then |Text.Remove(code, '-')| else 4
    ensures Text.EndsWith(Text.Remove(code, '-'), h)
  {
    var clean := Text.Remove(code, '-');
    if |clean| < 4 then clean else clean[|clean| - 4..]
  }

  /** The sixteen drawn letters, in draw order. */
  function Letters(draws: seq<nat>): (t: string)
    requires ValidDraws(draws)
    ensures |t| == 16
  {
    seq(16, i requires 0 <= i < 16 => Alphabet[draws[i]])
  }

  /** Without its dashes a generated passcode is the drawn letters. */
  lemma LayoutLetters(draws: seq<nat>)
    requires ValidDraws(draws)
    ensures Text.Remove(Layout(draws), '-') == Letters(draws)
  {
    LayoutShape(draws);
    var g0, g1, g2, g3 := Group(draws, 0), Group(draws, 1), Group(draws, 2), Group(draws, 3);
    var x1 := g0 + "-" + g1;
    var x2 := x1 + "-" + g2;
    Text.RemoveAbsent(g0, '-');
    RemoveDash(g0, g1);
    RemoveDash(x1, g2);
    RemoveDash(x2, g3);
    GroupsAreLetters(draws);
  }

  lemma GroupsAreLetters(draws: seq<nat>)
    requires ValidDraws(draws)
    ensures Group(draws, 0) + Group(draws, 1) + Group(draws, 2) + Group(draws, 3) == Letters(draws)
  {
    var g0, g1, g2, g3 := Group(draws, 0), Group(draws, 1), Group(draws, 2), Group(draws, 3);
    var clean := g0 + g1 + g2 + g3;
    forall i | 0 <= i < 16
      ensures clean[i] == Letters(draws)[i]
    {
      if i < 4 {
        assert clean[i] == g0[i];
      } else if i < 8 {
        assert clean[i] == g1[i - 4];
      } else if i < 12 {
        assert clean[i] == g2[i - 8];
      } else {
        assert clean[i] == g3[i - 12];
      }
    }
  }

  /** The hint of a generated passcode is its final group. */
  lemma HintIsLastGroup(draws: seq<nat>)
    requires ValidDraws(draws)
    ensures Hint(Layout(draws)) == Layout(draws)[15..19] == Group(draws, 3)
  {
    LayoutLetters(draws);
    LayoutShape(draws);
    var code := Layout(draws);
    assert code[15..19] == Group(draws, 3);
    assert Letters(draws)[12..] == Group(draws, 3);
  }

  /** Removing the dashes across one dash-joined boundary. */
  lemma RemoveDash(a: string, b: string)
    requires '-' !in b
    ensures Text.Remove(a + "-" + b, '-') == Text.Remove(a, '-') + b
  {
    RemoveAround(a, '-', b);
  }

  /** Removing `c` from `a + [c] + b` when `b` has none. */
  lemma RemoveAround(a: string, c: char, b: string)
    requires c !in b
    ensures Text.Remove(a + [c] + b, c) == Text.Remove(a, c) + b
  {
    Text.RemoveAppend(a + [c], b, c);
    Text.RemoveAppend(a, [c], c);
    Text.RemoveOnly(c);
    Text.RemoveAbsent(b, c);
    assert Text.Remove(a + [c], c) == Text.Remove(a, c);
  }

  /** The text that is hashed: `code.replace(/-/g, '').toUpperCase()`. */
  function HashInput(code: string): (t: string)
    ensures '-' !in t && |t| <= |code|
  {
    Text.Upper(Text.Remove(code, '-'))
  }

  /** Normalising twice is normalising once. */
  lemma HashInputIdempotent(code: string)
    ensures HashInput(HashInput(code)) == HashInput(code)
  {
    var t := Text.Remove(code, '-');
    Text.RemoveUpper(t, '-');
    Text.RemoveAbsent(t, '-');
    Text.UpperIdempotent(t);
  }

  /** Dashes anywhere do not change the hashed text. */
  lemma HashInputIgnoresDashes(a: string, b: string)
    ensures HashInput(a + "-" + b) == HashInput(a + b)
  {
    Text.RemoveAppend(a + "-", b, '-');
    Text.RemoveAppend(a, "-", '-');
    Text.RemoveAppend(a, b, '-');
    Text.RemoveOnly('-');
    assert Text.Remove(a + "-", '-') == Text.Remove(a, '-');
  }

  /** Codes that differ only in the case of their letters hash alike. */
  lemma HashInputIgnoresCase(a: string, b: string)
    requires Text.Upper(a) == Text.Upper(b)
    ensures HashInput(a) == HashInput(b)
  {
    Text.RemoveUpper(a, '-');
    Text.RemoveUpper(b, '-');
  }

  /** What is hashed for a generated passcode is its sixteen letters, so the
      dashes and the case the user types it in do not matter. */
  lemma HashOfGenerated(draws: seq<nat>)
    requires ValidDraws(draws)
    ensures HashInput(Layout(draws)) == Letters(draws)
  {
    LayoutLetters(draws);
    AlphabetFacts();
  }

  // ---------------------------------------------------------- user names

  /** `s.charAt(0).toUpperCase() + s.slice(1)`. */
  function Capitalize(s: string): (r: string)
    ensures |r| == |s|
    ensures s != "" ==> r == [Text.UpperChar(s[0])] + s[1..]
  {
    if s == "" then "" else [Text.UpperChar(s[0])] + s[1..]
  }

  /** Every piece capitalised. */
  function CapitalizeAll(parts: seq<string>): (r: seq<string>)
    ensures |r| == |parts|
    ensures forall i :: 0 <= i < |parts| ==> r[i] == Capitalize(parts[i])
  {
    seq(|parts|, i requires 0 <= i < |parts| => Capitalize(parts[i]))
  }

  lemma CapitalizeAllCons(parts: seq<string>)
    requires |parts| >= 1
    ensures CapitalizeAll(parts) == [Capitalize(parts[0])] + CapitalizeAll(parts[1..])
  {
  }

  /** The pieces after the first capitalised; the first one too if `first`. */
  function CapitalizeParts(parts: seq<string>, first: bool): (r: seq<string>)
    requires |parts| >= 1
    ensures |r| == |parts|
  {
    [if first then Capitalize(parts[0]) else parts[0]] + CapitalizeAll(parts[1..])
  }

  /** The name a new user gets: the local part split on ".", each piece
      capitalised, joined with spaces. */
  function DerivedName(email: string): string {
    Text.Join(CapitalizeParts(Text.Split(Accounts.LocalPart(email), '.'), true), ' ')
  }

  /** The same name read character by character: a dot becomes a space and
      the character after it, like the first one, is upper-cased. */
  function NameChars(s: string, atStart: bool): (r: string)
    ensures |r| == |s|
  {
    if s == [] then []
    else if s[0] == '.' then " " + NameChars(s[1..], true)
    else [if atStart then Text.UpperChar(s[0]) else s[0]] + NameChars(s[1..], false)
  }

  lemma {:induction false} NameCharsAgree(s: string, atStart: bool)
    ensures Text.Join(CapitalizeParts(Text.Split(s, '.'), atStart), ' ') == NameChars(s, atStart)
  {
    if s != [] {
      var rest := Text.Split(s[1..], '.');
      NameCharsAgree(s[1..], s[0] == '.');
      if s[0] == '.' {
        NameCharsDot(s, atStart);
      } else {
        NameCharsLetter(s, atStart);
      }
    }
  }

  /** One step of `NameCharsAgree` at a dot. */
  lemma NameCharsDot(s: string, atStart: bool)
    requires s != [] && s[0] == '.'
    requires Text.Join(CapitalizeParts(Text.Split(s[1..], '.'), true), ' ') == NameChars(s[1..], true)
    ensures Text.Join(CapitalizeParts(Text.Split(s, '.'), atStart), ' ') == NameChars(s, atStart)
  {
    var rest := Text.Split(s[1..], '.');
    var parts := [""] + rest;
    assert Text.Split(s, '.') == parts;
    assert parts[1..] == rest;
    CapitalizeAllCons(rest);
    assert CapitalizeParts(parts, atStart) == [""] + CapitalizeParts(rest, true);
    Text.JoinCons("", CapitalizeParts(rest, true), ' ');
  }

  /** One step of `NameCharsAgree` at any other character. */
  lemma NameCharsLetter(s: string, atStart: bool)
    requires s != [] && s[0] != '.'
    requires Text.Join(CapitalizeParts(Text.Split(s[1..], '.'), false), ' ') == NameChars(s[1..], false)
    ensures Text.Join(CapitalizeParts(Text.Split(s, '.'), atStart), ' ') == NameChars(s, atStart)
  {
    var rest := Text.Split(s[1..], '.');
    var c := if atStart then Text.UpperChar(s[0]) else s[0];
    var parts := [[s[0]] + rest[0]] + rest[1..];
    assert Text.Split(s, '.') == parts;
    assert parts[1..] == rest[1..];
    var tail := CapitalizeAll(rest[1..]);
    assert CapitalizeParts(parts, atStart) == [[c] + rest[0]] + tail;
    assert CapitalizeParts(rest, false) == [rest[0]] + tail;
    Text.JoinPrefixChar(c, rest[0], tail, ' ');
  }

  /** A new user's name, character by character from the local part. */
  lemma DerivedNameChars(email: string)
    ensures DerivedName(email) == NameChars(Accounts.LocalPart(email), true)
    ensures |DerivedName(email)| == |Accounts.LocalPart(email)|
  {
    NameCharsAgree(Accounts.LocalPart(email), true);
  }

  /** `first.last@domain` becomes "First Last". */
  lemma DerivedNameOfFirstLast(first: string, last: string, domain: string)
    requires '.' !in first && '.' !in last && '@' !in first && '@' !in last
    ensures DerivedName(first + "." + last + "@" + domain) == Capitalize(first) + " " + Capitalize(last)
  {
    var local := first + "." + last;
    assert '@' !in local;
    Text.SplitAfterPart(local, domain, '@');
    assert Accounts.LocalPart(local + "@" + domain) == local;
    Text.SplitAfterPart(first, last, '.');
    Text.SplitAbsent(last, '.');
    var parts := [first, last];
    assert Text.Split(local, '.') == parts;
    assert CapitalizeParts(parts, true) == [Capitalize(first), Capitalize(last)];
    Text.JoinCons(Capitalize(first), [Capitalize(last)], ' ');
  }

  // ------------------------------------------------------------ commands

  datatype CliError =
    | NoGitEmail
    | NotRipplingEmail(email: string)
    | SnowflakeAccessFailed
    | PasscodeNotFound
    | NotYourPasscode(owner: string)
    | AdminOnly
    | UserNotFound(email: string)
    | MissingId(command: string)
    | UnknownCommand(command: string)

  /** `getGitEmail()` then `validateRipplingEmail`: `git config user.email`,
      trimmed, must be set and be a Rippling address. */
  function Identity(gitConfig: Attempt<string>): (r: Result<string, CliError>)
    ensures r.Ok? <==> gitConfig.Done? && Text.Trim(gitConfig.value) != ""
                       && Accounts.IsRipplingEmail(Text.Trim(gitConfig.value))
    ensures r.Ok? ==> r.value == Text.Trim(gitConfig.value)
    ensures gitConfig.Threw? ==> r == Err(NoGitEmail)
    ensures gitConfig.Done? && Text.Trim(gitConfig.value) == "" ==> r == Err(NoGitEmail)
    ensures gitConfig.Done? && Text.Trim(gitConfig.value) != "" && !Accounts.IsRipplingEmail(Text.Trim(gitConfig.value)) ==>
              r == Err(NotRipplingEmail(Text.Trim(gitConfig.value)))
  {
    match gitConfig
    case Threw => Err(NoGitEmail)
    case Done(raw) =>
      var email := Text.Trim(raw);
      if email == "" then Err(NoGitEmail)
      else if !Accounts.IsRipplingEmail(email) then Err(NotRipplingEmail(email))
      else Ok(email)
  }

  /** `commandGenerate()`: after the identity and the Snowflake access check
      pass, the user is found or created and a new passcode row is stored
      with the hash of the normalised code and its hint. Returns the code
      shown to the user and the tables afterwards. */
  function Generate(gitConfig: Attempt<string>, snowflakeOk: bool, draws: seq<nat>,
                    hash: string -> string, newUserId: string, newPasscodeId: string, now: int,
                    st: Store): (r: Result<(string, Store), CliError>)
    requires ValidDraws(draws)
    ensures r.Ok? <==> Identity(gitConfig).Ok? && snowflakeOk
    ensures r.Err? ==> r.error == (if Identity(gitConfig).Err? then Identity(gitConfig).error else SnowflakeAccessFailed)
    ensures r.Ok? ==>
      var email := Identity(gitConfig).value;
      var (code, after) := r.value;
      && code == Layout(draws)
      && after.passcodes == st.passcodes[newPasscodeId :=
           Passcode(email, hash(HashInput(code)), Hint(code), None, now, None)]
      && (email in st.users ==> after.users == st.users)
      && (email !in st.users ==> after.users == st.users[email := User(newUserId, DerivedName(email))])
  {
    match Identity(gitConfig)
    case Err(e) => Err(e)
    case Ok(email) =>
      if !snowflakeOk then Err(SnowflakeAccessFailed)
      else
        var code := Layout(draws);
        var users := if email in st.users then st.users else st.users[email := User(newUserId, DerivedName(email))];
        var row := Passcode(email, hash(HashInput(code)), Hint(code), None, now, None);
        Ok((code, Store(users, st.passcodes[newPasscodeId := row])))
  }

  /** What a generated passcode row stores: never the code itself, only its
      hash and the last group. */
  lemma GeneratedRow(gitConfig: Attempt<string>, snowflakeOk: bool, draws: seq<nat>,
                     hash: string -> string, newUserId: string, newPasscodeId: string, now: int, st: Store)
    requires ValidDraws(draws)
    ensures var r := Generate(gitConfig, snowflakeOk, draws, hash, newUserId, newPasscodeId, now, st);
      r.Ok? ==> var (code, after) := r.value;
      && newPasscodeId in after.passcodes
      && after.passcodes[newPasscodeId].codeHint == code[15..19]
      && after.passcodes[newPasscodeId].owner in after.users
      && |Hint(code)| == 4
  {
    HintIsLastGroup(draws);
  }

  /** `commandList()`: the caller's passcodes; none at all when the caller
      has no user row yet, since the passcodes are read through the user. */
  function List(gitConfig: Attempt<string>, st: Store): (r: Result<set<Summary>, CliError>)
    ensures r.Ok? <==> Identity(gitConfig).Ok?
    ensures Identity(gitConfig).Err? ==> r == Err(Identity(gitConfig).error)
    ensures r.Ok? && Identity(gitConfig).value !in st.users ==> r.value == {}
    ensures r.Ok? && Identity(gitConfig).value in st.users ==> r.value == SummariesOf(st, Identity(gitConfig).value)
  {
    match Identity(gitConfig)
    case Err(e) => Err(e)
    case Ok(email) => if email in st.users then Ok(SummariesOf(st, email)) else Ok({})
  }

  /** `commandDelete(id)`: only the owner may delete, and only a passcode
      that exists. */
  function Delete(gitConfig: Attempt<string>, id: string, st: Store): (r: Result<Store, CliError>)
    ensures r.Ok? <==> Identity(gitConfig).Ok? && id in st.passcodes
                       && st.passcodes[id].owner == Identity(gitConfig).value
    ensures r.Ok? ==> r.value == DeletePasscode(st, id)
    ensures Identity(gitConfig).Err? ==> r == Err(Identity(gitConfig).error)
    ensures Identity(gitConfig).Ok? && id !in st.passcodes ==> r == Err(PasscodeNotFound)
    ensures Identity(gitConfig).Ok? && id in st.passcodes && st.passcodes[id].owner != Identity(gitConfig).value ==>
              r == Err(NotYourPasscode(st.passcodes[id].owner))
  {
    match Identity(gitConfig)
    case Err(e) => Err(e)
    case Ok(email) =>
      if id !in st.passcodes then Err(PasscodeNotFound)
      else if st.passcodes[id].owner != email then Err(NotYourPasscode(st.passcodes[id].owner))
      else Ok(DeletePasscode(st, id))
  }

  /** What `admin:list` shows: one user's passcodes, or the number of
      passcodes of every user that has any. */
  datatype AdminListing = OneUser(passcodes: set<Summary>) | PerUser(counts: map<string, nat>)

  /** The passcode count of every user with at least one passcode. */
  function PasscodeCounts(st: Store): (counts: map<string, nat>)
    ensures forall e :: e in counts <==> e in st.users && OwnedIds(st, e) != {}
    ensures forall e :: e in counts ==> counts[e] == |OwnedIds(st, e)| && counts[e] > 0
  {
    map e | e in st.users && OwnedIds(st, e) != {} :: |OwnedIds(st, e)|
  }

  /** `commandAdminList(target)`. */
  function AdminList(gitConfig: Attempt<string>, target: Option<string>, st: Store)
    : (r: Result<AdminListing, CliError>)
    ensures r.Ok? ==> Identity(gitConfig) == Ok(AdminEmail)
    ensures Identity(gitConfig).Err? ==> r == Err(Identity(gitConfig).error)
    ensures Identity(gitConfig).Ok? && Identity(gitConfig).value != AdminEmail ==> r == Err(AdminOnly)
    ensures Identity(gitConfig) == Ok(AdminEmail) ==>
      && (HasText(target) && target.value !in st.users ==> r == Err(UserNotFound(target.value)))
      && (HasText(target) && target.value in st.users ==> r == Ok(OneUser(SummariesOf(st, target.value))))
      && (!HasText(target) ==> r == Ok(PerUser(PasscodeCounts(st))))
  {
    match Identity(gitConfig)
    case Err(e) => Err(e)
    case Ok(email) =>
      if email != AdminEmail then Err(AdminOnly)
      else if HasText(target) then
        if target.value !in st.users then Err(UserNotFound(target.value))
        else Ok(OneUser(SummariesOf(st, target.value)))
      else Ok(PerUser(PasscodeCounts(st)))
  }

  /** `commandAdminDelete(id)`: the administrator may delete any passcode. */
  function AdminDelete(gitConfig: Attempt<string>, id: string, st: Store): (r: Result<Store, CliError>)
    ensures r.Ok? <==> Identity(gitConfig) == Ok(AdminEmail) && id in st.passcodes
    ensures Identity(gitConfig).Err? ==> r == Err(Identity(gitConfig).error)
    ensures Identity(gitConfig) == Ok(AdminEmail) && id !in st.passcodes ==> r == Err(PasscodeNotFound)
    ensures r.Ok? ==> r.value == DeletePasscode(st, id)
    ensures Identity(gitConfig).Ok? && Identity(gitConfig).value != AdminEmail ==> r == Err(AdminOnly)
  {
    match Identity(gitConfig)
    case Err(e) => Err(e)
    case Ok(email) =>
      if email != AdminEmail then Err(AdminOnly)
      else if id !in st.passcodes then Err(PasscodeNotFound)
      else Ok(DeletePasscode(st, id))
  }

  /** The commands `main` dispatches to. */
  datatype Command =
    | GenerateCmd
    | ListCmd
    | DeleteCmd(id: string)
    | AdminListCmd(target: Option<string>)
    | AdminDeleteCmd(id: string)
    | Help
    | Fail(error: CliError)

  /** The command names `main` has a case for. */
  predicate IsKnownCommand(cmd: string) {
    cmd in {"generate", "list", "delete", "admin:list", "admin:delete", "--help", "-h"}
  }

  /** `main()`'s switch over `process.argv.slice(2)`. */
  function ParseCommand(args: seq<string>): (c: Command)
    ensures |args| == 0 ==> c == Help
    ensures |args| > 0 && args[0] in {"--help", "-h"} ==> c == Help
    ensures |args| > 0 && args[0] == "generate" ==> c == GenerateCmd
    ensures |args| > 0 && args[0] == "list" ==> c == ListCmd
    ensures |args| > 0 && args[0] == "admin:list" ==> c == AdminListCmd(if |args| >= 2 then Some(args[1]) else None)
    ensures |args| >= 2 && args[0] == "delete" && args[1] != "" ==> c == DeleteCmd(args[1])
    ensures |args| >= 2 && args[0] == "admin:delete" && args[1] != "" ==> c == AdminDeleteCmd(args[1])
    ensures |args| > 0 && args[0] in {"delete", "admin:delete"} && (|args| < 2 || args[1] == "") ==>
              c == Fail(MissingId(args[0]))
    ensures |args| > 0 && !IsKnownCommand(args[0]) ==> c == Fail(UnknownCommand(args[0]))
  {
    if |args| == 0 then Help
    else
      var cmd := args[0];
      var arg1 := if |args| >= 2 then Some(args[1]) else None;
      if cmd == "generate" then GenerateCmd
      else if cmd == "list" then ListCmd
      else if cmd == "delete" then (if HasText(arg1) then DeleteCmd(arg1.value) else Fail(MissingId(cmd)))
      else if cmd == "admin:list" then AdminListCmd(arg1)
      else if cmd == "admin:delete" then (if HasText(arg1) then AdminDeleteCmd(arg1.value) else Fail(MissingId(cmd)))
      else if cmd == "--help" || cmd == "-h" then Help
      else Fail(UnknownCommand(cmd))
  }

  /** The command line that `printUsage` documents for a command:
      `generate`, `list`, `delete <id>`, `admin:list [email]`,
      `admin:delete <id>`, and no command at all for the help text. */
  function UsageLine(c: Command): seq<string>
    requires !c.Fail?
  {
    match c
    case GenerateCmd => ["generate"]
    case ListCmd => ["list"]
    case DeleteCmd(id) => ["delete", id]
    case AdminListCmd(target) => if target.Some? then ["admin:list", target.value] else ["admin:list"]
    case AdminDeleteCmd(id) => ["admin:delete", id]
    case Help => []
  }

  /** A command whose id, where it takes one, is not empty. */
  predicate Invocable(c: Command) {
    && !c.Fail?
    && (c.DeleteCmd? ==> c.id != "")
    && (c.AdminDeleteCmd? ==> c.id != "")
  }

  /** Every documented command line is dispatched to the command it documents,
      and trailing arguments after a command's documented ones are ignored. */
  lemma UsageLinesDispatch(c: Command, extra: seq<string>)
    requires Invocable(c)
    ensures ParseCommand(UsageLine(c)) == c
    ensures !c.Help? && !(c.AdminListCmd? && c.target.None?) ==> ParseCommand(UsageLine(c) + extra) == c
  {
    var line := UsageLine(c) + extra;
    if !c.Help? && !(c.AdminListCmd? && c.target.None?) {
      assert line[0] == UsageLine(c)[0];
      if |UsageLine(c)| == 2 {
        assert line[1] == UsageLine(c)[1];
      }
    }
  }

  /** Only the documented command lines succeed: any argument list that
      yields a command is a documented line followed by ignored extras. */
  lemma DispatchIsDocumented(args: seq<string>)
    ensures !ParseCommand(args).Fail? ==>
              Invocable(ParseCommand(args))
              && UsageLine(ParseCommand(args)) <= args
              && (ParseCommand(args).Help? ==> |args| == 0 || args[0] in {"--help", "-h"})
  {
  }
}

=== FILE: PasscodeStore.dfy ===
/** The two database tables the passcode code reads and writes, as plain
    values: users by e-mail address (addresses are unique) and passcodes by
    id, each passcode naming the address of the user it belongs to. */
module PasscodeStore {
  import opened Wrappers

  datatype User = User(id: string, name: string)

  datatype Passcode = Passcode(
    owner: string,
    codeHash: string,
    codeHint: string,
    name: Option<string>,
    createdAt: int,
    lastUsedAt: Option<int>)

  datatype Store = Store(users: map<string, User>, passcodes: map<string, Passcode>)

  /** What a listing shows of a passcode: everything but its hash. */
  datatype Summary = Summary(id: string, codeHint: string, name: Option<string>, createdAt: int, lastUsedAt: Option<int>)

  function Summarize(id: string, p: Passcode): (s: Summary)
    ensures s.id == id && s.codeHint == p.codeHint && s.name == p.name
    ensures s.createdAt == p.createdAt && s.lastUsedAt == p.lastUsedAt
  {
    Summary(id, p.codeHint, p.name, p.createdAt, p.lastUsedAt)
  }

  /** The ids of the passcodes that belong to `email`. */
  function OwnedIds(st: Store, email: string): (ids: set<string>)
    ensures forall id :: id in ids <==> id in st.passcodes && st.passcodes[id].owner == email
  {
    set id | id in st.passcodes && st.passcodes[id].owner == email
  }

  /** The summaries of `email`'s passcodes (the database orders them by
      creation time, newest first). */
  function SummariesOf(st: Store, email: string): (ss: set<Summary>)
    ensures forall s :: s in ss <==>
              s.id in st.passcodes && st.passcodes[s.id].owner == email && s == Summarize(s.id, st.passcodes[s.id])
  {
    set id | id in OwnedIds(st, email) :: Summarize(id, st.passcodes[id])
  }

  /** Deleting a passcode: exactly that row goes, and nothing else changes. */
  function DeletePasscode(st: Store, id: string): (r: Store)
    ensures r.users == st.users
    ensures r.passcodes.Keys == st.passcodes.Keys - {id}
    ensures forall k :: k in r.passcodes ==> r.passcodes[k] == st.passcodes[k]
  {
    st.(passcodes := st.passcodes - {id})
  }
}

=== FILE: PasscodesRoute.dfy ===
/** `/api/passcodes`: listing and deleting web passcodes. Both handlers first
    require a session; a user may only see and delete their own passcodes,
    and the administrator (`ADMIN_EMAIL`, defined outside the files modelled
    here and so a parameter) may see and delete anyone's. */
module PasscodesRoute {
  import opened Wrappers
  import opened Json
  import opened PasscodeStore

  /** The signed-in user as `getSession` returns it. */
  datatype Session = Session(userId: string, email: string)

  datatype ListResponse =
    | ListError(status: nat, error: string)
    | Listing(passcodes: set<Summary>, isAdmin: bool)

  /** Whose passcodes a GET lists: the caller's own, unless a truthy `email`
      parameter names someone else. */
  function ListTarget(session: Session, targetEmail: Option<string>): (who: string)
    ensures who == session.email || (HasText(targetEmail) && who == targetEmail.value)
    ensures who != session.email <==> HasText(targetEmail) && targetEmail.value != session.email
  {
    if HasText(targetEmail) && targetEmail.value != session.email then targetEmail.value else session.email
  }

  /** `GET(request)`. `session` is what `getSession()` did. */
  function Get(session: Attempt<Option<Session>>, targetEmail: Option<string>, adminEmail: string, st: Store)
    : (r: ListResponse)
    ensures session == Done(None) ==> r == ListError(401, "Not authenticated")
    ensures session.Threw? ==> r == ListError(500, "An error occurred")
    ensures session.Done? && session.value.Some? ==>
      var s := session.value.value;
      var who := ListTarget(s, targetEmail);
      && (who != s.email && s.email != adminEmail ==>
            r == ListError(403, "Not authorized to view other users' passcodes"))
      && ((who == s.email || s.email == adminEmail) && who !in st.users ==>
            r == ListError(404, "User not found"))
      && ((who == s.email || s.email == adminEmail) && who in st.users ==>
            r == Listing(SummariesOf(st, who), s.email == adminEmail))
  {
    match session
    case Threw => ListError(500, "An error occurred")
    case Done(None) => ListError(401, "Not authenticated")
    case Done(Some(s)) =>
      var isAdmin := s.email == adminEmail;
      if HasText(targetEmail) && targetEmail.value != s.email && !isAdmin then
        ListError(403, "Not authorized to view other users' passcodes")
      else
        var who := ListTarget(s, targetEmail);
        if who !in st.users then ListError(404, "User not found")
        else Listing(SummariesOf(st, who), isAdmin)
  }

  /** A listing only ever shows passcodes of the user it is for, and a
      non-administrator is only ever shown their own. */
  lemma ListingIsScoped(session: Attempt<Option<Session>>, targetEmail: Option<string>, adminEmail: string, st: Store)
    ensures var r := Get(session, targetEmail, adminEmail, st);
      r.Listing? ==>
        && session.Done? && session.value.Some?
        && (session.value.value.email != adminEmail ==>
              forall s :: s in r.passcodes ==> st.passcodes[s.id].owner == session.value.value.email)
  {
  }

  datatype DeleteResponse = DeleteError(status: nat, error: string) | Deleted

  /** `DELETE(request)`: the response and the store afterwards. */
  function Delete(session: Attempt<Option<Session>>, id: Option<string>, adminEmail: string, st: Store)
    : (r: (DeleteResponse, Store))
    ensures r.0.Deleted? ==> id.Some? && r.1 == DeletePasscode(st, id.value)
    ensures r.0.DeleteError? ==> r.1 == st
    ensures session == Done(None) ==> r.0 == DeleteError(401, "Not authenticated")
    ensures session.Threw? ==> r.0 == DeleteError(500, "An error occurred")
    ensures session.Done? && session.value.Some? ==>
      var s := session.value.value;
      && (!HasText(id) ==> r.0 == DeleteError(400, "Passcode ID is required"))
      && (HasText(id) && id.value !in st.passcodes ==> r.0 == DeleteError(404, "Passcode not found"))
      && (HasText(id) && id.value in st.passcodes ==>
            (r.0.Deleted? <==> s.email == adminEmail || st.passcodes[id.value].owner == s.email))
      && (HasText(id) && id.value in st.passcodes && r.0.DeleteError? ==>
            r.0 == DeleteError(403, "Not authorized to delete this passcode"))
  {
    match session
    case Threw => (DeleteError(500, "An error occurred"), st)
    case Done(None) => (DeleteError(401, "Not authenticated"), st)
    case Done(Some(s)) =>
      if !HasText(id) then (DeleteError(400, "Passcode ID is required"), st)
      else if id.value !in st.passcodes then (DeleteError(404, "Passcode not found"), st)
      else
        var isAdmin := s.email == adminEmail;
        var isOwner := st.passcodes[id.value].owner == s.email;
        if !isAdmin && !isOwner then (DeleteError(403, "Not authorized to delete this passcode"), st)
        else (Deleted, DeletePasscode(st, id.value))
  }

  /** A deletion removes one passcode the caller owns or, for the
      administrator, any one passcode; all the others stay. */
  lemma DeleteRemovesOnlyThat(session: Attempt<Option<Session>>, id: Option<string>, adminEmail: string, st: Store)
    ensures var (resp, after) := Delete(session, id, adminEmail, st);
      && after.users == st.users
      && after.passcodes.Keys <= st.passcodes.Keys
      && |st.passcodes.Keys - after.passcodes.Keys| <= 1
      && (forall k :: k in after.passcodes ==> after.passcodes[k] == st.passcodes[k])
      && (forall k :: k in st.passcodes && k !in after.passcodes ==>
            resp.Deleted? && id == Some(k) && session.Done? && session.value.Some?
            && (session.value.value.email == adminEmail || st.passcodes[k].owner == session.value.value.email))
  {
    var (resp, after) := Delete(session, id, adminEmail, st);
    if resp.Deleted? {
      assert st.passcodes.Keys - after.passcodes.Keys == {id.value};
    } else {
      assert st.passcodes.Keys - after.passcodes.Keys == {};
    }
  }
}

=== FILE: Paths.dfy ===
/** The three POSIX path functions the query runner uses to place its
    default output file: `path.dirname`, `path.basename(p, ext)` and
    `path.join`, following Node's POSIX implementation. `dirname` and
    `basename` are the backward scans Node performs; `join` joins the
    non-empty arguments with "/" and normalises the result, and the
    normalisation is the segment stack Node's string walk implements. */
module Paths {
  import Text

  // ------------------------------------------------------------- slicing

  /** `s.slice(a, b)`: negative positions count from the end, positions are
      clamped to the string, and a start at or after the end gives "". */
  function Slice(s: string, a: int, b: int): (r: string)
    ensures |r| <= |s|
    ensures 0 <= a <= b <= |s| ==> r == s[a..b]
  {
    var lo := if a < 0 then (if a + |s| < 0 then 0 else a + |s|) else if a > |s| then |s| else a;
    var hi := if b < 0 then (if b + |s| < 0 then 0 else b + |s|) else if b > |s| then |s| else b;
    if lo >= hi then "" else s[lo..hi]
  }

  // ------------------------------------------------------------- dirname

  /** The backward scan of `dirname` from position i down to 1: the first
      "/" met after a non-slash character, or -1. */
  function DirEnd(p: string, i: int, matchedSlash: bool): (e: int)
    requires i < |p|
    ensures e == -1 || (1 <= e <= i && p[e] == '/')
    decreases i
  {
    if i < 1 then -1
    else if p[i] == '/' then (if !matchedSlash then i else DirEnd(p, i - 1, true))
    else DirEnd(p, i - 1, false)
  }

  /** `path.dirname(p)`. */
  function Dirname(p: string): (d: string)
    ensures d != ""
  {
    if p == "" then "."
    else
      var end := DirEnd(p, |p| - 1, true);
      if end == -1 then (if p[0] == '/' then "/" else ".")
      else if p[0] == '/' && end == 1 then "//"
      else p[..end]
  }

  /** While the scan walks over the non-slash characters of the last
      segment it ends at the slash just before them. */
  lemma {:induction false} DirEndOverSegment(p: string, k: nat, i: int, matchedSlash: bool)
    requires 1 <= k <= i < |p| && p[k] == '/'
    requires forall j :: k < j <= i ==> p[j] != '/'
    requires !matchedSlash || i > k
    ensures DirEnd(p, i, matchedSlash) == k
    decreases i
  {
    if i > k {
      DirEndOverSegment(p, k, i - 1, false);
    }
  }

  /** The directory of `a/b`, for a file name b, is a. */
  lemma DirnameOfChild(a: string, b: string)
    requires a != "" && a != "/" && b != "" && '/' !in b
    ensures Dirname(a + "/" + b) == a
  {
    var p := a + "/" + b;
    var k := |a|;
    assert p[k] == '/';
    forall j | k < j <= |p| - 1
      ensures p[j] != '/'
    {
      assert p[j] == b[j - k - 1];
    }
    DirEndOverSegment(p, k, |p| - 1, true);
    assert p[..k] == a;
  }

  // ------------------------------------------------------------ basename

  /** The state of `basename`'s backward scan when a suffix is given. */
  datatype Scan = Scan(start: int, end: int, matchedSlash: bool, extIdx: int, firstNonSlashEnd: int)

  /** `basename`'s scan with a suffix, from position i down to 0: it notes
      where the last segment begins and ends, and whether the suffix
      matched at its end. */
  function SuffixScan(p: string, ext: string, i: int, s: Scan): Scan
    requires i < |p| && s.extIdx < |ext|
    decreases i + 1
  {
    if i < 0 then s
    else if p[i] == '/' then
      if !s.matchedSlash then s.(start := i + 1) else SuffixScan(p, ext, i - 1, s)
    else
      var s1 := if s.firstNonSlashEnd == -1 then s.(matchedSlash := false, firstNonSlashEnd := i + 1) else s;
      var s2 :=
        if s1.extIdx < 0 then s1
        else if p[i] == ext[s1.extIdx] then
          (if s1.extIdx == 0 then s1.(extIdx := -1, end := i) else s1.(extIdx := s1.extIdx - 1))
        else s1.(extIdx := -1, end := s1.firstNonSlashEnd);
      SuffixScan(p, ext, i - 1, s2)
  }

  /** `basename`'s scan without a suffix: the start and end of the last
      segment. */
  function PlainScan(p: string, i: int, start: int, end: int, matchedSlash: bool): (int, int)
    requires i < |p|
    decreases i + 1
  {
    if i < 0 then (start, end)
    else if p[i] == '/' then
      if !matchedSlash then (i + 1, end) else PlainScan(p, i - 1, start, end, matchedSlash)
    else if end == -1 then PlainScan(p, i - 1, start, i + 1, false)
    else PlainScan(p, i - 1, start, end, matchedSlash)
  }

  /** `path.basename(p, ext)`: the last segment, without `ext` when it ends
      with it and is longer than it. */
  function Basename(p: string, ext: string): string {
    if 0 < |ext| <= |p| then
      if ext == p then ""
      else
        var s := SuffixScan(p, ext, |p| - 1, Scan(0, -1, true, |ext| - 1, -1));
        var end := if s.start == s.end then s.firstNonSlashEnd else if s.end == -1 then |p| else s.end;
        Slice(p, s.start, end)
    else
      var (start, end) := PlainScan(p, |p| - 1, 0, -1, true);
      if end == -1 then "" else Slice(p, start, end)
  }

  /** Over the characters of the stem, after the suffix has matched, the
      scan only looks for the slash before them. */
  lemma {:induction false} SuffixScanStem(p: string, ext: string, k: int, i: int, s: Scan)
    requires -1 <= k < i < |p| && s.extIdx < |ext|
    requires k >= 0 ==> p[k] == '/'
    requires forall j :: k < j <= i ==> p[j] != '/'
    requires s.extIdx == -1 && !s.matchedSlash && s.firstNonSlashEnd != -1
    ensures SuffixScan(p, ext, i, s) == if k >= 0 then s.(start := k + 1) else s
    decreases i
  {
    if i - 1 > k {
      SuffixScanStem(p, ext, k, i - 1, s);
    }
    else if k >= 0 {
      assert SuffixScan(p, ext, k, s) == s.(start := k + 1);
    }
  }

  /** While the suffix is being matched from the end, the scan counts down
      through it. */
  lemma {:induction false} SuffixScanExt(p: string, ext: string, base: nat, j: int, s: Scan)
    requires base + |ext| == |p| && |ext| > 0 && -1 <= j < |ext|
    requires p[base..] == ext && '/' !in ext
    requires s.extIdx == j && !s.matchedSlash && s.firstNonSlashEnd == |p| && s.end == -1
    ensures SuffixScan(p, ext, base + j, s) ==
              SuffixScan(p, ext, base - 1, s.(extIdx := -1, end := if j >= 0 then base else -1))
    decreases j
  {
    if j >= 0 {
      assert p[base + j] == ext[j];
      if j == 0 {
        assert SuffixScan(p, ext, base + j, s) == SuffixScan(p, ext, base - 1, s.(extIdx := -1, end := base));
      } else {
        SuffixScanExt(p, ext, base, j - 1, s.(extIdx := j - 1));
      }
    }
  }

  /** The whole scan over `prefix + stem + ext`: the segment starts after
      the prefix and the suffix is cut where it begins. */
  lemma SuffixScanOfFile(prefix: string, stem: string, ext: string)
    requires prefix == "" || prefix[|prefix| - 1] == '/'
    requires stem != "" && '/' !in stem && ext != "" && '/' !in ext
    ensures var p := prefix + stem + ext;
      SuffixScan(p, ext, |p| - 1, Scan(0, -1, true, |ext| - 1, -1))
        == Scan(|prefix|, |prefix| + |stem|, false, -1, |p|)
  {
    var p := prefix + stem + ext;
    var base := |prefix| + |stem|;
    var k := |prefix| - 1;
    assert p[base..] == ext;
    var last := |ext| - 1;
    assert p[base + last] == ext[last];
    var s1 := Scan(0, -1, false, last, |p|);
    SuffixScanExt(p, ext, base, last, s1);
    assert SuffixScan(p, ext, |p| - 1, Scan(0, -1, true, last, -1)) == SuffixScan(p, ext, base + last, s1);
    var s2 := s1.(extIdx := -1, end := base);
    forall j | k < j <= base - 1
      ensures p[j] != '/'
    {
      assert p[j] == stem[j - |prefix|];
    }
    if k >= 0 {
      assert p[k] == prefix[k];
    }
    SuffixScanStem(p, ext, k, base - 1, s2);
  }

  /** The base name of `prefix + stem + ext`, where the prefix is empty or a
      directory ending in "/", is the stem. */
  lemma BasenameOfFile(prefix: string, stem: string, ext: string)
    requires prefix == "" || prefix[|prefix| - 1] == '/'
    requires stem != "" && '/' !in stem && ext != "" && '/' !in ext
    ensures Basename(prefix + stem + ext, ext) == stem
  {
    var p := prefix + stem + ext;
    assert |ext| < |p|;
    SuffixScanOfFile(prefix, stem, ext);
    assert p[|prefix|..|prefix| + |stem|] == stem;
  }

  // ------------------------------------------------------- normalisation

  /** One segment of `normalize`: "" and "." vanish, ".." removes the
      previous segment (or is kept, for a relative path, when there is
      nothing to remove), anything else is appended. */
  function Step(stack: seq<string>, seg: string, allowAboveRoot: bool): seq<string> {
    if seg == "" || seg == "." then stack
    else if seg == ".." then
      if |stack| > 0 && stack[|stack| - 1] != ".." then stack[..|stack| - 1]
      else if allowAboveRoot then stack + [".."]
      else stack
    else stack + [seg]
  }

  /** The segments left after walking `segs` from the stack `stack`. */
  function Resolve(stack: seq<string>, segs: seq<string>, allowAboveRoot: bool): seq<string>
    decreases |segs|
  {
    if segs == [] then stack else Resolve(Step(stack, segs[0], allowAboveRoot), segs[1..], allowAboveRoot)
  }

  /** `path.normalize(p)`. */
  function Normalize(p: string): (r: string)
    ensures r != ""
  {
    if p == "" then "."
    else
      var isAbsolute := p[0] == '/';
      var trailing := p[|p| - 1] == '/';
      var body := Text.Join(Resolve([], Text.Split(p, '/'), !isAbsolute), '/');
      if body == "" then (if isAbsolute then "/" else if trailing then "./" else ".")
      else
        var b := if trailing then body + "/" else body;
        if isAbsolute then "/" + b else b
  }

  /** The arguments `join` keeps: the non-empty ones, in order. */
  function NonEmpty(parts: seq<string>): (r: seq<string>)
    ensures forall i :: 0 <= i < |r| ==> r[i] != ""
    ensures forall x :: x in r <==> x in parts && x != ""
  {
    if parts == [] then []
    else if parts[0] == "" then NonEmpty(parts[1..])
    else [parts[0]] + NonEmpty(parts[1..])
  }

  /** `path.join(...parts)`. */
  function JoinPaths(parts: seq<string>): (r: string)
    ensures r != ""
  {
    var kept := NonEmpty(parts);
    if kept == [] then "." else Normalize(Text.Join(kept, '/'))
  }

  // ------------------------------------------------ clean relative paths

  /** A segment that normalisation keeps as it is. */
  predicate Clean(seg: string) {
    seg != "" && seg != "." && seg != ".." && '/' !in seg
  }

  predicate AllClean(segs: seq<string>) {
    forall i :: 0 <= i < |segs| ==> Clean(segs[i])
  }

  lemma {:induction false} ResolveAppend(stack: seq<string>, a: seq<string>, b: seq<string>, allow: bool)
    ensures Resolve(stack, a + b, allow) == Resolve(Resolve(stack, a, allow), b, allow)
    decreases |a|
  {
    if a == [] {
      assert a + b == b;
    } else {
      assert (a + b)[0] == a[0];
      assert (a + b)[1..] == a[1..] + b;
      ResolveAppend(Step(stack, a[0], allow), a[1..], b, allow);
    }
  }

  /** Clean segments are all kept, in order. */
  lemma {:induction false} ResolveClean(stack: seq<string>, segs: seq<string>, allow: bool)
    requires AllClean(segs)
    ensures Resolve(stack, segs, allow) == stack + segs
    decreases |segs|
  {
    if segs != [] {
      assert Clean(segs[0]);
      ResolveClean(stack + [segs[0]], segs[1..], allow);
      assert stack + [segs[0]] + segs[1..] == stack + segs;
    }
  }

  lemma {:induction false} JoinAppend(a: seq<string>, b: seq<string>, sep: char)
    requires |a| >= 1 && |b| >= 1
    ensures Text.Join(a + b, sep) == Text.Join(a, sep) + [sep] + Text.Join(b, sep)
    decreases |a|
  {
    if |a| == 1 {
      Text.JoinCons(a[0], b, sep);
      assert [a[0]] + b == a + b;
    } else {
      JoinAppend(a[1..], b, sep);
      Text.JoinCons(a[0], a[1..] + b, sep);
      assert [a[0]] + (a[1..] + b) == a + b;
    }
  }

  /** A join of non-empty parts starts with the first one and ends with the
      last one. */
  lemma {:induction false} JoinEnds(parts: seq<string>, sep: char)
    requires |parts| >= 1
    ensures Text.StartsWith(Text.Join(parts, sep), parts[0])
    ensures Text.EndsWith(Text.Join(parts, sep), parts[|parts| - 1])
    decreases |parts|
  {
    if |parts| > 1 {
      JoinEnds(parts[1..], sep);
      var rest := Text.Join(parts[1..], sep);
      var j := Text.Join(parts, sep);
      assert j == parts[0] + [sep] + rest;
      assert j[..|parts[0]|] == parts[0];
      assert j[|j| - |rest|..] == rest;
      assert parts[1..][|parts| - 2] == parts[|parts| - 1];
    }
  }

  /** Normalising a relative path with no trailing slash is joining the
      segments its walk keeps. */
  lemma NormalizeRelative(parts: seq<string>)
    requires |parts| >= 1 && parts[0] != "" && parts[|parts| - 1] != ""
    requires forall i :: 0 <= i < |parts| ==> '/' !in parts[i]
    ensures var kept := Text.Join(Resolve([], parts, true), '/');
      Normalize(Text.Join(parts, '/')) == if kept == "" then "." else kept
  {
    var p := Text.Join(parts, '/');
    RelativeShape(parts);
    Text.SplitJoin(parts, '/');
    assert Text.Split(p, '/') == parts;
  }

  /** A join of slash-free parts whose first and last are non-empty is a
      relative path without a trailing slash. */
  lemma RelativeShape(parts: seq<string>)
    requires |parts| >= 1 && parts[0] != "" && parts[|parts| - 1] != ""
    requires forall i :: 0 <= i < |parts| ==> '/' !in parts[i]
    ensures var p := Text.Join(parts, '/');
      p != "" && p[0] != '/' && p[|p| - 1] != '/'
  {
    JoinEnds(parts, '/');
    var p := Text.Join(parts, '/');
    var first, last := parts[0], parts[|parts| - 1];
    assert '/' !in first && '/' !in last;
    assert p[..|first|] == first;
    assert p[0] == first[0];
    assert p[|p| - |last|..] == last;
    assert p[|p| - 1] == last[|last| - 1];
  }

  /** A relative path of clean segments is already normal. */
  lemma NormalizeClean(segs: seq<string>)
    requires |segs| >= 1 && AllClean(segs)
    ensures Normalize(Text.Join(segs, '/')) == Text.Join(segs, '/')
  {
    assert Clean(segs[0]) && Clean(segs[|segs| - 1]);
    NormalizeRelative(segs);
    ResolveClean([], segs, true);
    assert [] + segs == segs;
    JoinEnds(segs, '/');
  }

  /** Walking clean segments and then "..", "data" replaces the last segment
      by "data". */
  lemma ResolveParentData(segs: seq<string>)
    requires |segs| >= 1 && AllClean(segs)
    ensures Resolve([], segs + ["..", "data"], true) == segs[..|segs| - 1] + ["data"]
  {
    var tail := ["..", "data"];
    ResolveAppend([], segs, tail, true);
    ResolveClean([], segs, true);
    assert [] + segs == segs;
    ResolveUpData(segs);
  }

  lemma ResolveUpData(segs: seq<string>)
    requires |segs| >= 1 && Clean(segs[|segs| - 1])
    ensures Resolve(segs, ["..", "data"], true) == segs[..|segs| - 1] + ["data"]
  {
    var kept := segs[..|segs| - 1];
    var tail := ["..", "data"];
    assert Step(segs, "..", true) == kept;
    assert Step(kept, "data", true) == kept + ["data"];
    assert tail[0] == ".." && tail[1..] == ["data"];
    var last: seq<string> := ["data"];
    assert last[0] == "data" && last[1..] == [];
  }

  /** `join(dir, "..", "data")` for a clean directory: its parent's "data". */
  lemma JoinParentData(segs: seq<string>)
    requires |segs| >= 1 && AllClean(segs)
    ensures JoinPaths([Text.Join(segs, '/'), "..", "data"]) == Text.Join(segs[..|segs| - 1] + ["data"], '/')
  {
    var tail := ["..", "data"];
    var parts := segs + tail;
    var result := segs[..|segs| - 1] + ["data"];
    DirArgs(segs, tail);
    SlashFreeParts(segs, tail);
    NormalizeRelative(parts);
    ResolveParentData(segs);
    JoinEnds(result, '/');
    calc {
      JoinPaths([Text.Join(segs, '/')] + tail);
      Normalize(Text.Join(parts, '/'));
      Text.Join(result, '/');
    }
  }

  lemma SlashFreeParts(segs: seq<string>, tail: seq<string>)
    requires |segs| >= 1 && AllClean(segs) && tail == ["..", "data"]
    ensures var parts := segs + tail;
      && parts[0] != "" && parts[|parts| - 1] != ""
      && forall i :: 0 <= i < |parts| ==> '/' !in parts[i]
  {
    var parts := segs + tail;
    assert Clean(segs[0]);
    forall i | 0 <= i < |parts|
      ensures '/' !in parts[i]
    {
      if i < |segs| {
        assert Clean(segs[i]);
      }
    }
  }

  /** `join` of a clean directory and further non-empty arguments joins
      them all as one list of segments. */
  lemma DirArgs(segs: seq<string>, more: seq<string>)
    requires |segs| >= 1 && AllClean(segs) && |more| >= 1
    requires forall i :: 0 <= i < |more| ==> more[i] != ""
    ensures JoinPaths([Text.Join(segs, '/')] + more) == Normalize(Text.Join(segs + more, '/'))
  {
    var dir := Text.Join(segs, '/');
    JoinEnds(segs, '/');
    assert Clean(segs[0]);
    assert dir != "";
    NonEmptyKeeps([dir] + more);
    Text.JoinCons(dir, more, '/');
    JoinAppend(segs, more, '/');
  }

  lemma {:induction false} NonEmptyKeeps(parts: seq<string>)
    requires forall i :: 0 <= i < |parts| ==> parts[i] != ""
    ensures NonEmpty(parts) == parts
    decreases |parts|
  {
    if parts != [] {
      NonEmptyKeeps(parts[1..]);
    }
  }

  /** `join(dir, name)` for a clean directory and a clean file name. */
  lemma JoinFile(segs: seq<string>, name: string)
    requires |segs| >= 1 && AllClean(segs) && Clean(name)
    ensures JoinPaths([Text.Join(segs, '/'), name]) == Text.Join(segs + [name], '/')
  {
    DirArgs(segs, [name]);
    assert AllClean(segs + [name]) by {
      forall i | 0 <= i < |segs + [name]|
        ensures Clean((segs + [name])[i])
      {
        if i < |segs| {
          assert (segs + [name])[i] == segs[i];
        }
      }
    }
    NormalizeClean(segs + [name]);
  }
}

=== FILE: Projects.dfy ===
/** The file-backed project library: the project manifest, project lookup by
    slug, loading a widget's data file in any of its three stored shapes, and
    attaching loaded rows to every widget of a dashboard. File reads and JSON
    or YAML parsing are inputs: what the read produced is passed in. */
module Projects {
  import opened Wrappers
  import opened Json
  import opened Widgets

  datatype Project = Project(
    slug: string,
    name: string,
    description: Option<string>,
    createdAt: Option<string>,
    author: Option<string>)

  /** What reading `projects.json` produced. `ReadFailed` covers a missing or
      unreadable file, invalid JSON, and a document whose `projects` property
      cannot be read (`null`); `projects` is `None` when it is absent or falsy. */
  datatype ManifestRead = ReadFailed | Manifest(projects: Option<seq<Project>>)

  /** What reading a widget's JSON data file produced. */
  datatype FileRead = Missing | Unreadable | Parsed(value: Value)

  /** What reading `dashboard.yaml` produced. `NoConfig` covers a missing
      file, a read or parse error, and a document that loads as a falsy value.
      `Malformed` is a truthy document whose `widgets` is not an array or
      holds a `null` or missing entry. */
  datatype ConfigRead = NoConfig | Malformed | Loaded(config: DashboardConfig<string>)

  /** `getProjects`: the manifest's project list, or none at all. */
  function GetProjects(read: ManifestRead): (ps: seq<Project>)
    ensures read.Manifest? && read.projects.Some? ==> ps == read.projects.value
    ensures read.ReadFailed? || read.projects.None? ==> ps == []
  {
    match read
    case ReadFailed => []
    case Manifest(projects) => projects.GetOr([])
  }

  /** `projects.find(p => p.slug === slug) || null`. */
  function FindBySlug(ps: seq<Project>, slug: string): (r: Option<Project>)
    ensures r.None? <==> forall i :: 0 <= i < |ps| ==> ps[i].slug != slug
    ensures r.Some? ==> exists i :: 0 <= i < |ps| && ps[i] == r.value && r.value.slug == slug
                                   && forall j :: 0 <= j < i ==> ps[j].slug != slug
  {
    if ps == [] then None
    else if ps[0].slug == slug then Some(ps[0])
    else
      var r := FindBySlug(ps[1..], slug);
      assert forall j :: 1 <= j < |ps| ==> ps[j] == ps[1..][j - 1];
      r
  }

  /** `getProject(slug)`: the first listed project with the slug. */
  function GetProject(read: ManifestRead, slug: string): (r: Option<Project>)
    ensures r.Some? ==> r.value.slug == slug && r.value in GetProjects(read)
    ensures r.Some? ==> var ps := GetProjects(read);
      exists i :: 0 <= i < |ps| && ps[i] == r.value && forall j :: 0 <= j < i ==> ps[j].slug != slug
    ensures r.None? <==> forall p :: p in GetProjects(read) ==> p.slug != slug
  {
    FindBySlug(GetProjects(read), slug)
  }

  /** `loadWidgetData`: the rows of a data file, which may hold an array of
      rows, an object wrapping them in `data`, or a single row. Anything that
      fails yields no rows; so does a file holding `null`, whose `.data` read
      throws and is caught. */
  function LoadWidgetData(read: FileRead): (rows: seq<Value>)
    ensures read.Missing? || read.Unreadable? ==> rows == []
    ensures read.Parsed? && read.value.Arr? ==> rows == read.value.elems
    ensures (read.Parsed? && read.value.Obj? && Field(read.value, "data").Some?
             && Field(read.value, "data").value.Arr?)
            ==> rows == Field(read.value, "data").value.elems
    ensures (read.Parsed? && !read.value.Arr? && !read.value.Null?
             && !(Field(read.value, "data").Some? && Field(read.value, "data").value.Arr?))
            ==> rows == [read.value]
    ensures read.Parsed? && read.value.Null? ==> rows == []
  {
    match read
    case Missing => []
    case Unreadable => []
    case Parsed(v) =>
      if v.Arr? then v.elems
      else if v.Null? then []
      else
        var d := Field(v, "data");
        if d.Some? && d.value.Arr? then d.value.elems else [v]
  }

  /** The three stored shapes of the same rows load to the same rows: an
      array, an object wrapping the array in `data`, and (for one row that is
      an object without an array-valued `data`) the bare row. */
  lemma StoredShapesAgree(rows: seq<Value>, rest: seq<(string, Value)>, row: Value)
    requires row.Obj? && Field(row, "data").None?
    ensures LoadWidgetData(Parsed(Arr(rows))) == rows
    ensures LoadWidgetData(Parsed(Obj([("data", Arr(rows))] + rest))) == rows
    ensures LoadWidgetData(Parsed(row)) == LoadWidgetData(Parsed(Arr([row]))) == [row]
  {
  }

  /** The file a widget's `data` path names, `Missing` if there is none. */
  function ReadAt(files: map<string, FileRead>, path: string): FileRead {
    if path in files then files[path] else Missing
  }

  /** A stored widget with its data path replaced by the rows loaded from it. */
  function AttachData(w: Widget<string>, files: map<string, FileRead>): (v: Widget<seq<Value>>)
    ensures SameExceptData(w, v)
    ensures v.data == LoadWidgetData(ReadAt(files, w.data))
  {
    Widget(w.kind, w.title, w.queryName, LoadWidgetData(ReadAt(files, w.data)),
           w.valueKey, w.chartType, w.xKey, w.yKey, w.columns, w.hidden, w.id)
  }

  /** `getDashboardWithData`: null without a configuration; a thrown
      `TypeError` when `config.widgets.map` or `widget.data` fails, which
      nothing catches; otherwise the same configuration with every widget,
      in order, carrying its loaded rows. */
  function GetDashboardWithData(read: ConfigRead, files: map<string, FileRead>)
    : (r: Attempt<Option<DashboardConfig<seq<Value>>>>)
    ensures r.Threw? <==> read.Malformed?
    ensures r == Done(None) <==> read.NoConfig?
    ensures r.Done? && r.value.Some? ==>
      && read.Loaded?
      && r.value.value.title == read.config.title
      && r.value.value.description == read.config.description
      && r.value.value.layout == read.config.layout
      && |r.value.value.widgets| == |read.config.widgets|
      && forall i :: 0 <= i < |r.value.value.widgets| ==>
           && SameExceptData(read.config.widgets[i], r.value.value.widgets[i])
           && r.value.value.widgets[i].data == LoadWidgetData(ReadAt(files, read.config.widgets[i].data))
  {
    match read
    case NoConfig => Done(None)
    case Malformed => Threw
    case Loaded(c) =>
      var ws := seq(|c.widgets|, i requires 0 <= i < |c.widgets| => AttachData(c.widgets[i], files));
      Done(Some(DashboardConfig(c.title, c.description, c.layout, ws)))
  }
}

=== FILE: RunQuery.dfy ===
/** The query runner's command line: the SQL file argument, the optional
    `--output`/`-o` file, and where the results go when no output file is
    given (the project's `data` directory next to `queries`). */
module RunQuery {
  import opened Wrappers
  import opened Json
  import Text
  import Paths

  datatype Args = Args(sqlFile: string, outputFile: Option<string>)

  datatype ArgsError = Usage | SqlFileRequired

  predicate IsOutputFlag(a: string) {
    a == "--output" || a == "-o"
  }

  /** Whether argument i is the value of an output flag: it follows a flag
      that is not itself the value of one. */
  predicate IsFlagValue(args: seq<string>, i: nat)
    requires i < |args|
  {
    i > 0 && IsOutputFlag(args[i - 1]) && !IsFlagValue(args, i - 1)
  }

  /** Whether argument i names the SQL file: it is not a flag value and does
      not start with "-". */
  predicate IsPositional(args: seq<string>, i: nat)
    requires i < |args|
  {
    !IsFlagValue(args, i) && !Text.StartsWith(args[i], "-")
  }

  /** Whether argument i is an output flag that takes effect. */
  predicate IsActiveFlag(args: seq<string>, i: nat)
    requires i < |args|
  {
    !IsFlagValue(args, i) && IsOutputFlag(args[i])
  }

  /** The last position below n that names the SQL file. */
  function LastPositional(args: seq<string>, n: nat): (r: Option<nat>)
    requires n <= |args|
    ensures r.Some? ==> r.value < n && IsPositional(args, r.value)
    ensures r.Some? ==> forall j :: r.value < j < n ==> !IsPositional(args, j)
    ensures r.None? ==> forall j :: 0 <= j < n ==> !IsPositional(args, j)
  {
    if n == 0 then None
    else if IsPositional(args, n - 1) then Some(n - 1)
    else LastPositional(args, n - 1)
  }

  /** The last position below n holding an output flag that takes effect. */
  function LastFlag(args: seq<string>, n: nat): (r: Option<nat>)
    requires n <= |args|
    ensures r.Some? ==> r.value < n && IsActiveFlag(args, r.value)
    ensures r.Some? ==> forall j :: r.value < j < n ==> !IsActiveFlag(args, j)
    ensures r.None? ==> forall j :: 0 <= j < n ==> !IsActiveFlag(args, j)
  {
    if n == 0 then None
    else if IsActiveFlag(args, n - 1) then Some(n - 1)
    else LastFlag(args, n - 1)
  }

  /** The SQL file the arguments name: the last positional one, or "". */
  function SqlOf(args: seq<string>, p: Option<nat>): string
    requires p.Some? ==> p.value < |args|
  {
    if p.Some? then args[p.value] else ""
  }

  /** The output file an active flag at p names: the next argument, or
      `undefined` when it is the last one. */
  function OutputOf(args: seq<string>, p: Option<nat>): Option<string>
    requires p.Some? ==> p.value < |args|
  {
    if p.Some? && p.value + 1 < |args| then Some(args[p.value + 1]) else None
  }

  /** `parseArgs()` over `process.argv.slice(2)`. */
  method ParseArgs(args: seq<string>) returns (r: Result<Args, ArgsError>)
    ensures |args| == 0 ==> r == Err(Usage)
    ensures |args| > 0 ==>
      var sql := SqlOf(args, LastPositional(args, |args|));
      && (r.Ok? <==> sql != "")
      && (r.Err? ==> r.error == SqlFileRequired)
      && (r.Ok? ==> r.value == Args(sql, OutputOf(args, LastFlag(args, |args|))))
  {
    if |args| == 0 {
      return Err(Usage);
    }
    var sqlFile := "";
    var outputFile: Option<string> := None;
    var i := 0;
    while i < |args|
      invariant 0 <= i <= |args| + 1
      invariant i < |args| ==> !IsFlagValue(args, i)
      invariant var n := if i <= |args| then i else |args|;
        && sqlFile == SqlOf(args, LastPositional(args, n))
        && outputFile == OutputOf(args, LastFlag(args, n))
      decreases |args| + 1 - i
    {
      if IsOutputFlag(args[i]) {
        outputFile := if i + 1 < |args| then Some(args[i + 1]) else None;
        if i + 1 < |args| {
          assert IsFlagValue(args, i + 1);
          assert !IsPositional(args, i + 1) && !IsActiveFlag(args, i + 1);
          if i + 2 < |args| {
            assert !IsFlagValue(args, i + 2);
          }
        }
        i := i + 2;
      } else {
        if !Text.StartsWith(args[i], "-") {
          sqlFile := args[i];
        }
        if i + 1 < |args| {
          assert !IsFlagValue(args, i + 1);
        }
        i := i + 1;
      }
    }
    if sqlFile == "" {
      return Err(SqlFileRequired);
    }
    return Ok(Args(sqlFile, outputFile));
  }

  /** Without output flags the SQL file is the last argument that does not
      start with "-", and there is no output file. */
  lemma WithoutFlags(args: seq<string>)
    requires forall i :: 0 <= i < |args| ==> !IsOutputFlag(args[i])
    ensures forall i :: 0 <= i < |args| ==> !IsFlagValue(args, i)
    ensures LastFlag(args, |args|) == None
    ensures forall i :: 0 <= i < |args| ==> (IsPositional(args, i) <==> !Text.StartsWith(args[i], "-"))
  {
    forall i | 0 <= i < |args|
      ensures !IsFlagValue(args, i)
    {
      if i > 0 {
        assert !IsOutputFlag(args[i - 1]);
      }
    }
  }

  /** The documented usage `<sql-file> --output <json-file>`. */
  lemma DocumentedUsage(sql: string, out: string)
    requires sql != "" && !Text.StartsWith(sql, "-")
    ensures var args := [sql, "--output", out];
      && LastPositional(args, 3) == Some(0)
      && OutputOf(args, LastFlag(args, 3)) == Some(out)
  {
    var args := [sql, "--output", out];
    assert !IsFlagValue(args, 0);
    assert !IsFlagValue(args, 1);
    assert IsFlagValue(args, 2);
    assert IsActiveFlag(args, 1);
    assert args[1][..1] == "-";
    assert !IsPositional(args, 1) && !IsPositional(args, 2);
    assert LastPositional(args, 1) == Some(0);
    assert LastPositional(args, 2) == Some(0);
    assert LastFlag(args, 2) == Some(1);
    assert LastFlag(args, 3) == Some(1);
  }

  /** The value after an output flag is never taken for the SQL file, even
      when it does not start with "-". */
  lemma FlagValueIsNotSql(args: seq<string>, i: nat)
    requires i + 1 < |args| && IsActiveFlag(args, i)
    ensures !IsPositional(args, i + 1) && LastPositional(args, |args|) != Some(i + 1)
  {
  }

  // ------------------------------------------------------------- output

  /** The default output file: `join(join(dirname(sql), "..", "data"),
      basename(sql, ".sql") + ".json")`. */
  function DefaultOutputPath(sql: string): string {
    var dataDir := Paths.JoinPaths([Paths.Dirname(sql), "..", "data"]);
    Paths.JoinPaths([dataDir, Paths.Basename(sql, ".sql") + ".json"])
  }

  /** Where `main` writes the results: the output file when it is given and
      not empty, else the default. */
  function OutputPath(a: Args): (path: string)
    ensures HasText(a.outputFile) ==> path == a.outputFile.value
    ensures !HasText(a.outputFile) ==> path == DefaultOutputPath(a.sqlFile)
  {
    if HasText(a.outputFile) then a.outputFile.value else DefaultOutputPath(a.sqlFile)
  }

  /** For `dir/.../queries/<stem>.sql` the default output is
      `dir/.../data/<stem>.json`. */
  lemma DefaultOutputOfQuery(segs: seq<string>, stem: string)
    requires |segs| >= 1 && Paths.AllClean(segs)
    requires stem != "" && '/' !in stem
    ensures DefaultOutputPath(Text.Join(segs + [stem + ".sql"], '/'))
              == Text.Join(segs[..|segs| - 1] + ["data", stem + ".json"], '/')
  {
    var sql := Text.Join(segs + [stem + ".sql"], '/');
    QueryPathParts(segs, stem);
    Paths.JoinParentData(segs);
    DataFile(segs, stem);
  }

  /** The directory and the stem of `dir/.../queries/<stem>.sql`. */
  lemma QueryPathParts(segs: seq<string>, stem: string)
    requires |segs| >= 1 && Paths.AllClean(segs)
    requires stem != "" && '/' !in stem
    ensures var sql := Text.Join(segs + [stem + ".sql"], '/');
      Paths.Dirname(sql) == Text.Join(segs, '/') && Paths.Basename(sql, ".sql") == stem
  {
    var dir := Text.Join(segs, '/');
    var file := stem + ".sql";
    SqlFileName(stem);
    Paths.JoinAppend(segs, [file], '/');
    assert Text.Join(segs + [file], '/') == dir + "/" + file;
    QueryDir(segs);
    Paths.DirnameOfChild(dir, file);
    assert dir + "/" + file == (dir + "/") + stem + ".sql";
    Paths.BasenameOfFile(dir + "/", stem, ".sql");
  }

  lemma SqlFileName(stem: string)
    requires '/' !in stem
    ensures '/' !in stem + ".sql"
  {
    var file := stem + ".sql";
    assert file[..|stem|] == stem && file[|stem|..] == ".sql";
  }

  /** A join of clean segments is neither empty nor the root. */
  lemma QueryDir(segs: seq<string>)
    requires |segs| >= 1 && Paths.AllClean(segs)
    ensures Text.Join(segs, '/') != "" && Text.Join(segs, '/') != "/"
  {
    var dir := Text.Join(segs, '/');
    Paths.JoinEnds(segs, '/');
    assert Paths.Clean(segs[0]);
    assert dir[0] == segs[0][0];
  }

  /** Joining the data directory and the result file's name. */
  lemma DataFile(segs: seq<string>, stem: string)
    requires |segs| >= 1 && Paths.AllClean(segs)
    requires stem != "" && '/' !in stem
    ensures Paths.JoinPaths([Text.Join(segs[..|segs| - 1] + ["data"], '/'), stem + ".json"])
              == Text.Join(segs[..|segs| - 1] + ["data", stem + ".json"], '/')
  {
    var dataSegs := segs[..|segs| - 1] + ["data"];
    var name := stem + ".json";
    assert Paths.AllClean(dataSegs) by {
      forall i | 0 <= i < |dataSegs|
        ensures Paths.Clean(dataSegs[i])
      {
        if i < |segs| - 1 {
          assert dataSegs[i] == segs[i];
        }
      }
    }
    assert Paths.Clean(name) by {
      assert name[..|stem|] == stem && name[|stem|..] == ".json";
      assert |name| > 2;
    }
    Paths.JoinFile(dataSegs, name);
    assert dataSegs + [name] == segs[..|segs| - 1] + ["data", name];
  }

  /** `projects/my-analysis/queries/count.sql` writes to
      `projects/my-analysis/data/count.json`. */
  lemma DefaultOutputExample()
    ensures DefaultOutputPath("projects/my-analysis/queries/count.sql") == "projects/my-analysis/data/count.json"
  {
    var segs := ["projects", "my-analysis", "queries"];
    assert Paths.AllClean(segs);
    DefaultOutputOfQuery(segs, "count");
    ExampleQueryPath(segs);
    ExampleDataPath(segs);
  }

  lemma ExampleQueryPath(segs: seq<string>)
    requires segs == ["projects", "my-analysis", "queries"]
    ensures Text.Join(segs + ["count" + ".sql"], '/') == "projects/my-analysis/queries/count.sql"
  {
    var file := "count" + ".sql";
    assert file == "count.sql";
    assert segs + [file] == ["projects", "my-analysis", "queries", "count.sql"];
    JoinFour("projects", "my-analysis", "queries", "count.sql");
    assert "projects" + "/" == "projects/";
    assert "projects/" + "my-analysis" == "projects/my-analysis";
    assert "projects/my-analysis" + "/" == "projects/my-analysis/";
    assert "projects/my-analysis/" + "queries" == "projects/my-analysis/queries";
    assert "projects/my-analysis/queries" + "/" == "projects/my-analysis/queries/";
    assert "projects/my-analysis/queries/" + "count.sql" == "projects/my-analysis/queries/count.sql";
  }

  lemma ExampleDataPath(segs: seq<string>)
    requires segs == ["projects", "my-analysis", "queries"]
    ensures Text.Join(segs[..|segs| - 1] + ["data", "count" + ".json"], '/') == "projects/my-analysis/data/count.json"
  {
    var file := "count" + ".json";
    assert file == "count.json";
    assert segs[..|segs| - 1] == ["projects", "my-analysis"];
    assert segs[..|segs| - 1] + ["data", file] == ["projects", "my-analysis", "data", "count.json"];
    JoinFour("projects", "my-analysis", "data", "count.json");
    assert "projects" + "/" == "projects/";
    assert "projects/" + "my-analysis" == "projects/my-analysis";
    assert "projects/my-analysis" + "/" == "projects/my-analysis/";
    assert "projects/my-analysis/" + "data" == "projects/my-analysis/data";
    assert "projects/my-analysis/data" + "/" == "projects/my-analysis/data/";
    assert "projects/my-analysis/data/" + "count.json" == "projects/my-analysis/data/count.json";
  }

  lemma JoinFour(a: string, b: string, c: string, d: string)
    ensures Text.Join([a, b, c, d], '/') == a + "/" + b + "/" + c + "/" + d
  {
    Text.JoinCons(c, [d], '/');
    assert [b, c, d] == [b] + [c, d];
    Text.JoinCons(b, [c, d], '/');
    assert [a, b, c, d] == [a] + [b, c, d];
    Text.JoinCons(a, [b, c, d], '/');
  }
}

=== FILE: ShareDialog.dfy ===
/** The project share dialog: the list of people a project is shared with and
    the transitions its handlers make once a request has answered (load the
    list, add a person, remove a share, change a permission), the guard that
    keeps a blank address from being sent, and what the dialog shows to
    someone who may or may not manage shares. Requests are not made here:
    each handler is split at the `await` into the part before the request
    and the part that applies its answer, which is passed in. */
module ShareDialog {
  import opened Wrappers
  import opened Json
  import Text
  import Accounts

  datatype Permission = VIEW | EDIT | ADMIN

  /** The permission as the API and the `<select>` spell it. */
  function PermissionText(p: Permission): (t: string)
    ensures t in {"VIEW", "EDIT", "ADMIN"}
  {
    match p
    case VIEW => "VIEW"
    case EDIT => "EDIT"
    case ADMIN => "ADMIN"
  }

  /** The value of a chosen `<option>`, read back as a permission. */
  function ParsePermission(s: string): (p: Option<Permission>)
    ensures p.Some? <==> s in {"VIEW", "EDIT", "ADMIN"}
  {
    if s == "VIEW" then Some(VIEW)
    else if s == "EDIT" then Some(EDIT)
    else if s == "ADMIN" then Some(ADMIN)
    else None
  }

  /** The three spellings name the three permissions one to one. */
  lemma PermissionRoundTrip(p: Permission, s: string)
    ensures ParsePermission(PermissionText(p)) == Some(p)
    ensures ParsePermission(s).Some? ==> PermissionText(ParsePermission(s).value) == s
  {
  }

  /** `share.permission.toLowerCase()`, shown to those who cannot manage. */
  function PermissionLabel(p: Permission): (l: string)
    ensures l == Text.Lower(PermissionText(p))
    ensures l in {"view", "edit", "admin"}
  {
    match p
    case VIEW => "view"
    case EDIT => "edit"
    case ADMIN => "admin"
  }

  datatype ShareUser = ShareUser(email: string, name: Option<string>)

  datatype Share = Share(id: string, user: ShareUser, permission: Permission)

  datatype State = State(
    owner: Option<ShareUser>,
    shares: seq<Share>,
    isLoading: bool,
    error: Option<string>,
    newEmail: string,
    newPermission: Permission,
    isAdding: bool)

  /** The dialog's state when it mounts. */
  function Initial(): (s: State)
    ensures s.shares == [] && s.isLoading && s.error.None?
    ensures s.newEmail == "" && s.newPermission == VIEW && !s.isAdding
  {
    State(None, [], true, None, "", VIEW, false)
  }

  // ----------------------------------------------------------- list edits

  /** `shares.filter(s => s.id !== id)`. */
  function Without(shares: seq<Share>, id: string): (r: seq<Share>)
    ensures |r| <= |shares|
    ensures forall sh :: sh in r <==> sh in shares && sh.id != id
  {
    if shares == [] then []
    else (if shares[0].id != id then [shares[0]] else []) + Without(shares[1..], id)
  }

  /** Removal keeps the order of what stays: it distributes over `+`. */
  lemma {:induction false} WithoutAppend(a: seq<Share>, b: seq<Share>, id: string)
    ensures Without(a + b, id) == Without(a, id) + Without(b, id)
  {
    if a == [] {
      assert a + b == b;
    } else {
      assert (a + b)[1..] == a[1..] + b;
      WithoutAppend(a[1..], b, id);
    }
  }

  /** With no share of that id there is nothing to remove. */
  lemma {:induction false} WithoutAbsent(shares: seq<Share>, id: string)
    requires forall i :: 0 <= i < |shares| ==> shares[i].id != id
    ensures Without(shares, id) == shares
  {
    if shares != [] {
      WithoutAbsent(shares[1..], id);
      assert shares == [shares[0]] + shares[1..];
    }
  }

  /** `shares.map(s => s.id === id ? { ...s, permission } : s)`. */
  function WithPermission(shares: seq<Share>, id: string, p: Permission): (r: seq<Share>)
    ensures |r| == |shares|
    ensures forall i :: 0 <= i < |shares| ==>
              && r[i].id == shares[i].id && r[i].user == shares[i].user
              && r[i].permission == (if shares[i].id == id then p else shares[i].permission)
  {
    seq(|shares|, i requires 0 <= i < |shares| =>
      if shares[i].id == id then shares[i].(permission := p) else shares[i])
  }

  /** Setting a permission twice is setting it once, to the second value. */
  lemma WithPermissionTwice(shares: seq<Share>, id: string, p: Permission, q: Permission)
    ensures WithPermission(WithPermission(shares, id, p), id, q) == WithPermission(shares, id, q)
  {
  }

  // ---------------------------------------------------------- transitions

  /** What the GET request for the share list answered. */
  datatype FetchAnswer = Fetched(owner: Option<ShareUser>, shares: seq<Share>) | FetchFailed

  /** `fetchShares` before its request. */
  function FetchBegin(s: State): (r: State)
    ensures r.isLoading && r.error.None? && r.shares == s.shares
  {
    s.(isLoading := true, error := None)
  }

  /** `fetchShares` once answered: the list and owner are replaced, or the
      error is shown and they stay as they were. */
  function FetchEnd(s: State, answer: FetchAnswer): (r: State)
    ensures !r.isLoading
    ensures answer.Fetched? ==> r.owner == answer.owner && r.shares == answer.shares && r.error == s.error
    ensures answer.FetchFailed? ==>
              r.owner == s.owner && r.shares == s.shares && r.error == Some("Failed to load sharing settings")
    ensures r.newEmail == s.newEmail && r.newPermission == s.newPermission
  {
    match answer
    case Fetched(owner, shares) => s.(owner := owner, shares := shares, isLoading := false)
    case FetchFailed => s.(error := Some("Failed to load sharing settings"), isLoading := false)
  }

  /** The body of the POST `handleAddShare` sends. */
  datatype AddRequest = AddRequest(email: string, permission: Permission)

  /** `handleAddShare` before its request: a blank or white-space-only
      address sends nothing and changes nothing; otherwise the trimmed
      address is sent with the chosen permission. */
  function AddBegin(s: State): (r: (State, Option<AddRequest>))
    ensures r.1.None? <==> Text.AllWhitespace(s.newEmail)
    ensures r.1.None? ==> r.0 == s
    ensures r.1.Some? ==>
              && r.1.value == AddRequest(Text.Trim(s.newEmail), s.newPermission)
              && r.1.value.email != ""
              && r.0 == s.(isAdding := true, error := None)
  {
    Text.TrimEmptyIffBlank(s.newEmail);
    var email := Text.Trim(s.newEmail);
    if email == "" then (s, None)
    else (s.(isAdding := true, error := None), Some(AddRequest(email, s.newPermission)))
  }

  /** What the add request answered: the created share; a refusal whose JSON
      body may carry an `error` text; or a thrown error with its message. */
  datatype AddAnswer = Added(share: Share) | Refused(errorText: Option<string>) | AddThrew(message: string)

  /** `handleAddShare` once answered. A created share goes at the end of the
      list and the form resets; any failure shows its message and leaves the
      list and the form as they were. */
  function AddEnd(s: State, answer: AddAnswer): (r: State)
    ensures !r.isAdding && r.owner == s.owner && r.isLoading == s.isLoading
    ensures answer.Added? ==>
              && r.shares == s.shares + [answer.share]
              && r.newEmail == "" && r.newPermission == VIEW && r.error == s.error
    ensures !answer.Added? ==>
              r.shares == s.shares && r.newEmail == s.newEmail && r.newPermission == s.newPermission
    ensures answer.Refused? ==> r.error == Some(OrText(answer.errorText, "Failed to add share"))
    ensures answer.AddThrew? ==> r.error == Some(answer.message)
  {
    match answer
    case Added(share) =>
      s.(shares := s.shares + [share], newEmail := "", newPermission := VIEW, isAdding := false)
    case Refused(text) =>
      s.(error := Some(OrText(text, "Failed to add share")), isAdding := false)
    case AddThrew(message) =>
      s.(error := Some(message), isAdding := false)
  }

  /** `handleRemoveShare(id)` once answered (`ok` is `res.ok`). */
  function RemoveEnd(s: State, id: string, ok: bool): (r: State)
    ensures ok ==> r == s.(shares := Without(s.shares, id))
    ensures !ok ==> r == s.(error := Some("Failed to remove share"))
  {
    if ok then s.(shares := Without(s.shares, id)) else s.(error := Some("Failed to remove share"))
  }

  /** `handleUpdatePermission(id, email, p)` once answered. */
  function UpdateEnd(s: State, id: string, p: Permission, ok: bool): (r: State)
    ensures ok ==> r == s.(shares := WithPermission(s.shares, id, p))
    ensures !ok ==> r == s.(error := Some("Failed to update permission"))
  {
    if ok then s.(shares := WithPermission(s.shares, id, p))
    else s.(error := Some("Failed to update permission"))
  }

  /** A failed request of any kind leaves the share list as it was. */
  lemma FailuresKeepShares(s: State, id: string, p: Permission, a: AddAnswer)
    requires !a.Added?
    ensures FetchEnd(s, FetchFailed).shares == s.shares
    ensures AddEnd(s, a).shares == s.shares
    ensures RemoveEnd(s, id, false).shares == s.shares
    ensures UpdateEnd(s, id, p, false).shares == s.shares
  {
  }

  // ----------------------------------------------------------------- view

  /** What a share row offers: a permission picker and a remove button for
      those who manage shares, a plain label for everyone else. */
  datatype RowControl = Manage(selected: Permission) | ReadOnly(text: string)

  datatype ShareRow = ShareRow(name: string, email: string, control: RowControl)

  datatype AddForm = AddForm(email: string, inputsDisabled: bool, submitDisabled: bool)

  /** The dialog's body once loaded. */
  datatype Body = Loading | Loaded(
    owner: Option<(string, string)>,
    rows: seq<ShareRow>,
    addForm: Option<AddForm>,
    error: Option<string>)

  function Row(canManage: bool, sh: Share): (row: ShareRow)
    ensures row.control.Manage? <==> canManage
    ensures row.control.Manage? ==> row.control.selected == sh.permission
    ensures row.control.ReadOnly? ==> row.control.text == PermissionLabel(sh.permission)
    ensures row.name == Accounts.DisplayName(sh.user.name, sh.user.email) && row.email == sh.user.email
  {
    ShareRow(Accounts.DisplayName(sh.user.name, sh.user.email), sh.user.email,
             if canManage then Manage(sh.permission) else ReadOnly(PermissionLabel(sh.permission)))
  }

  /** The dialog, or `None` (`null`) while it is closed. */
  function View(isOpen: bool, canManage: bool, s: State): (v: Option<Body>)
    ensures v.None? <==> !isOpen
    ensures v.Some? ==> (v.value.Loading? <==> s.isLoading)
    ensures v.Some? && v.value.Loaded? ==>
      && |v.value.rows| == |s.shares|
      && (forall i :: 0 <= i < |s.shares| ==> v.value.rows[i] == Row(canManage, s.shares[i]))
      && (v.value.addForm.Some? <==> canManage)
      && (v.value.addForm.Some? ==>
            v.value.addForm.value.submitDisabled == (s.isAdding || Text.AllWhitespace(s.newEmail)))
      && (v.value.error.Some? <==> HasText(s.error))
  {
    Text.TrimEmptyIffBlank(s.newEmail);
    if !isOpen then None
    else if s.isLoading then Some(Loading)
    else
      Some(Loaded(
        if s.owner.Some? then Some((Accounts.DisplayName(s.owner.value.name, s.owner.value.email), s.owner.value.email))
        else None,
        seq(|s.shares|, i requires 0 <= i < |s.shares| => Row(canManage, s.shares[i])),
        if canManage then Some(AddForm(s.newEmail, s.isAdding, s.isAdding || Text.Trim(s.newEmail) == "")) else None,
        if HasText(s.error) then s.error else None))
  }

  /** Someone who cannot manage shares sees no control that changes them:
      no picker or remove button on any row and no add form. */
  lemma ReadOnlyViewer(isOpen: bool, s: State)
    ensures var v := View(isOpen, false, s);
      v.Some? && v.value.Loaded? ==>
        v.value.addForm.None? &&
        forall i :: 0 <= i < |v.value.rows| ==> v.value.rows[i].control.ReadOnly?
  {
  }
}

=== FILE: Text.dfy ===
/** String helpers with the meaning JavaScript gives them: prefix and suffix
    tests, ASCII case mapping, deleting a character, `String.prototype.trim`,
    `split`/`join` on one separator character, and decimal formatting of
    integers. */
module Text {

  predicate StartsWith(s: string, prefix: string) {
    |prefix| <= |s| && s[..|prefix|] == prefix
  }

  predicate EndsWith(s: string, suffix: string) {
    |suffix| <= |s| && s[|s| - |suffix|..] == suffix
  }

  // ---------------------------------------------------------------- case

  predicate IsLowerAscii(c: char) { 'a' <= c <= 'z' }

  predicate IsUpperAscii(c: char) { 'A' <= c <= 'Z' }

  /** `toUpperCase` of one character, for the ASCII letters. */
  function UpperChar(c: char): char {
    if IsLowerAscii(c) then (c as int - 32) as char else c
  }

  /** `toLowerCase` of one character, for the ASCII letters. */
  function LowerChar(c: char): char {
    if IsUpperAscii(c) then (c as int + 32) as char else c
  }

  function Upper(s: string): (r: string)
    ensures |r| == |s|
  {
    seq(|s|, i requires 0 <= i < |s| => UpperChar(s[i]))
  }

  function Lower(s: string): (r: string)
    ensures |r| == |s|
  {
    seq(|s|, i requires 0 <= i < |s| => LowerChar(s[i]))
  }

  /** Upper-casing forgets the case a string was typed in. */
  lemma UpperOfLower(s: string)
    ensures Upper(Lower(s)) == Upper(s)
  {
  }

  lemma UpperIdempotent(s: string)
    ensures Upper(Upper(s)) == Upper(s)
  {
  }

  lemma UpperAppend(a: string, b: string)
    ensures Upper(a + b) == Upper(a) + Upper(b)
  {
  }

  // -------------------------------------------------------------- remove

  /** `s.replace(/c/g, '')`: every occurrence of `c` deleted. */
  function Remove(s: string, c: char): (r: string)
    ensures c !in r
    ensures |r| <= |s|
  {
    if s == [] then [] else (if s[0] == c then [] else [s[0]]) + Remove(s[1..], c)
  }

  lemma {:induction false} RemoveAppend(a: string, b: string, c: char)
    ensures Remove(a + b, c) == Remove(a, c) + Remove(b, c)
  {
    if a == [] {
      assert a + b == b;
    } else {
      var h := if a[0] == c then [] else [a[0]];
      assert (a + b)[1..] == a[1..] + b;
      RemoveAppend(a[1..], b, c);
      calc {
        Remove(a + b, c);
        h + Remove(a[1..] + b, c);
        h + (Remove(a[1..], c) + Remove(b, c));
        (h + Remove(a[1..], c)) + Remove(b, c);
      }
    }
  }

  lemma RemoveOnly(c: char)
    ensures Remove([c], c) == []
  {
    assert [c][1..] == [];
  }

  lemma {:induction false} RemoveAbsent(s: string, c: char)
    requires c !in s
    ensures Remove(s, c) == s
  {
    if s != [] {
      RemoveAbsent(s[1..], c);
    }
  }

  lemma {:induction false} RemoveUpper(s: string, c: char)
    requires !IsLowerAscii(c) && !IsUpperAscii(c)
    ensures Remove(Upper(s), c) == Upper(Remove(s, c))
  {
    if s != [] {
      var h := if s[0] == c then [] else [s[0]];
      assert Upper(s)[1..] == Upper(s[1..]);
      assert Upper(s)[0] == c <==> s[0] == c;
      RemoveUpper(s[1..], c);
      UpperAppend(h, Remove(s[1..], c));
      assert Upper(h) == if Upper(s)[0] == c then [] else [Upper(s)[0]];
    }
  }

  // ---------------------------------------------------------------- trim

  /** The characters `String.prototype.trim` removes: the ECMAScript
      WhiteSpace and LineTerminator code points. */
  predicate IsJsWhitespace(c: char) {
    c == '\t' || c == '\n' || c == '\U{000B}' || c == '\U{000C}' || c == '\r'
    || c == ' ' || c == '\U{00A0}' || c == '\U{1680}'
    || ('\U{2000}' <= c <= '\U{200A}')
    || c == '\U{2028}' || c == '\U{2029}' || c == '\U{202F}' || c == '\U{205F}'
    || c == '\U{3000}' || c == '\U{FEFF}'
  }

  predicate AllWhitespace(s: string) {
    forall i :: 0 <= i < |s| ==> IsJsWhitespace(s[i])
  }

  function TrimStart(s: string): (r: string)
    ensures |r| <= |s| && r == s[|s| - |r|..]
    ensures r != [] ==> !IsJsWhitespace(r[0])
    ensures AllWhitespace(s[..|s| - |r|])
  {
    if s != [] && IsJsWhitespace(s[0]) then TrimStart(s[1..]) else s
  }

  function TrimEnd(s: string): (r: string)
    ensures |r| <= |s| && r == s[..|r|]
    ensures r != [] ==> !IsJsWhitespace(r[|r| - 1])
    ensures AllWhitespace(s[|r|..])
  {
    if s != [] && IsJsWhitespace(s[|s| - 1]) then TrimEnd(s[..|s| - 1]) else s
  }

  /** `s.trim()`. */
  function Trim(s: string): string {
    TrimEnd(TrimStart(s))
  }

  /** `!s.trim()` holds exactly for the strings made only of white space. */
  lemma TrimEmptyIffBlank(s: string)
    ensures Trim(s) == "" <==> AllWhitespace(s)
  {
    var t := TrimStart(s);
    if Trim(s) == "" {
      assert AllWhitespace(t);
      assert s == s[..|s| - |t|] + t;
    } else {
      var r := Trim(s);
      assert !IsJsWhitespace(r[0]);
      assert t[0] == r[0];
    }
  }

  /** The trimmed string is a slice of the input with no white space at
      either end, so trimming twice changes nothing. */
  lemma TrimIdempotent(s: string)
    ensures Trim(Trim(s)) == Trim(s)
  {
  }

  // --------------------------------------------------------- split / join

  /** `s.split(sep)` for a one-character separator. */
  function Split(s: string, sep: char): (parts: seq<string>)
    ensures |parts| >= 1
    ensures forall i :: 0 <= i < |parts| ==> sep !in parts[i]
  {
    if s == [] then [""]
    else
      var rest := Split(s[1..], sep);
      if s[0] == sep then [""] + rest else [[s[0]] + rest[0]] + rest[1..]
  }

  /** `parts.join(sep)`; the empty array joins to "". */
  function Join(parts: seq<string>, sep: char): string {
    if |parts| == 0 then ""
    else if |parts| == 1 then parts[0]
    else parts[0] + [sep] + Join(parts[1..], sep)
  }

  lemma JoinCons(p: string, ps: seq<string>, sep: char)
    requires |ps| >= 1
    ensures Join([p] + ps, sep) == p + [sep] + Join(ps, sep)
  {
    assert ([p] + ps)[1..] == ps;
  }

  lemma JoinPrefixChar(x: char, q: string, qs: seq<string>, sep: char)
    ensures Join([[x] + q] + qs, sep) == [x] + Join([q] + qs, sep)
  {
    if |qs| > 0 {
      JoinCons([x] + q, qs, sep);
      JoinCons(q, qs, sep);
    }
  }

  /** Splitting and joining again on the same separator gives back the input. */
  lemma {:induction false} JoinSplit(s: string, sep: char)
    ensures Join(Split(s, sep), sep) == s
  {
    if s != [] {
      var rest := Split(s[1..], sep);
      JoinSplit(s[1..], sep);
      if s[0] == sep {
        JoinCons("", rest, sep);
      } else {
        assert rest == [rest[0]] + rest[1..];
        JoinPrefixChar(s[0], rest[0], rest[1..], sep);
      }
    }
  }

  lemma {:induction false} SplitAbsent(p: string, sep: char)
    requires sep !in p
    ensures Split(p, sep) == [p]
  {
    if p != [] {
      SplitAbsent(p[1..], sep);
      assert [p[0]] + p[1..] == p;
    }
  }

  lemma {:induction false} SplitAfterPart(p: string, t: string, sep: char)
    requires sep !in p
    ensures Split(p + [sep] + t, sep) == [p] + Split(t, sep)
  {
    if p == [] {
      assert (p + [sep] + t)[1..] == t;
    } else {
      assert (p + [sep] + t)[1..] == p[1..] + [sep] + t;
      SplitAfterPart(p[1..], t, sep);
      assert [p[0]] + p[1..] == p;
    }
  }

  /** Joining parts that do not contain the separator and splitting again
      gives back the parts. */
  lemma {:induction false} SplitJoin(parts: seq<string>, sep: char)
    requires |parts| >= 1
    requires forall i :: 0 <= i < |parts| ==> sep !in parts[i]
    ensures Split(Join(parts, sep), sep) == parts
  {
    if |parts| == 1 {
      SplitAbsent(parts[0], sep);
    } else {
      SplitJoin(parts[1..], sep);
      SplitAfterPart(parts[0], Join(parts[1..], sep), sep);
      assert parts == [parts[0]] + parts[1..];
    }
  }

  /** `s.split(sep)[0]`: the text before the first separator, or all of it. */
  function Before(s: string, sep: char): (r: string)
    ensures sep !in r
    ensures sep !in s ==> r == s
  {
    if sep !in s then SplitAbsent(s, sep); Split(s, sep)[0] else Split(s, sep)[0]
  }

  lemma {:induction false} BeforeIsPrefix(s: string, sep: char)
    ensures StartsWith(s, Before(s, sep))
    ensures sep in s ==> |Before(s, sep)| < |s| && s[|Before(s, sep)|] == sep
  {
    if s != [] {
      BeforeIsPrefix(s[1..], sep);
    }
  }

  // ------------------------------------------------------------- decimal

  predicate IsDigit(c: char) { '0' <= c <= '9' }

  function DigitChar(d: nat): (c: char)
    requires d < 10
    ensures IsDigit(c)
  {
    "0123456789"[d]
  }

  function DigitValue(c: char): nat
    requires IsDigit(c)
  {
    c as int - '0' as int
  }

  /** `String(n)` for a non-negative integer. */
  function NatToDecimal(n: nat): (s: string)
    ensures |s| >= 1
    ensures forall i :: 0 <= i < |s| ==> IsDigit(s[i])
  {
    if n < 10 then [DigitChar(n)] else NatToDecimal(n / 10) + [DigitChar(n % 10)]
  }

  /** `String(n)` / `n.toString()` for an integer. */
  function IntToDecimal(n: int): string {
    if n < 0 then "-" + NatToDecimal(-n) else NatToDecimal(n)
  }

  /** The number a string of decimal digits denotes. */
  function DecimalValue(s: string): nat
    requires forall i :: 0 <= i < |s| ==> IsDigit(s[i])
  {
    if s == [] then 0 else 10 * DecimalValue(s[..|s| - 1]) + DigitValue(s[|s| - 1])
  }

  /** Reading back the decimal text of `n` gives `n`. */
  lemma {:induction false} DecimalRoundTrip(n: nat)
    ensures DecimalValue(NatToDecimal(n)) == n
  {
    if n >= 10 {
      var s := NatToDecimal(n);
      assert s[..|s| - 1] == NatToDecimal(n / 10);
      DecimalRoundTrip(n / 10);
    }
  }

  function Pow10(k: nat): nat {
    if k == 0 then 1 else 10 * Pow10(k - 1)
  }

  /** A number in [10^(k-1), 10^k) has exactly k digits, the first not zero. */
  lemma {:induction false} DecimalLength(n: nat, k: nat)
    requires k >= 1 && Pow10(k - 1) <= n < Pow10(k)
    ensures |NatToDecimal(n)| == k
    ensures k > 1 ==> NatToDecimal(n)[0] != '0'
  {
    if k > 1 {
      DecimalLength(n / 10, k - 1);
      assert NatToDecimal(n)[0] == NatToDecimal(n / 10)[0];
    }
  }
}

=== FILE: UserSwitcher.dfy ===
/** The user switcher in the dashboard header: a button labelled with the
    person whose projects are shown ("All Users" when nobody is chosen), and
    a list with one entry per user giving their name, "(you)" for the
    signed-in person, their project count and a mark on the chosen one. */
module UserSwitcher {
  import opened Wrappers
  import opened Json
  import Text
  import Accounts

  datatype User = User(email: string, name: Option<string>, projectCount: int)

  /** `users.find(u => u.email === email)`. */
  function FindByEmail(users: seq<User>, email: string): (r: Option<User>)
    ensures r.Some? ==> r.value.email == email && r.value in users
    ensures r.None? <==> forall i :: 0 <= i < |users| ==> users[i].email != email
  {
    if users == [] then None
    else if users[0].email == email then Some(users[0])
    else FindByEmail(users[1..], email)
  }

  /** The index of the first user with the given address, when there is one. */
  function FirstIndex(users: seq<User>, email: string): (i: nat)
    requires exists k :: 0 <= k < |users| && users[k].email == email
    ensures i < |users| && users[i].email == email
    ensures forall j :: 0 <= j < i ==> users[j].email != email
  {
    if users[0].email == email then 0
    else
      assert exists k :: 0 <= k < |users[1..]| && users[1..][k].email == email by {
        var k :| 0 <= k < |users| && users[k].email == email;
        assert users[1..][k - 1] == users[k];
      }
      1 + FirstIndex(users[1..], email)
  }

  /** `find` returns the user at the first index with a matching address. */
  lemma {:induction false} FindIsFirst(users: seq<User>, email: string)
    requires exists k :: 0 <= k < |users| && users[k].email == email
    ensures FindByEmail(users, email) == Some(users[FirstIndex(users, email)])
  {
    if users[0].email != email {
      var k :| 0 <= k < |users| && users[k].email == email;
      assert users[1..][k - 1] == users[k];
      FindIsFirst(users[1..], email);
    }
  }

  /** `selectedUserEmail ? users.find(...) : null`: an empty selection picks
      nobody. */
  function SelectedUser(users: seq<User>, selected: Option<string>): (r: Option<User>)
    ensures !HasText(selected) ==> r == None
    ensures HasText(selected) ==> r == FindByEmail(users, selected.value)
  {
    if HasText(selected) then FindByEmail(users, selected.value) else None
  }

  const AllUsers: string := "All Users"

  /** The name a user goes by: `user.name || user.email.split("@")[0]`. */
  function UserName(u: User): (r: string)
    ensures HasText(u.name) ==> r == u.name.value
    ensures !HasText(u.name) ==> r == Accounts.LocalPart(u.email)
  {
    Accounts.DisplayName(u.name, u.email)
  }

  /** The button's label. */
  function Label(users: seq<User>, selected: Option<string>): (r: string)
    ensures SelectedUser(users, selected).None? ==> r == AllUsers
    ensures SelectedUser(users, selected).Some? ==> r == UserName(SelectedUser(users, selected).value)
  {
    match SelectedUser(users, selected)
    case None => AllUsers
    case Some(u) => UserName(u)
  }

  /** "`n` project" with an "s" unless `n` is exactly 1. */
  function CountText(n: int): (r: string)
    ensures Text.StartsWith(r, Text.IntToDecimal(n) + " project")
    ensures |r| == |Text.IntToDecimal(n) + " project"| + (if n != 1 then 1 else 0)
    ensures n != 1 ==> r[|r| - 1] == 's'
  {
    var head := Text.IntToDecimal(n) + " project";
    var r := head + (if n != 1 then "s" else "");
    assert r[..|head|] == head;
    r
  }

  /** What one entry of the list shows. */
  datatype Entry = Entry(name: string, isCurrentUser: bool, count: string, isSelected: bool)

  function EntryOf(u: User, currentEmail: string, selected: Option<string>): (e: Entry)
    ensures e.isCurrentUser <==> u.email == currentEmail
    ensures e.isSelected <==> selected == Some(u.email)
    ensures e.name == UserName(u) && e.count == CountText(u.projectCount)
  {
    Entry(UserName(u), u.email == currentEmail, CountText(u.projectCount), selected == Some(u.email))
  }

  /** The list, one entry per user in order. */
  function Entries(users: seq<User>, currentEmail: string, selected: Option<string>): (es: seq<Entry>)
    ensures |es| == |users|
    ensures forall i :: 0 <= i < |users| ==> es[i] == EntryOf(users[i], currentEmail, selected)
  {
    seq(|users|, i requires 0 <= i < |users| => EntryOf(users[i], currentEmail, selected))
  }

  /** Whether the "All Users" option carries the mark: only for `null`. */
  predicate AllUsersMarked(selected: Option<string>) {
    selected.None?
  }

  /** What clicking an option passes to `onSelectUser`. */
  datatype Choice = ChooseAll | ChooseUser(u: User)

  function Choose(c: Choice): (selected: Option<string>)
    ensures c.ChooseAll? <==> selected.None?
    ensures c.ChooseUser? ==> selected == Some(c.u.email)
  {
    match c
    case ChooseAll => None
    case ChooseUser(u) => Some(u.email)
  }

  /** When the selection names someone in the list, the button shows the
      name on the first entry that carries the mark; otherwise it shows
      "All Users" and no entry is marked. */
  lemma LabelAgreesWithMarks(users: seq<User>, currentEmail: string, selected: Option<string>)
    requires HasText(selected)
    ensures var es := Entries(users, currentEmail, selected);
      SelectedUser(users, selected).None? <==> forall i :: 0 <= i < |es| ==> !es[i].isSelected
    ensures var es := Entries(users, currentEmail, selected);
      SelectedUser(users, selected).None? ==> Label(users, selected) == AllUsers
    ensures var es := Entries(users, currentEmail, selected);
      SelectedUser(users, selected).Some? ==>
        var k := FirstIndex(users, selected.value);
        && es[k].isSelected && Label(users, selected) == es[k].name
        && forall j :: 0 <= j < k ==> !es[j].isSelected
  {
    if SelectedUser(users, selected).Some? {
      var u := SelectedUser(users, selected).value;
      var i :| 0 <= i < |users| && users[i] == u;
      FindIsFirst(users, selected.value);
    }
  }

  /** After choosing a user from the list, the button shows the name of the
      first user with that address, and exactly the entries with that address
      carry the mark. */
  lemma ChoosingAUser(users: seq<User>, i: nat, currentEmail: string)
    requires i < |users| && users[i].email != ""
    ensures Label(users, Choose(ChooseUser(users[i]))) == UserName(users[FirstIndex(users, users[i].email)])
    ensures forall j :: 0 <= j < |users| ==>
      (Entries(users, currentEmail, Choose(ChooseUser(users[i])))[j].isSelected <==> users[j].email == users[i].email)
  {
    FindIsFirst(users, users[i].email);
  }

  /** Choosing "All Users" clears the selection: the button shows "All Users",
      that option is marked and no entry is. */
  lemma ChoosingAll(users: seq<User>, currentEmail: string)
    ensures var selected := Choose(ChooseAll);
      && Label(users, selected) == AllUsers
      && AllUsersMarked(selected)
      && forall i :: 0 <= i < |users| ==> !Entries(users, currentEmail, selected)[i].isSelected
  {
  }

  /** The count reads back as the number it was made from. */
  lemma CountReadsBack(n: nat)
    ensures var r := CountText(n);
      var digits := Text.Before(r, ' ');
      && digits == Text.NatToDecimal(n)
      && (forall i :: 0 <= i < |digits| ==> Text.IsDigit(digits[i]))
      && Text.DecimalValue(digits) == n
  {
    var d := Text.NatToDecimal(n);
    var r := CountText(n);
    assert r == d + (" project" + (if n != 1 then "s" else ""));
    BeforeDigits(d, " project" + (if n != 1 then "s" else ""));
    Text.DecimalRoundTrip(n);
  }

  /** The text before the first space of digits followed by a space-led
      tail is the digits. */
  lemma {:induction false} BeforeDigits(d: string, tail: string)
    requires forall i :: 0 <= i < |d| ==> Text.IsDigit(d[i])
    requires |tail| > 0 && tail[0] == ' '
    ensures Text.Before(d + tail, ' ') == d
  {
    Text.BeforeIsPrefix(d + tail, ' ');
    var b := Text.Before(d + tail, ' ');
    assert (d + tail)[|d|] == ' ';
    assert ' ' in d + tail;
    assert forall i :: 0 <= i < |d| ==> (d + tail)[i] == d[i];
    assert forall i :: 0 <= i < |b| ==> b[i] == (d + tail)[i];
    assert b == (d + tail)[..|b|];
  }
}

=== FILE: Widgets.dfy ===
/** The dashboard configuration that the YAML/JSON dashboard files hold and
    the dashboard components receive: a list of widgets, each bound to a query
    by name. The widget's `data` is the path of its data file while stored and
    its loaded rows once attached, so the type is generic in it. */
module Widgets {
  import opened Wrappers

  /** One widget. `kind` is the source's `type` field ("metric", "chart",
      "table", or anything else a hand-edited file holds). */
  datatype Widget<D> = Widget(
    kind: string,
    title: Option<string>,
    queryName: Option<string>,
    data: D,
    valueKey: Option<string>,
    chartType: Option<string>,
    xKey: Option<string>,
    yKey: Option<string>,
    columns: Option<seq<string>>,
    hidden: Option<bool>,
    id: Option<string>)

  /** The top-level dashboard configuration. */
  datatype DashboardConfig<D> = DashboardConfig(
    title: Option<string>,
    description: Option<string>,
    layout: Option<string>,
    widgets: seq<Widget<D>>)

  /** `!!widget.hidden`: an absent flag counts as shown. */
  predicate IsHidden<D>(w: Widget<D>) {
    w.hidden == Some(true)
  }

  /** The two widgets agree on every field except possibly `data`. */
  predicate SameExceptData<D, E>(w: Widget<D>, v: Widget<E>) {
    && w.kind == v.kind && w.title == v.title && w.queryName == v.queryName
    && w.valueKey == v.valueKey && w.chartType == v.chartType
    && w.xKey == v.xKey && w.yKey == v.yKey && w.columns == v.columns
    && w.hidden == v.hidden && w.id == v.id
  }

  /** The two widgets agree on every field except possibly `hidden`. */
  ghost predicate SameExceptHidden<D>(w: Widget<D>, v: Widget<D>) {
    w.(hidden := None) == v.(hidden := None)
  }
}

=== FILE: Wrappers.dfy ===
/** Optional values and results with an error, used wherever the source has
    `null`/`undefined` or an early error exit. */
module Wrappers {

  /** `undefined`/`null` (None) or a present value (Some). */
  datatype Option<+T> = None | Some(value: T) {

    /** The value, or `default` when absent. */
    function GetOr(default: T): T {
      match this
      case Some(v) => v
      case None => default
    }
  }

  /** A computed value, or the error the source reports instead of it. */
  datatype Result<+T, +E> = Ok(value: T) | Err(error: E)

  /** What an awaited call did: returned a value, or threw. */
  datatype Attempt<+T> = Done(value: T) | Threw
}
